=== FILE: README.md ===
# Lecture companion — a Dafny model of its core

The lecture companion is a study tool. A student opens a session for a lecture and
uploads the slides or notes as PDF or PowerPoint files. The backend extracts their text
and marks every page or slide with a header line (`--- page 3 ---`), then cuts the text
into chunks that remember which page or slide they came from. During the lecture the
student types questions on a capture page. Later, each question is explained by a
language model: the backend builds a keyword query from the question, searches the
session's chunks, writes a prompt that numbers the hits so the answer can cite them,
and stores one answer per question together with its sources.

This project models that core in Dafny:

- **Backend: text processing.**
  - `Markers`: the marker-line grammar.
  - `Chunking`: splitting the extracted text at the markers, then cutting it into chunks.
  - `Extract`: extracting text from PDF and PowerPoint documents.
  - `Keywords`: building the keyword query.
  - `Prompt`: building the prompt.
- **Backend: storage and routes.**
  - `Store`: the persistence rules of the CRUD layer over an in-memory store.
  - `Hybrid`: the hybrid full-text and semantic merge.
  - `Uploads`, `ChunkRoutes`, `Explain`: the upload, chunking, search and explain routes.
- **Frontend: the two list pages.**
  - `ListPage`: the behaviour both pages share.
  - `Capture`: the capture page, with its optimistic question entry.
  - `SessionsPage`: the sessions page, with its create form.
- **Shared.**
  - `Entities`: the rows of the database.
  - `Text`: Python's and JavaScript's string primitives.
  - `Sorting`: a stable sort that stands for `ORDER BY` and `sorted`.
  - `Wrappers`: `Option`, `Result` and `Outcome`.

The database, the PDF and PowerPoint libraries, the language model, the searches and the
clocks are not modelled. Each one is replaced by what it hands to the code:
- the store is a value;
- a document is the list of its page texts, or the list of its slides' shape texts, or the exception it raises;
- `search` and `generate` are function parameters;
- the current time is a number parameter.

Two properties link the parts. The first is a round trip: the text that
`extract_pdf`/`extract_pptx` produce is read back by `split_by_markers` into exactly one
block per non-blank page or slide, with the right `page <n>`/`slide <n>` ref
(`Extract.PdfRoundTrip`, `Extract.PptxRoundTrip`). The second is the paragraph-aware
window of `chunk_text`: the chunks are the non-blank stripped texts of windows that
cover the normalised text in order, so no character of it is lost
(`Chunking.ChunkTextCovers`); `Chunking.CollapseAppend`, `Chunking.CollapseChar` and
`Chunking.CollapseRun` pin the normalisation itself. As the
code is written, consecutive windows can share text. With the window end the paragraph
cut evidently intends, the windows are a partition of the text
(`ChunkingCorrected.CorrectedChunkTextWindows`).

In the places below a reader might expect other behaviour; the model follows the code:
- A reader might expect an uploaded file to pass through an intermediate "uploaded"
  state. The upload route writes only `EXTRACTED` or `FAILED` resources.
- A reader might expect the capture page's optimistic question to take one more than the
  largest `order_index`. It takes one more than the *last* entry's index (or 1 when that
  index is 0). `Capture.SubmitKeepsAscending` shows the two agree on a list whose indexes
  rise from 1.
- A reader might expect `explain_one` to keep an existing answer unless forced. It has no
  `force` argument: it always regenerates.
- A reader might expect `explain_all` to reject an unknown session or one without
  material. It checks neither; an unknown session simply selects no questions.
- A reader might expect the `overlap` of `chunk_text` to make consecutive chunks share
  text. It has no effect: the cursor advances to `max(end - overlap, end)`, which is `end`
  for every non-negative overlap (`Chunking.OverlapIrrelevant`).
- A reader might expect a paragraph cut of `chunk_text` to end the window at the break.
  As written, after a cut the window's end is `i + cut`, with `cut` an offset into the
  stripped window. `make_chunks` and the chunking routes use this chunker. The corrected
  cut, described under Findings, is kept beside it in `ChunkingCorrected`.

## Model

| member | source | states |
|---|---|---|
| Markers.ParseMarkerComplete | backend/app/chunking.py:7 | every line that, once stripped, has the marker shape (`---`, whitespace, `page`/`slide` in any case, whitespace, digits, whitespace, `---`) is recognised, with ref "lower-cased kind, space, digits" |
| Markers.ParseMarkerSound | backend/app/chunking.py:7 | conversely, every recognised line has that shape, and its ref is built from the kind and digits it contains |
| Markers.ParseMarkerPadded | backend/app/chunking.py:25 | whitespace around a line never changes whether, or as what, it is recognised |
| Markers.HeaderIsMarker | backend/app/extract.py:17 | the header line the extractors write for page or slide `n` is a marker whose ref is `page n` / `slide n` |
| Chunking.Group | backend/app/chunking.py:24-37 | every section the loop closes has at least one line, and none of its lines is a marker |
| Chunking.GroupTagged | backend/app/chunking.py:24-37 | the sections' lines, read in order with their section's ref, are exactly the document's non-marker lines, each tagged with the ref of the nearest marker above it |
| Chunking.GroupUnfold | backend/app/chunking.py:24-37 | a document made of marker-headed sections is grouped into exactly those sections, after whatever came before the first marker |
| Chunking.Blocks | backend/app/chunking.py:43-47 | every block is non-empty and already stripped; blank sections are dropped |
| Chunking.SplitBy | backend/app/chunking.py:10-48 | at least one block; without any marker line the text comes back untouched with no ref; otherwise every block is non-blank and stripped, unless the fallback returns the untouched text |
| Chunking.SplitByMarkersClean | backend/app/chunking.py:24-47 | unless the text comes back untouched, no line of any block is a marker line |
| Chunking.SplitByUnfold | backend/app/chunking.py:10-48 | a text whose lines are marker-headed sections with non-blank bodies splits into one block per section, in order, with the section's ref and its stripped body |
| Chunking.Collapse | backend/app/chunking.py:56 | the result has no run of three line feeds, is no longer than the input, is empty exactly when the input is, and keeps a first character that is not a line feed |
| Chunking.CollapseFixpoint | backend/app/chunking.py:56 | text without a run of three line feeds is left unchanged |
| Chunking.CollapseIdempotent | backend/app/chunking.py:56 | collapsing twice is collapsing once |
| Chunking.CollapseChar | backend/app/chunking.py:56 | a character other than a line feed is kept |
| Chunking.CollapseRun | backend/app/chunking.py:56 | a run of `k` line feeds becomes `min(k, 2)` line feeds |
| Chunking.CollapseAppend | backend/app/chunking.py:56 | collapsing a concatenation is collapsing the parts, when the cut is not inside a run of line feeds; with CollapseChar and CollapseRun this determines the result on every text |
| Chunking.RFindBreak | backend/app/chunking.py:70 | the result is -1 or the position of a paragraph break (two line feeds) with no break after it |
| Chunking.CutWindow | backend/app/chunking.py:72-73 | cutting the stripped window at offset `cut` is cutting the raw window at its leading whitespace plus `cut`, so the chunk's text runs past `i + cut`, the end the code records |
| Chunking.Window | backend/app/chunking.py:65-73 | a window ends after its start, within the text and within `max_chars`, even with the end recorded as `i + cut`; its chunk is no longer than the stretch up to that end |
| Chunking.Reach | backend/app/chunking.py:65-73 | the point where the chunk's text ends lies after the window's start and no further than `min(i + max_chars, n)` |
| Chunking.WindowReach | backend/app/chunking.py:69-73 | the reach is the recorded end, or lies past it by exactly the window's leading whitespace |
| Chunking.WindowChunk | backend/app/chunking.py:66-73 | the reach is never before the recorded end, and the window's chunk is the stripped text from `i` to its reach |
| Chunking.WindowCutsOnBreak | backend/app/chunking.py:65-73 | either the window ends at `min(i + max_chars, n)`, or that bound falls short of the text's end, the chunk stops at a paragraph break at least 60% of `max_chars` into the stripped window, and the recorded end lies that window's leading whitespace before the break |
| Chunking.ChunkFrom | backend/app/chunking.py:64-81 | every chunk is non-empty and at most `max_chars` long |
| Chunking.ChunkText | backend/app/chunking.py:51-83 | no chunks exactly when the normalised text is empty; every chunk is non-empty and at most `max_chars` long |
| Chunking.ChunkFromCovers | backend/app/chunking.py:64-81 | the chunks are the non-blank stripped texts of windows whose cursors climb from the start to the end of the text, at most `max_chars` apart; each window's text reaches at least to the next cursor and at most `max_chars` past its own, so nothing is skipped, though consecutive chunks may share text |
| Chunking.ChunkTextCovers | backend/app/chunking.py:51-83 | the same, for `chunk_text` over the whole normalised text |
| Chunking.OverlapIrrelevant | backend/app/chunking.py:81 | every non-negative overlap gives the same chunks as overlap 0 |
| Chunking.ChunksAreSlices | backend/app/chunking.py:51-83 | every chunk is one contiguous piece of the normalised text |
| Chunking.ChunkBlocks | backend/app/chunking.py:90-95 | every chunk is non-empty, at most 1400 characters long, and carries the ref of some block |
| Chunking.ChunkBlocksOne | backend/app/chunking.py:92-94 | a single block gives its `chunk_text` chunks, in order, each tagged with the block's ref |
| Chunking.ChunkBlocksAppend | backend/app/chunking.py:92-94 | the chunks of consecutive blocks are the first blocks' chunks followed by the rest's |
| Chunking.MakeChunks | backend/app/chunking.py:86-95 | every chunk is non-empty, at most 1400 characters long, and carries the ref of one of the text's blocks |
| Chunking.MakeChunksUnmarked | backend/app/chunking.py:86-95 | text without marker lines is chunked as one block with no ref |
| ChunkingCorrected.CorrectedWindow | backend/app/chunking.py:65-73 | with the end at the break itself (`i` plus the window's leading whitespace plus `cut`), a window still ends after its start, within the text and within `max_chars` |
| ChunkingCorrected.CorrectedAgrees | backend/app/chunking.py:69-73 | the corrected window takes the chunk the code takes and ends at that chunk's reach, never before the end the code records |
| ChunkingCorrected.CorrectedWindowChunk | backend/app/chunking.py:66-73 | the corrected window's chunk is the stripped text between its start and its end |
| ChunkingCorrected.CorrectedCutsOnBreak | backend/app/chunking.py:65-73 | a corrected window ends before `min(i + max_chars, n)` only when that bound falls short of the text's end, and then it ends on a paragraph break at least 60% of `max_chars` into the window |
| ChunkingCorrected.CorrectedChunkFrom | backend/app/chunking.py:64-81 | with corrected windows, every chunk is non-empty and at most `max_chars` long |
| ChunkingCorrected.CorrectedChunkText | backend/app/chunking.py:51-83 | corrected, no chunks exactly when the normalised text is empty; every chunk is non-empty and at most `max_chars` long |
| ChunkingCorrected.CorrectedChunkFromWindows | backend/app/chunking.py:64-81 | corrected, the chunks are the non-blank stripped windows of a partition of the text into consecutive pieces of at most `max_chars` characters |
| ChunkingCorrected.CorrectedChunkTextWindows | backend/app/chunking.py:51-83 | the same, for the corrected `chunk_text` over the whole normalised text |
| ChunkingCorrected.AsWrittenRepeatsText | backend/app/chunking.py:69-73 | for every three-paragraph text whose windows cut on both breaks, the third chunk as written starts again with the last two characters of the second paragraph |
| ChunkingCorrected.CorrectedSplitsText | backend/app/chunking.py:69-73 | for the same texts, the corrected chunker gives exactly the three paragraphs |
| ChunkingCorrected.SampleChunks | backend/app/chunking.py:51-83 | on `"aaaaaaaa\n\nbbbbbbbb\n\ncc"` with `max_chars` 13 the code as written gives `"bb\n\ncc"` as third chunk; corrected, it gives `"cc"` |
| Extract.ExtractText | backend/app/extract.py:36-53 | the status is EXTRACTED or FAILED; EXTRACTED exactly when the chosen library succeeds, and then the text is the PDF extraction when the file is a PDF by name or type, else the PowerPoint extraction; an unsupported type fails with the fixed message; a library exception fails with `Extraction error: ` and its message |
| Extract.PdfBeforePptx | backend/app/extract.py:43-49 | a file that is a PDF by name or by type is read as a PDF, even when the other test says PowerPoint |
| Extract.ExtractedIsStripped | backend/app/extract.py:11-33 | extracted text never starts or ends with whitespace |
| Extract.PageEntries | backend/app/extract.py:14-17 | the entries are pages with non-blank text, each with its page number and text, in increasing page order |
| Extract.PageEntriesComplete | backend/app/extract.py:14-17 | every page with non-blank text has its entry |
| Extract.PageEntriesEmpty | backend/app/extract.py:14-17 | there is no entry exactly when every page is blank |
| Extract.PdfBlank | backend/app/extract.py:11-18 | a document whose pages are all blank extracts to the empty text |
| Extract.ShapeTexts | backend/app/extract.py:26-30 | a slide's texts are non-empty and stripped, and there are none exactly when every shape lacks text or is blank |
| Extract.SlideEntries | backend/app/extract.py:24-32 | the entries are slides with some non-blank shape, each with its number and its shape texts one per line, in increasing slide order |
| Extract.SlideEntriesComplete | backend/app/extract.py:24-32 | every slide with a non-blank shape has its entry |
| Extract.RenderRoundTrip | backend/app/extract.py:11-33 | `split_by_markers` reads the rendered entries back as one block per entry, in order, with ref `<kind> <n>` and the entry's text stripped |
| Extract.PdfRoundTrip | backend/app/extract.py:11-18 | `split_by_markers(extract_pdf(...))` gives one block per non-blank page, with ref `page <i>` and the page's stripped text, when no page contains a marker-shaped line |
| Extract.PptxRoundTrip | backend/app/extract.py:21-33 | `split_by_markers(extract_pptx(...))` gives one block per slide with text, with ref `slide <i>` and its shape texts one per line, when no shape contains a marker-shaped line |
| Keywords.Scrub | backend/app/routers/explain.py:20 | same length as the question; each word character is lowercased in place, whitespace is kept, and every other character becomes a space |
| Keywords.TokensShape | backend/app/routers/explain.py:20 | every token is a non-empty run of scrubbed characters without whitespace |
| Keywords.Filter | backend/app/routers/explain.py:21 | the kept tokens are exactly the input tokens of length at least 3 that are not stop words |
| Keywords.FilterSingle | backend/app/routers/explain.py:21 | one token is kept exactly when it has at least 3 characters and is not a stop word |
| Keywords.FilterAppend | backend/app/routers/explain.py:21 | filtering a concatenation is filtering the parts; with FilterSingle this keeps the tokens' order and repetitions |
| Keywords.FirstOccurrences | backend/app/routers/explain.py:22-27 | the result has no repeats and holds exactly the input's tokens |
| Keywords.CollectFirstDistinct | backend/app/routers/explain.py:22-27 | the loop keeps, in order, the first eight distinct tokens |
| Keywords.CollectLoop | backend/app/routers/explain.py:22-27 | the imperative loop computes the first eight distinct tokens |
| Keywords.KeywordsShape | backend/app/routers/explain.py:19-28 | the keywords are at most eight distinct tokens of the question, each a lowercase run of word characters of length at least 3 that is not a stop word |
| Keywords.NoKeywordsFallback | backend/app/routers/explain.py:28 | when no token survives the filter, the query is the stripped question |
| Keywords.SomeKeywords | backend/app/routers/explain.py:28 | otherwise the query is the keywords joined by single spaces |
| Keywords.KeywordizeIdempotent | backend/app/routers/explain.py:19-28 | keywordizing a query again gives the same query |
| Prompt.RefLabel | backend/app/routers/explain.py:34 | the label starts with the filename; it is just the filename exactly when the page ref is absent or empty, and otherwise ends with ` • ` and the ref |
| Prompt.BuildPrompt | backend/app/routers/explain.py:30-53 | the prompt is exactly the fixed instructions and the question, followed by the context block: it starts with the one, ends with the other, and is as long as both together |
| Prompt.ContextNumbered | backend/app/routers/explain.py:33-35 | entry `k` reads back as number `k + 1` and ends with its hit's label and text |
| Prompt.NoHitsBlock | backend/app/routers/explain.py:37 | without hits, the context block is `(No context found.)` |
| Text.SplitLines | backend/app/chunking.py:16 | no line contains a line feed; no lines exactly for the empty text; joining the lines with line feeds, plus the trailing line feed if any, gives back the text |
| Text.DecimalRoundTrip | backend/app/routers/explain.py:35 | the decimal rendering of a number reads back as that number |
| Store.Select | backend/app/crud.py:44-50 | the selection holds exactly the rows that satisfy the condition, in store order |
| Store.MaxOrder | backend/app/crud.py:59-62 | none exactly when the session has no question; otherwise the largest `order_index` among the session's questions |
| Store.CreateQuestion | backend/app/crud.py:58-69 | the new question is appended with a fresh id, and its `order_index` is the session's largest index (or 0) plus one |
| Store.CreateQuestionOrders | backend/app/crud.py:58-69 | the new question comes after every question of its session; other sessions' questions are untouched; the store stays valid |
| Store.ListQuestions | backend/app/crud.py:44-50 | the result is a permutation of the session's questions, sorted by `order_index` |
| Store.ListUnanswered | backend/app/crud.py:252-259 | a permutation of the session's unanswered questions, each once, sorted by `order_index` |
| Store.ListResources | backend/app/crud.py:106-125 | exactly the session's resources, newest first |
| Store.CreateResource | backend/app/crud.py:80-103 | the row keeps the text only when EXTRACTED and the error only when FAILED, and is stamped with the time only for those two statuses |
| Store.CreateResourceValid | backend/app/crud.py:80-103 | creating a resource keeps the store valid |
| Store.CreateChunks | backend/app/crud.py:133-157 | returns the number of pieces and changes only the chunks |
| Store.CreateChunksReplaces | backend/app/crud.py:139-155 | afterwards the resource's chunks are exactly the new rows, and every other resource's chunks are unchanged |
| Store.CreateChunksValid | backend/app/crud.py:133-157 | replacing a resource's chunks keeps the store valid |
| Store.FindAnswer | backend/app/crud.py:226-228 | the first answer to the question, or none exactly when it has no answer |
| Store.UpsertAnswer | backend/app/crud.py:231-249 | the saved answer carries the question, markdown and sources given; only the answers change |
| Store.UpsertAnswerUnique | backend/app/crud.py:231-249 | afterwards the question has exactly one answer, the returned one: the existing answer updated in place, or a new one appended; other answers stay where they were |
| Store.UpsertTwice | backend/app/crud.py:231-249 | a second upsert for the same question adds no answer |
| Sorting.SortBy | backend/app/crud.py:335 | the result is sorted by the key and is a permutation of the input |
| Sorting.SortByPairwise | backend/app/crud.py:335 | sorting keeps any relation that held between every two positions |
| Hybrid.CombinedIsReference | backend/app/crud.py:320-333 | the two loops build the reference dict: each full-text hit in order, with the semantic score added when that search found it too, then the chunks only the semantic search found |
| Hybrid.SemLoopReference | backend/app/crud.py:327-333 | the semantic loop over the full-text dict gives the reference dict |
| Hybrid.ReferenceComplete | backend/app/crud.py:320-333 | every chunk either search found has an entry |
| Hybrid.MergeIsSorted | backend/app/crud.py:335-341 | the merged hits are the first `limit` entries of the dict sorted by descending score, with the score as rank |
| Hybrid.MergeDistinct | backend/app/crud.py:320-336 | no chunk appears twice among the merged hits |
| Hybrid.MergeOrdered | backend/app/crud.py:335-341 | the merged hits come by descending final rank |
| Hybrid.MergeEntriesOk | backend/app/crud.py:320-341 | each merged hit's source names exactly the searches that found it, and its rank is the weighted sum 0.45·fts + 0.55·semantic of the ranks it was found with |
| Hybrid.MergeComplete | backend/app/crud.py:317-336 | when the two searches found at most `limit` hits, every chunk either found is among the merged hits |
| Explain.FindQuestion | backend/app/routers/explain.py:57 | the position of the question with the id, or none exactly when there is no such question |
| Explain.ExplainOne | backend/app/routers/explain.py:55-74 | an unknown question gives 404 `Question not found` and leaves the store unchanged; a known one always gets an answer |
| Explain.ExplainStep | backend/app/routers/explain.py:61-73 | one step changes only the answers; it saves the model's reply to the prompt built from the question and its hits, with one source per hit in hit order, and keeps every other question's answer |
| Explain.ExplainKeepsAnswers | backend/app/routers/explain.py:73 | no question that had an answer loses it |
| Explain.ExplainConsistent | backend/app/routers/explain.py:61-73 | a question of a consistent store gets an answer in its own session, and the store stays consistent |
| Explain.ExplainOneSpec | backend/app/routers/explain.py:55-74 | 404 exactly for an unknown id, with nothing changed; otherwise the saved answer belongs to that question and its session, holds the model's reply and one source per hit, and the store stays consistent |
| Explain.ExplainEachSpec | backend/app/routers/explain_all.py:86-106 | the loop answers every given question, in order, one answer each; it keeps the questions and every earlier answer |
| Explain.ExplainEachSessions | backend/app/routers/explain_all.py:86-106 | on a consistent store every saved answer carries its question's session |
| Explain.ExplainAllSpec | backend/app/routers/explain_all.py:70-108 | the count is the number of selected questions: all of the session's with `force`, else the unanswered ones. Answers come in selection order, an empty selection changes nothing, and the store stays valid, so even a forced run never gives a question a second answer |
| Explain.ExplainAllSettles | backend/app/routers/explain_all.py:76-82 | after a run without `force` every question of the session is answered, so a second such run reports 0 |
| Explain.AllAnswered | backend/app/routers/explain_all.py:70-108 | after a run without `force` no question of the session is left unanswered |
| Explain.NothingUnanswered | backend/app/crud.py:252-259 | when every question of the session is answered, the unanswered list is empty |
| Explain.ExplainAllSessions | backend/app/routers/explain_all.py:70-108 | every answer saved carries the session, and the store stays consistent |
| Uploads.ReplaceSeparators | backend/app/routers/resources.py:19 | same length; every `/` and `\` becomes `_` and every other character is kept |
| Uploads.SafeFilename | backend/app/routers/resources.py:17-22 | the result is non-empty and contains no path separator |
| Uploads.SafeFilenameOf | backend/app/routers/resources.py:17-22 | a blank name becomes `file`; any other name becomes the stripped separator-free name, a slice of it |
| Uploads.SafeFilenameFixed | backend/app/routers/resources.py:17-22 | a name with no separator and no surrounding whitespace is kept as it is |
| Uploads.SafeFilenameIdempotent | backend/app/routers/resources.py:17-22 | sanitising a safe name changes nothing |
| Uploads.OriginalNameOf | backend/app/routers/resources.py:48 | a file sent without a name is called `upload`; the name used is never empty and has no separator |
| Uploads.RowRecords | backend/app/routers/resources.py:57-80 | the row records the safe name, content type and path, the extracted text on success or the extractor's message as error otherwise, and the time |
| Uploads.UploadEachSpec | backend/app/routers/resources.py:46-84 | one resource per file, in file order, appended with consecutive fresh ids; nothing else changes |
| Uploads.UploadResources | backend/app/routers/resources.py:39-41 | an unknown session gives 404 `Session not found` and changes nothing |
| Uploads.UploadResourcesSpec | backend/app/routers/resources.py:33-84 | 404 exactly for an unknown session; otherwise exactly one row per file, in file order, appended to the resources, and the store stays valid |
| ChunkRoutes.FindResource | backend/app/routers/chunks.py:18 | the position of the resource with the id, or none exactly when there is no such resource |
| ChunkRoutes.ChunkOneSpec | backend/app/routers/chunks.py:12-27 | a missing session gives 404; a missing resource or one of another session gives 404; a resource not extracted or with empty text gives 400. Errors change nothing. Otherwise the resource's chunks become `make_chunks` of its text, their number is returned, and other chunks stay |
| ChunkRoutes.ChunkEachSpec | backend/app/routers/chunks.py:42-48 | every resource is counted once, as processed exactly when it is chunkable; the created count is the sum of their chunks; only chunks change; unprocessed resources keep their chunks |
| ChunkRoutes.KeptOthers | backend/app/crud.py:139-155 | replacing one resource's chunks leaves another resource's chunks as they were |
| ChunkRoutes.ChunkAllSpec | backend/app/routers/chunks.py:30-50 | 404 exactly for an unknown session, with nothing changed; otherwise processed plus skipped is the number of session resources, and the counts match the chunkable ones |
| ChunkRoutes.ProcessedCountIsSelection | backend/app/routers/chunks.py:42-48 | the processed count is the number of chunkable resources |
| ChunkRoutes.SearchChunks | backend/app/routers/chunks.py:53-65 | an empty query or a limit outside 1..20 is rejected first; then an unknown session gives 404; otherwise the search runs with the given limit, or 6 |
| Capture.TempId | frontend/components/CapturePage.tsx:44 | the temporary id starts with `temp-` |
| Capture.NextOrder | frontend/components/CapturePage.tsx:48 | 1 for an empty list or when the last entry's index is 0; otherwise the last entry's index plus one |
| Capture.BeginSubmit | frontend/components/CapturePage.tsx:36-51 | blank input changes nothing and sends nothing; otherwise a pending entry with the trimmed text and the next order is appended, and the input and error are cleared |
| Capture.RemoveId | frontend/components/CapturePage.tsx:61 | exactly the entries without the id remain |
| Capture.ReplaceInPlace | frontend/components/CapturePage.tsx:56-58 | when one entry holds the id, the created question takes its place |
| Capture.RemoveInPlace | frontend/components/CapturePage.tsx:61 | when one entry holds the id, exactly that entry is removed and the others keep their order |
| Capture.SubmitRoundTrip | frontend/components/CapturePage.tsx:36-64 | a confirmed submit ends with the list grown by the created question; a failed one ends with the list as before and the error shown |
| Capture.SubmitKeepsAscending | frontend/components/CapturePage.tsx:48-50 | on a list whose order indexes rise from 1, the optimistic entry keeps them rising |
| Capture.RefreshQuestions | frontend/components/CapturePage.tsx:14-25 | a loaded list replaces the old one and clears the error; a failure keeps the list and shows the message or `Failed to load questions`; the input is untouched |
| ListPage.Refresh | frontend/components/SessionsPage.tsx:17-28 | afterwards the page is not loading; there is no error exactly when the load succeeded; success replaces the list, and failure keeps it |
| ListPage.RefreshForgets | frontend/components/SessionsPage.tsx:17-28 | a successful refresh does not depend on the page before it |
| ListPage.RefreshFailsTwice | frontend/components/SessionsPage.tsx:17-28 | two failed refreshes leave the list as it was |
| SessionsPage.Payload | frontend/components/SessionsPage.tsx:36-43 | a request is sent exactly when the title is not blank; it carries the trimmed title, and topics are sent untrimmed, or null when blank |
| SessionsPage.OnCreate | frontend/components/SessionsPage.tsx:34-50 | a blank title changes nothing |
| SessionsPage.OnCreateSpec | frontend/components/SessionsPage.tsx:34-50 | a created session goes first, the others keep their order, and the form is cleared; a failure keeps the list and form and shows the message or `Failed to create session` |
| SessionsPage.CreatedClearsForm | frontend/components/SessionsPage.tsx:44-45 | after a successful create the form cannot create again until a title is typed |
| SessionsPage.RefreshSessions | frontend/components/SessionsPage.tsx:17-28 | a loaded list replaces the old one; a failure keeps it and shows the message or `Failed to load sessions`; the form is untouched |

## Left out

**Scope**

- The database is an in-memory value. SQL, transactions, foreign keys and `CASCADE` are not
  modelled. Row ids are naturals handed out by a counter, in place of uuid4.
- `created_at` ordering is not modelled. `list_resources` orders by it descending, and the
  model reads that as newest first: store order reversed.
- The order among rows with equal sort keys is taken from store order. SQL leaves it
  unspecified.
- The full-text search (`ts_rank`), the semantic search (pgvector) and the embeddings are
  search results given as parameters. `create_chunks_for_resource_with_embeddings` and the
  `/semantic-search` route are not modelled.
- The language model (`ollama_generate`) is a function parameter.
- The PDF and PowerPoint libraries are replaced by what they yield: page texts, shape
  texts, or an exception message.
- Files are not written to disk. The stored path comes with each upload, because it is
  built from a random uuid. The uploaded bytes do not appear.
- The route takes one `now` for every resource of an upload. The real timestamps are taken
  per row.
- Floating-point scores and ranks are exact reals, so `0.45` and `0.55` are exact.
- `cut >= max_chars * 0.6` is modelled as `5 * cut >= 3 * max_chars`. This is exact for
  integers that a float represents.
- FastAPI plumbing is not modelled: request parsing, response models, dependency
  injection, the body of a 422 validation error, and `serialize_answer` (the answers are
  returned as they are saved).
- An answer's sources are a list of records. The database stores them as JSON text.
- The React effects that scroll and reload on mount are not modelled, nor the rendering.
  The request a page sends is a parameter, and so is its outcome.
- `keywordize` and `build_prompt` appear twice in the source, verbatim. They are
  modelled once.

**Strings**

- Characters follow ASCII rules. `\w`, `\d`, `lower()`, `str.strip()`, `str.split()` and
  JavaScript's `trim()` use the ASCII classes: whitespace is space and `\t` to `\r`.
- `splitlines()` splits on `\n` only. Python also splits on `\r`, `\x0b`, `\x0c`,
  `\x1c`-`\x1e`, `\x85` and the Unicode line separators.

**Weaker contracts**

- Chunking.ChunkText: requires `max_chars > 0`. With zero or less and a non-negative
  overlap the call never returns: the cursor stays put for `max_chars` 0, and for a
  negative `max_chars` it may move forward once and then moves back forever, because the
  slice end `i + max_chars` is then counted from the end of the text. `make_chunks`, the
  only caller, passes 1400. With `max_chars` 0 and a negative overlap the cursor advances
  by the overlap's size; that case and the other negative-overlap cases are not modelled.
- Chunking.ChunkTextCovers: states the cover for a non-negative overlap only. A
  negative overlap makes the cursor skip characters.
- ChunkingCorrected.CorrectedChunkTextWindows: states the partition for a non-negative
  overlap only, for the same reason.
- Capture.SubmitRoundTrip: assumes no other entry already holds the temporary id. Two
  submits in the same millisecond would share it.
- Hybrid.MergeDistinct: requires each search to return every chunk at most once. Database
  rows are unique, so they do.
- Hybrid.CombinedIsReference: requires the same. With a repeated chunk id the dict
  would merge the repeats.
- Hybrid.SemLoopReference: requires the same.
- Hybrid.MergeEntriesOk: requires the same.
- Hybrid.MergeComplete: requires the same.
- Sorting.SortBy: the sort is stable, so equal scores keep dict order as Python's `sorted`
  does. That stability is not stated as a contract.
- Explain.ExplainOneSpec: requires the store to be consistent: question ids unique, and
  every answer in its question's session. The database guarantees both.
- Extract.PdfRoundTrip: requires that no page contains a line shaped like a marker.
  Such a line would be read as a marker.
- Extract.PptxRoundTrip: requires the same of every shape.

## Findings

| source | as written | input that shows it | evidently intended | confidence | as-written member | corrected member |
|---|---|---|---|---|---|---|
| backend/app/chunking.py:69-73 | `end = i + cut`. The offset `cut` is measured in the stripped window, so when the window starts with whitespace the next window starts early. That whitespace is always there after a paragraph cut. | `chunk_text("aaaaaaaa\n\nbbbbbbbb\n\ncc", 13)` gives `["aaaaaaaa", "bbbbbbbb", "bb\n\ncc"]`: the tail of the second paragraph is repeated | `end = i + <leading whitespace of the window> + cut`, giving `["aaaaaaaa", "bbbbbbbb", "cc"]` | not executed | ChunkingCorrected.AsWrittenRepeatsText | ChunkingCorrected.CorrectedSplitsText |

The rest of the model uses the code as written (`Chunking.ChunkText`), because that is
what `make_chunks` and the chunking routes run. The corrected chunker
(`ChunkingCorrected.CorrectedChunkText`) carries the property the cut was meant to have:
its windows partition the text (`ChunkingCorrected.CorrectedChunkTextWindows`).

=== FILE: capture.dfy ===
/** The question list of capture mode (frontend/components/CapturePage.tsx): a typed
    question appears at once as an optimistic entry with a temporary id, which the
    created question replaces when the backend confirms it, or which is removed when
    the request fails. The clock reading for the temporary id, the time stamp and the
    backend's reply are parameters. */
module Capture {
  import opened Wrappers
  import opened Text
  import opened ListPage

  /** `QuestionOut` as the page holds it. */
  datatype QuestionView = QuestionView(id: string, sessionId: string, text: string, askedAt: string, orderIndex: int)

  datatype CaptureState = CaptureState(page: Page<QuestionView>, text: string)

  const TempPrefix: string := "temp-"
  const LoadFallback: string := "Failed to load questions"
  const CreateFallback: string := "Failed to create question"

  /** An entry not yet confirmed by the backend. */
  predicate IsPending(q: QuestionView) {
    StartsWith(q.id, TempPrefix)
  }

  /** `temp-${Date.now()}`. */
  function TempId(now: nat): (r: string)
    ensures StartsWith(r, TempPrefix)
  {
    var r := TempPrefix + NatToString(now);
    assert r[..|TempPrefix|] == TempPrefix;
    r
  }

  /** `(questions.at(-1)?.order_index || 0) + 1`. */
  function NextOrder(qs: seq<QuestionView>): (r: int)
    ensures |qs| == 0 ==> r == 1
    ensures |qs| > 0 && qs[|qs| - 1].orderIndex == 0 ==> r == 1
    ensures |qs| > 0 && qs[|qs| - 1].orderIndex != 0 ==> r == qs[|qs| - 1].orderIndex + 1
  {
    (if |qs| > 0 && qs[|qs| - 1].orderIndex != 0 then qs[|qs| - 1].orderIndex else 0) + 1
  }

  /** The optimistic entry for trimmed text `v`. */
  function Optimistic(qs: seq<QuestionView>, sessionId: string, v: string, now: nat, askedAt: string): QuestionView {
    QuestionView(TempId(now), sessionId, v, askedAt, NextOrder(qs))
  }

  /** The synchronous part of `submit`: nothing for blank input; otherwise the error is
      cleared, the input emptied and the optimistic entry appended. Returns the entry
      the request is waiting on. */
  function BeginSubmit(s: CaptureState, sessionId: string, now: nat, askedAt: string): (r: (CaptureState, Option<QuestionView>))
    ensures AllSpace(s.text) <==> r.1.None?
    ensures AllSpace(s.text) ==> r.0 == s
    ensures !AllSpace(s.text) ==>
      var o := r.1.value;
      && r.0.page.items == s.page.items + [o]
      && r.0.page.err.None? && r.0.text == [] && r.0.page.loading == s.page.loading
      && IsPending(o) && o.text == Strip(s.text) && o.sessionId == sessionId
      && o.orderIndex == NextOrder(s.page.items)
  {
    var v := Strip(s.text);
    if v == [] then (s, None)
    else
      var o := Optimistic(s.page.items, sessionId, v, now, askedAt);
      (CaptureState(s.page.(items := s.page.items + [o], err := None), []), Some(o))
  }

  /** `prev.map(q => q.id === id ? created : q)`. */
  function ReplaceId(qs: seq<QuestionView>, id: string, created: QuestionView): (r: seq<QuestionView>)
    ensures |r| == |qs|
    ensures forall k :: 0 <= k < |qs| ==> r[k] == (if qs[k].id == id then created else qs[k])
  {
    seq(|qs|, k requires 0 <= k < |qs| => if qs[k].id == id then created else qs[k])
  }

  /** `prev.filter(q => q.id !== id)`. */
  function RemoveId(qs: seq<QuestionView>, id: string): (r: seq<QuestionView>)
    ensures forall k :: 0 <= k < |r| ==> r[k].id != id
    ensures forall q :: q in r <==> q in qs && q.id != id
    decreases |qs|
  {
    if |qs| == 0 then []
    else if qs[0].id == id then RemoveId(qs[1..], id)
    else [qs[0]] + RemoveId(qs[1..], id)
  }

  /** The settled request: the created question takes the optimistic entry's place, or
      the entry is removed and the error shown. */
  function FinishSubmit(s: CaptureState, pendingId: string, outcome: Outcome<QuestionView>): CaptureState {
    match outcome
    case Success(created) => s.(page := s.page.(items := ReplaceId(s.page.items, pendingId, created)))
    case Raised(m) => s.(page := s.page.(items := RemoveId(s.page.items, pendingId), err := Some(ErrorText(m, CreateFallback))))
  }

  /** Whether exactly the entry at `i` has id `id`. */
  predicate OnlyAt(qs: seq<QuestionView>, id: string, i: nat) {
    i < |qs| && qs[i].id == id && forall k :: 0 <= k < |qs| && k != i ==> qs[k].id != id
  }

  /** With the temporary id held by one entry only (two submits in the same millisecond
      would break this), a confirmed question replaces that entry in place. */
  lemma ReplaceInPlace(qs: seq<QuestionView>, id: string, i: nat, created: QuestionView)
    requires OnlyAt(qs, id, i)
    ensures ReplaceId(qs, id, created) == qs[i := created]
  {
  }

  lemma {:induction false} RemoveNone(qs: seq<QuestionView>, id: string)
    requires forall k :: 0 <= k < |qs| ==> qs[k].id != id
    ensures RemoveId(qs, id) == qs
    decreases |qs|
  {
    if |qs| > 0 {
      RemoveNone(qs[1..], id);
      assert [qs[0]] + qs[1..] == qs;
    }
  }

  lemma {:induction false} RemoveAppend(a: seq<QuestionView>, b: seq<QuestionView>, id: string)
    ensures RemoveId(a + b, id) == RemoveId(a, id) + RemoveId(b, id)
    decreases |a|
  {
    if |a| > 0 {
      assert (a + b)[1..] == a[1..] + b;
      RemoveAppend(a[1..], b, id);
    } else {
      assert a + b == b;
    }
  }

  /** With the temporary id held by one entry only, a failed request removes exactly
      that entry; the others keep their order. */
  lemma RemoveInPlace(qs: seq<QuestionView>, id: string, i: nat)
    requires OnlyAt(qs, id, i)
    ensures RemoveId(qs, id) == qs[..i] + qs[i + 1..]
  {
    assert qs == qs[..i] + ([qs[i]] + qs[i + 1..]);
    RemoveAppend(qs[..i], [qs[i]] + qs[i + 1..], id);
    RemoveNone(qs[..i], id);
    assert ([qs[i]] + qs[i + 1..])[1..] == qs[i + 1..];
    RemoveNone(qs[i + 1..], id);
  }

  /** A submit that the backend confirms ends with the list grown by the created
      question; one that fails ends with the list as it was; both provided no entry
      already had the temporary id and nothing else touched the list meanwhile. */
  lemma SubmitRoundTrip(s: CaptureState, sessionId: string, now: nat, askedAt: string, created: QuestionView, m: string)
    requires !AllSpace(s.text)
    requires forall k :: 0 <= k < |s.page.items| ==> s.page.items[k].id != TempId(now)
    ensures var (mid, o) := BeginSubmit(s, sessionId, now, askedAt);
      && FinishSubmit(mid, o.value.id, Success(created)).page.items == s.page.items + [created]
      && FinishSubmit(mid, o.value.id, Raised(m)).page.items == s.page.items
      && FinishSubmit(mid, o.value.id, Raised(m)).page.err == Some(ErrorText(m, CreateFallback))
  {
    var (mid, o) := BeginSubmit(s, sessionId, now, askedAt);
    var qs := mid.page.items;
    assert OnlyAt(qs, o.value.id, |s.page.items|);
    ReplaceInPlace(qs, o.value.id, |s.page.items|, created);
    assert qs[|s.page.items| := created] == s.page.items + [created];
    RemoveInPlace(qs, o.value.id, |s.page.items|);
    assert qs[..|s.page.items|] == s.page.items;
  }

  /** Order indexes that rise along the list and start at 1 or more. */
  predicate Ascending(qs: seq<QuestionView>) {
    && (forall k :: 0 <= k < |qs| ==> qs[k].orderIndex >= 1)
    && (forall i, j :: 0 <= i < j < |qs| ==> qs[i].orderIndex < qs[j].orderIndex)
  }

  /** On a list whose order indexes rise from 1, the optimistic entry's index is above
      every other, so the list keeps rising. */
  lemma SubmitKeepsAscending(s: CaptureState, sessionId: string, now: nat, askedAt: string)
    requires Ascending(s.page.items)
    ensures Ascending(BeginSubmit(s, sessionId, now, askedAt).0.page.items)
  {
    var qs := s.page.items;
    if !AllSpace(s.text) && |qs| > 0 {
      var r := BeginSubmit(s, sessionId, now, askedAt).0.page.items;
      forall i, j | 0 <= i < j < |r| ensures r[i].orderIndex < r[j].orderIndex {
        if j == |qs| && i < |qs| - 1 {
          assert qs[i].orderIndex < qs[|qs| - 1].orderIndex;
        }
      }
    }
  }

  /** `refresh` on the capture page. */
  function RefreshQuestions(s: CaptureState, outcome: Outcome<seq<QuestionView>>): (r: CaptureState)
    ensures r.text == s.text
    ensures outcome.Success? ==> r.page.items == outcome.value && r.page.err.None?
    ensures outcome.Raised? ==> r.page.items == s.page.items && r.page.err == Some(ErrorText(outcome.message, LoadFallback))
  {
    s.(page := Refresh(s.page, outcome, LoadFallback))
  }
}

=== FILE: chunk_routes.dfy ===
/** The chunking and search routes (backend/app/routers/chunks.py): chunk one resource,
    chunk every resource of a session, and the full-text search endpoint's parameter
    checks. The search itself is a parameter. */
module ChunkRoutes {
  import opened Wrappers
  import opened Entities
  import opened Chunking
  import opened Store

  /** `get_resource`: the position of the resource with id `rid`. */
  function FindResource(rs: seq<Resource>, rid: Id): (r: Option<nat>)
    ensures r.Some? ==> r.value < |rs| && rs[r.value].id == rid
    ensures r.None? <==> forall k :: 0 <= k < |rs| ==> rs[k].id != rid
  {
    Find(rs, (r: Resource) => r.id == rid)
  }

  /** Whether a resource has text to chunk: EXTRACTED with non-empty text. */
  predicate Chunkable(r: Resource) {
    r.status == EXTRACTED && r.extractedText.Some? && r.extractedText.value != []
  }

  const SessionNotFound: HttpError := HttpError(404, "Session not found")
  const ResourceNotFound: HttpError := HttpError(404, "Resource not found")
  const NotExtracted: HttpError := HttpError(400, "Resource is not extracted yet")

  /** `chunk_one_resource`: the guards, then the resource's chunks replaced by
      `make_chunks` of its text; the number of chunks created. */
  function ChunkOne(db: Db, sid: Id, rid: Id): (r: (Db, Result<nat, HttpError>)) {
    if !HasSession(db, sid) then (db, Err(SessionNotFound))
    else match FindResource(db.resources, rid)
      case None => (db, Err(ResourceNotFound))
      case Some(i) =>
        var res := db.resources[i];
        if res.sessionId != sid then (db, Err(ResourceNotFound))
        else if !Chunkable(res) then (db, Err(NotExtracted))
        else
          var (db', count) := CreateChunks(db, sid, rid, MakeChunks(res.extractedText.value));
          (db', Ok(count))
  }

  /** `chunk_one_resource`: a missing session or resource, or a resource of another
      session, is 404; a resource without extracted text is 400; each error leaves the
      store as it was. Otherwise the resource's chunks are `make_chunks` of its text,
      numbered from 1, other resources' chunks are untouched, and the count is the
      number of chunks. */
  lemma ChunkOneSpec(db: Db, sid: Id, rid: Id)
    requires Valid(db)
    ensures var (db', r) := ChunkOne(db, sid, rid);
      var found := FindResource(db.resources, rid);
      && Valid(db')
      && (r.Err? ==> db' == db)
      && (!HasSession(db, sid) ==> r == Err(SessionNotFound))
      && (HasSession(db, sid) && (found.None? || db.resources[found.value].sessionId != sid) ==>
            r == Err(ResourceNotFound))
      && (HasSession(db, sid) && found.Some? && db.resources[found.value].sessionId == sid ==>
            var res := db.resources[found.value];
            && (!Chunkable(res) ==> r == Err(NotExtracted))
            && (Chunkable(res) ==>
                  var pieces := MakeChunks(res.extractedText.value);
                  && r == Ok(|pieces|)
                  && Select(db'.chunks, OfResource(rid)) == NewChunks(db.nextId, sid, rid, pieces)
                  && Select(db'.chunks, NotOfResource(rid)) == Select(db.chunks, NotOfResource(rid))))
  {
    if HasSession(db, sid) {
      match FindResource(db.resources, rid)
      case None =>
      case Some(i) =>
        var res := db.resources[i];
        if res.sessionId == sid && Chunkable(res) {
          var pieces := MakeChunks(res.extractedText.value);
          CreateChunksReplaces(db, sid, rid, pieces);
          CreateChunksValid(db, sid, rid, pieces);
        }
    }
  }

  // ---------------------------------------------------------------------------
  // chunk-all
  // ---------------------------------------------------------------------------

  /** `chunk_all`'s three counters. */
  datatype Counts = Counts(processed: nat, skipped: nat, created: nat)

  /** The loop of `chunk_all` over `rs`, chunking each chunkable resource with `chunk`
      (which is `make_chunks`) and counting the others as skipped. */
  function ChunkEach(db: Db, sid: Id, rs: seq<Resource>, chunk: string -> seq<Piece>, c: Counts): (Db, Counts)
    decreases |rs|
  {
    if |rs| == 0 then (db, c)
    else if !Chunkable(rs[0]) then
      ChunkEach(db, sid, rs[1..], chunk, c.(skipped := c.skipped + 1))
    else
      var (db1, n) := CreateChunks(db, sid, rs[0].id, chunk(rs[0].extractedText.value));
      ChunkEach(db1, sid, rs[1..], chunk, c.(processed := c.processed + 1, created := c.created + n))
  }

  /** `chunk_all`. */
  function ChunkAll(db: Db, sid: Id): (Db, Result<Counts, HttpError>) {
    if !HasSession(db, sid) then (db, Err(SessionNotFound))
    else
      var (db', c) := ChunkEach(db, sid, ListResources(db, sid), MakeChunks, Counts(0, 0, 0));
      (db', Ok(c))
  }

  /** How many of `rs` are chunkable, and how many chunks they make in all. */
  function ProcessedCount(rs: seq<Resource>): nat
    decreases |rs|
  {
    if |rs| == 0 then 0 else (if Chunkable(rs[0]) then 1 else 0) + ProcessedCount(rs[1..])
  }

  function ChunkTotal(rs: seq<Resource>, chunk: string -> seq<Piece>): nat
    decreases |rs|
  {
    if |rs| == 0 then 0
    else (if Chunkable(rs[0]) then |chunk(rs[0].extractedText.value)| else 0) + ChunkTotal(rs[1..], chunk)
  }

  /** Whether some chunkable resource in `rs` has id `rid`. */
  predicate Rechunked(rs: seq<Resource>, rid: Id) {
    exists k :: 0 <= k < |rs| && rs[k].id == rid && Chunkable(rs[k])
  }

  /** The loop counts every resource once, as processed exactly when it is chunkable;
      the created count is the sum of the chunks made; the store stays valid and only
      chunks change; a resource that was not processed keeps its chunks. */
  lemma {:induction false} ChunkEachSpec(db: Db, sid: Id, rs: seq<Resource>, chunk: string -> seq<Piece>, c: Counts)
    requires Valid(db)
    ensures var (db', c') := ChunkEach(db, sid, rs, chunk, c);
      && Valid(db')
      && db' == db.(chunks := db'.chunks, nextId := db'.nextId)
      && c'.processed + c'.skipped == c.processed + c.skipped + |rs|
      && c'.processed == c.processed + ProcessedCount(rs)
      && c'.created == c.created + ChunkTotal(rs, chunk)
      && forall rid :: !Rechunked(rs, rid) ==>
           Select(db'.chunks, OfResource(rid)) == Select(db.chunks, OfResource(rid))
    decreases |rs|
  {
    if |rs| > 0 {
      var r := rs[0];
      var tail := rs[1..];
      assert forall k :: 0 <= k < |tail| ==> tail[k] == rs[k + 1];
      if !Chunkable(r) {
        ChunkEachSpec(db, sid, tail, chunk, c.(skipped := c.skipped + 1));
      } else {
        var pieces := chunk(r.extractedText.value);
        var (db1, n) := CreateChunks(db, sid, r.id, pieces);
        CreateChunksValid(db, sid, r.id, pieces);
        ChunkEachSpec(db1, sid, tail, chunk, c.(processed := c.processed + 1, created := c.created + n));
        forall rid | !Rechunked(rs, rid)
          ensures Select(db1.chunks, OfResource(rid)) == Select(db.chunks, OfResource(rid))
          ensures !Rechunked(tail, rid)
        {
          assert rs[0].id != rid;
          KeptOthers(db, sid, r.id, pieces, rid);
        }
      }
    }
  }

  /** Replacing one resource's chunks leaves another resource's chunks as they were. */
  lemma KeptOthers(db: Db, sid: Id, rid: Id, pieces: seq<Piece>, other: Id)
    requires other != rid
    ensures Select(CreateChunks(db, sid, rid, pieces).0.chunks, OfResource(other)) == Select(db.chunks, OfResource(other))
  {
    var kept := Select(db.chunks, NotOfResource(rid));
    var added := NewChunks(db.nextId, sid, rid, pieces);
    SelectConcat(kept, added, OfResource(other));
    SelectNone(added, OfResource(other));
    SelectNested(db.chunks, rid, other);
    assert Select(kept, OfResource(other)) + [] == Select(kept, OfResource(other));
  }

  /** Selecting another resource's chunks after dropping `rid`'s is selecting them directly. */
  lemma {:induction false} SelectNested(cs: seq<Chunk>, rid: Id, other: Id)
    requires other != rid
    ensures Select(Select(cs, NotOfResource(rid)), OfResource(other)) == Select(cs, OfResource(other))
    decreases |cs|
  {
    if |cs| > 0 {
      SelectNested(cs[1..], rid, other);
    }
  }

  /** `chunk_all`: 404 for an unknown session; otherwise every session resource is
      counted once, as processed exactly when it is chunkable, the created count is the
      number of chunks its chunkable resources make, and resources it did not process
      keep their chunks. */
  lemma ChunkAllSpec(db: Db, sid: Id)
    requires Valid(db)
    ensures var (db', r) := ChunkAll(db, sid);
      var rs := ListResources(db, sid);
      && Valid(db')
      && (r.Err? <==> !HasSession(db, sid))
      && (r.Err? ==> r.error == SessionNotFound && db' == db)
      && (r.Ok? ==>
            && r.value.processed + r.value.skipped == |rs|
            && r.value.processed == ProcessedCount(rs)
            && r.value.created == ChunkTotal(rs, MakeChunks)
            && forall rid :: !Rechunked(rs, rid) ==>
                 Select(db'.chunks, OfResource(rid)) == Select(db.chunks, OfResource(rid)))
  {
    if HasSession(db, sid) {
      ChunkEachSpec(db, sid, ListResources(db, sid), MakeChunks, Counts(0, 0, 0));
    }
  }

  /** `ProcessedCount` counts the chunkable resources: it is the size of that selection. */
  lemma {:induction false} ProcessedCountIsSelection(rs: seq<Resource>)
    ensures ProcessedCount(rs) == |Select(rs, (r: Resource) => Chunkable(r))|
    decreases |rs|
  {
    if |rs| > 0 {
      ProcessedCountIsSelection(rs[1..]);
    }
  }

  // ---------------------------------------------------------------------------
  // search
  // ---------------------------------------------------------------------------

  /** The limit used when the request gives none, and the bounds a given one must meet. */
  const DefaultLimit: nat := 6
  const MinLimit: nat := 1
  const MaxLimit: nat := 20
  const MinQueryLength: nat := 1

  /** FastAPI's answer to a request whose parameters fail validation. */
  const InvalidParams: HttpError := HttpError(422, "Unprocessable Entity")

  predicate ValidParams(q: string, limit: Option<int>) {
    |q| >= MinQueryLength && (limit.None? || MinLimit <= limit.value <= MaxLimit)
  }

  /** `search_chunks`: the query must be non-empty and the limit in `1..20` (else 422,
      before the handler runs), the session must exist (else 404); then the full-text
      search runs with the limit, 6 when none is given. */
  function SearchChunks(db: Db, sid: Id, q: string, limit: Option<int>, search: (Id, string, nat) -> seq<Hit>): (r: Result<seq<Hit>, HttpError>)
    ensures r.Ok? <==> ValidParams(q, limit) && HasSession(db, sid)
    ensures !ValidParams(q, limit) ==> r == Err(InvalidParams)
    ensures ValidParams(q, limit) && !HasSession(db, sid) ==> r == Err(SessionNotFound)
    ensures r.Ok? ==> r.value == search(sid, q, if limit.Some? then limit.value as nat else DefaultLimit)
  {
    if !ValidParams(q, limit) then Err(InvalidParams)
    else if !HasSession(db, sid) then Err(SessionNotFound)
    else Ok(search(sid, q, if limit.Some? then limit.value as nat else DefaultLimit))
  }
}

=== FILE: chunking.dfy ===
/** Splitting extracted text at page and slide markers, and cutting each block into
    bounded chunks (backend/app/chunking.py). */
module Chunking {
  import opened Wrappers
  import opened Text
  import opened Markers

  /** A `(page_ref, text)` pair: a block of `split_by_markers` or a chunk of `make_chunks`. */
  datatype Piece = Piece(ref: Option<string>, text: string)

  /** The lines gathered under one marker (or before the first one), not yet joined. */
  datatype Section = Section(ref: Option<string>, lines: seq<string>)

  // ---------------------------------------------------------------------------
  // split_by_markers
  // ---------------------------------------------------------------------------

  /** The parser that recognises a marker line and returns its ref. `split_by_markers`
      uses `ParseMarker`; the lemmas below hold for every parser. */
  type Parser = string -> Option<string>

  /** Some line is recognised by `parse`. */
  predicate HasMarker(lines: seq<string>, parse: Parser) {
    exists k :: 0 <= k < |lines| && parse(lines[k]).Some?
  }

  /** A single line without a line break that `parse` does not recognise. */
  predicate PlainLine(line: string, parse: Parser) {
    '\n' !in line && parse(line).None?
  }

  /** Closes the current section: only a section with at least one line is kept. */
  function Flush(ref: Option<string>, cur: seq<string>): (r: seq<Section>)
    ensures |r| <= 1
    ensures forall k :: 0 <= k < |r| ==> r[k] == Section(ref, cur) && |cur| > 0
  {
    if |cur| > 0 then [Section(ref, cur)] else []
  }

  /** The loop of `split_by_markers` over `lines`, `ref` and `cur` being the current ref
      and the lines gathered since the last marker. */
  function Group(lines: seq<string>, ref: Option<string>, cur: seq<string>, parse: Parser): (r: seq<Section>)
    requires forall j :: 0 <= j < |lines| ==> '\n' !in lines[j]
    requires forall j :: 0 <= j < |cur| ==> PlainLine(cur[j], parse)
    ensures forall k :: 0 <= k < |r| ==> |r[k].lines| > 0
    ensures forall k, j :: 0 <= k < |r| && 0 <= j < |r[k].lines| ==> PlainLine(r[k].lines[j], parse)
    decreases |lines|
  {
    if |lines| == 0 then Flush(ref, cur)
    else match parse(lines[0])
      case Some(m) => Flush(ref, cur) + Group(lines[1..], Some(m), [], parse)
      case None => Group(lines[1..], ref, cur + [lines[0]], parse)
  }

  /** Each line paired with a ref. */
  function Tag(ref: Option<string>, lines: seq<string>): (r: seq<Piece>)
    ensures |r| == |lines|
    ensures forall k :: 0 <= k < |r| ==> r[k] == Piece(ref, lines[k])
  {
    seq(|lines|, k requires 0 <= k < |lines| => Piece(ref, lines[k]))
  }

  /** The lines of the sections, in order, each with its section's ref. */
  function Untag(sections: seq<Section>): seq<Piece>
    decreases |sections|
  {
    if |sections| == 0 then []
    else Tag(sections[0].ref, sections[0].lines) + Untag(sections[1..])
  }

  /** Reference reading of the document: every line that is not a marker, in document
      order, with the ref of the nearest marker above it, or `ref` above the first. */
  function Tagged(lines: seq<string>, ref: Option<string>, parse: Parser): seq<Piece>
    decreases |lines|
  {
    if |lines| == 0 then []
    else match parse(lines[0])
      case Some(m) => Tagged(lines[1..], Some(m), parse)
      case None => [Piece(ref, lines[0])] + Tagged(lines[1..], ref, parse)
  }

  lemma UntagAppend(a: seq<Section>, b: seq<Section>)
    ensures Untag(a + b) == Untag(a) + Untag(b)
    decreases |a|
  {
    if |a| > 0 {
      assert (a + b)[1..] == a[1..] + b;
      UntagAppend(a[1..], b);
    } else {
      assert a + b == b;
    }
  }

  lemma TagAppend(ref: Option<string>, a: seq<string>, b: seq<string>)
    ensures Tag(ref, a + b) == Tag(ref, a) + Tag(ref, b)
  {
  }

  /** A marker line closes the current section and opens one under its ref. */
  lemma GroupMarkerStep(lines: seq<string>, ref: Option<string>, cur: seq<string>, parse: Parser, m: string)
    requires |lines| > 0 && parse(lines[0]) == Some(m)
    requires forall j :: 0 <= j < |lines| ==> '\n' !in lines[j]
    requires forall j :: 0 <= j < |cur| ==> PlainLine(cur[j], parse)
    requires Untag(Group(lines[1..], Some(m), [], parse)) == Tag(Some(m), []) + Tagged(lines[1..], Some(m), parse)
    ensures Untag(Group(lines, ref, cur, parse)) == Tag(ref, cur) + Tagged(lines, ref, parse)
  {
    var g := Group(lines[1..], Some(m), [], parse);
    var t := Tagged(lines[1..], Some(m), parse);
    assert Tag(Some(m), []) + t == t;
    assert Group(lines, ref, cur, parse) == Flush(ref, cur) + g;
    assert Tagged(lines, ref, parse) == t;
    UntagAppend(Flush(ref, cur), g);
    assert Untag(Flush(ref, cur)) == Tag(ref, cur);
  }

  /** A plain line joins the current section. */
  lemma GroupPlainStep(lines: seq<string>, ref: Option<string>, cur: seq<string>, parse: Parser)
    requires |lines| > 0 && parse(lines[0]).None?
    requires forall j :: 0 <= j < |lines| ==> '\n' !in lines[j]
    requires forall j :: 0 <= j < |cur| ==> PlainLine(cur[j], parse)
    requires Untag(Group(lines[1..], ref, cur + [lines[0]], parse)) == Tag(ref, cur + [lines[0]]) + Tagged(lines[1..], ref, parse)
    ensures Untag(Group(lines, ref, cur, parse)) == Tag(ref, cur) + Tagged(lines, ref, parse)
  {
    TagAppend(ref, cur, [lines[0]]);
    ConcatAssoc(Tag(ref, cur), Tag(ref, [lines[0]]), Tagged(lines[1..], ref, parse));
  }

  /** The sections hold exactly the non-marker lines, in document order, under the
      ref of the nearest marker above them. */
  lemma {:induction false} GroupTagged(lines: seq<string>, ref: Option<string>, cur: seq<string>, parse: Parser)
    requires forall j :: 0 <= j < |lines| ==> '\n' !in lines[j]
    requires forall j :: 0 <= j < |cur| ==> PlainLine(cur[j], parse)
    ensures Untag(Group(lines, ref, cur, parse)) == Tag(ref, cur) + Tagged(lines, ref, parse)
    decreases |lines|
  {
    if |lines| == 0 {
      assert Untag(Flush(ref, cur)) == Tag(ref, cur);
    } else {
      var rest := lines[1..];
      match parse(lines[0])
      case Some(m) =>
        GroupTagged(rest, Some(m), [], parse);
        GroupMarkerStep(lines, ref, cur, parse, m);
      case None =>
        GroupTagged(rest, ref, cur + [lines[0]], parse);
        GroupPlainStep(lines, ref, cur, parse);
    }
  }

  /** `"\n".join(lines).strip()` of one section. */
  function BlockText(s: Section): string {
    Strip(Join(s.lines, "\n"))
  }

  /** The sections' texts; sections whose text is blank are dropped. */
  function Blocks(sections: seq<Section>): (r: seq<Piece>)
    ensures |r| <= |sections|
    ensures forall k :: 0 <= k < |r| ==> r[k].text != [] && Strip(r[k].text) == r[k].text
    decreases |sections|
  {
    if |sections| == 0 then []
    else
      var t := BlockText(sections[0]);
      StripIdempotent(Join(sections[0].lines, "\n"));
      (if t != [] then [Piece(sections[0].ref, t)] else []) + Blocks(sections[1..])
  }

  /** `split_by_markers` with marker lines recognised by `parse`: without any marker line
      the text comes back untouched as one block with no ref; otherwise one block per
      non-blank section, falling back to the untouched text when every section is blank. */
  function SplitBy(text: string, parse: Parser): (r: seq<Piece>)
    ensures |r| >= 1
    ensures !HasMarker(SplitLines(text), parse) ==> r == [Piece(None, text)]
    ensures r == [Piece(None, text)]
            || forall k :: 0 <= k < |r| ==> r[k].text != [] && Strip(r[k].text) == r[k].text
  {
    var lines := SplitLines(text);
    if !HasMarker(lines, parse) then [Piece(None, text)]
    else
      var out := Blocks(Group(lines, None, [], parse));
      if |out| == 0 then [Piece(None, text)] else out
  }

  /** `split_by_markers(text)`. */
  function SplitByMarkers(text: string): seq<Piece> {
    SplitBy(text, ParseMarker)
  }

  /** Every block of the sections is free of lines that `parse` recognises. */
  lemma {:induction false} BlocksClean(sections: seq<Section>, parse: Parser)
    requires PadInvariant(parse)
    requires forall k :: 0 <= k < |sections| ==> |sections[k].lines| > 0
    requires forall k, j :: 0 <= k < |sections| && 0 <= j < |sections[k].lines| ==> PlainLine(sections[k].lines[j], parse)
    ensures forall k :: 0 <= k < |Blocks(sections)| ==> NoLine(Blocks(sections)[k].text, parse)
    decreases |sections|
  {
    if |sections| > 0 {
      BlocksClean(sections[1..], parse);
      var s := sections[0];
      forall j | 0 <= j < |s.lines| ensures '\n' !in s.lines[j] && parse(s.lines[j]).None? {
        assert PlainLine(s.lines[j], parse);
      }
      LinesJoin(s.lines, parse);
      LinesStrip(Join(s.lines, "\n"), parse);
    }
  }

  /** Marker lines never end up inside a block: unless the text comes back untouched,
      no line of any block is a marker. */
  lemma SplitByMarkersClean(text: string)
    ensures var r := SplitByMarkers(text);
            r == [Piece(None, text)] || forall k :: 0 <= k < |r| ==> NoMarkerLine(r[k].text)
  {
    var lines := SplitLines(text);
    if HasMarker(lines, ParseMarker) {
      MarkerPadInvariant();
      BlocksClean(Group(lines, None, [], ParseMarker), ParseMarker);
    }
  }

  // ---------------------------------------------------------------------------
  // documents laid out as marker-headed sections
  // ---------------------------------------------------------------------------

  /** A marker line, the ref it parses to, and the lines under it. */
  datatype Marked = Marked(header: string, ref: string, body: seq<string>)

  /** The lines of a document made of marker-headed sections. */
  function Unfold(ms: seq<Marked>): (r: seq<string>)
    ensures (forall k :: 0 <= k < |ms| ==>
               ('\n' !in ms[k].header && forall j :: 0 <= j < |ms[k].body| ==> '\n' !in ms[k].body[j]))
            ==> (forall j :: 0 <= j < |r| ==> '\n' !in r[j])
    decreases |ms|
  {
    if |ms| == 0 then []
    else
      var rest := Unfold(ms[1..]);
      assert forall k :: 0 <= k < |ms[1..]| ==> ms[1..][k] == ms[k + 1];
      [ms[0].header] + ms[0].body + rest
  }

  /** Every header parses to its ref, every body is non-empty and holds only plain lines. */
  predicate WellMarked(ms: seq<Marked>, parse: Parser) {
    forall k :: 0 <= k < |ms| ==>
      && '\n' !in ms[k].header && parse(ms[k].header) == Some(ms[k].ref)
      && |ms[k].body| > 0
      && forall j :: 0 <= j < |ms[k].body| ==> PlainLine(ms[k].body[j], parse)
  }

  /** The lines of well-marked sections hold no line break. */
  lemma WellMarkedNoBreak(ms: seq<Marked>, parse: Parser)
    requires WellMarked(ms, parse)
    ensures forall j :: 0 <= j < |Unfold(ms)| ==> '\n' !in Unfold(ms)[j]
  {
    assert forall k :: 0 <= k < |ms| ==>
      ('\n' !in ms[k].header && forall j :: 0 <= j < |ms[k].body| ==> '\n' !in ms[k].body[j]);
  }

  /** The sections `split_by_markers` should find: one per marker, with its body. */
  function SectionsOf(ms: seq<Marked>): (r: seq<Section>)
    ensures |r| == |ms|
    ensures forall k :: 0 <= k < |ms| ==> r[k] == Section(Some(ms[k].ref), ms[k].body)
    decreases |ms|
  {
    if |ms| == 0 then [] else [Section(Some(ms[0].ref), ms[0].body)] + SectionsOf(ms[1..])
  }

  /** Plain lines are gathered into the current section. */
  lemma {:induction false} GroupPlain(body: seq<string>, rest: seq<string>, ref: Option<string>, cur: seq<string>, parse: Parser)
    requires forall j :: 0 <= j < |body| ==> PlainLine(body[j], parse)
    requires forall j :: 0 <= j < |rest| ==> '\n' !in rest[j]
    requires forall j :: 0 <= j < |cur| ==> PlainLine(cur[j], parse)
    ensures forall j :: 0 <= j < |body + rest| ==> '\n' !in (body + rest)[j]
    ensures Group(body + rest, ref, cur, parse) == Group(rest, ref, cur + body, parse)
    decreases |body|
  {
    assert forall j :: 0 <= j < |body + rest| ==> '\n' !in (body + rest)[j] by {
      forall j | 0 <= j < |body + rest| ensures '\n' !in (body + rest)[j] {
        if j < |body| { assert PlainLine(body[j], parse); }
      }
    }
    if |body| == 0 {
      assert body + rest == rest;
      assert cur + body == cur;
    } else {
      assert PlainLine(body[0], parse);
      assert (body + rest)[1..] == body[1..] + rest;
      GroupPlain(body[1..], rest, ref, cur + [body[0]], parse);
      assert cur + [body[0]] + body[1..] == cur + body;
    }
  }

  /** Grouping a document made of marker-headed sections finds exactly those sections,
      after whatever was gathered before the first marker. */
  lemma {:induction false} GroupUnfold(ms: seq<Marked>, ref: Option<string>, cur: seq<string>, parse: Parser)
    requires WellMarked(ms, parse)
    requires forall j :: 0 <= j < |cur| ==> PlainLine(cur[j], parse)
    ensures forall j :: 0 <= j < |Unfold(ms)| ==> '\n' !in Unfold(ms)[j]
    ensures Group(Unfold(ms), ref, cur, parse) == Flush(ref, cur) + SectionsOf(ms)
    decreases |ms|
  {
    UnfoldLines(ms, parse);
    if |ms| == 0 {
      assert Flush(ref, cur) + SectionsOf(ms) == Flush(ref, cur);
    } else {
      var m := ms[0];
      var rest := Unfold(ms[1..]);
      assert WellMarked(ms[1..], parse) by {
        assert forall k :: 0 <= k < |ms[1..]| ==> ms[1..][k] == ms[k + 1];
      }
      GroupUnfold(ms[1..], Some(m.ref), m.body, parse);
      assert Unfold(ms) == [m.header] + (m.body + rest);
      assert ([m.header] + (m.body + rest))[1..] == m.body + rest;
      GroupPlain(m.body, rest, Some(m.ref), [], parse);
      assert [] + m.body == m.body;
      assert SectionsOf(ms) == Flush(Some(m.ref), m.body) + SectionsOf(ms[1..]);
    }
  }

  lemma {:induction false} UnfoldLines(ms: seq<Marked>, parse: Parser)
    requires WellMarked(ms, parse)
    ensures forall j :: 0 <= j < |Unfold(ms)| ==> '\n' !in Unfold(ms)[j]
  {
    forall k | 0 <= k < |ms| ensures '\n' !in ms[k].header && forall j :: 0 <= j < |ms[k].body| ==> '\n' !in ms[k].body[j] {
      forall j | 0 <= j < |ms[k].body| ensures '\n' !in ms[k].body[j] {
        assert PlainLine(ms[k].body[j], parse);
      }
    }
  }

  /** The blocks of the sections, when none of them is blank: one per section, in order. */
  lemma {:induction false} BlocksOf(ms: seq<Marked>)
    requires forall k :: 0 <= k < |ms| ==> Strip(Join(ms[k].body, "\n")) != []
    ensures Blocks(SectionsOf(ms))
            == seq(|ms|, k requires 0 <= k < |ms| => Piece(Some(ms[k].ref), Strip(Join(ms[k].body, "\n"))))
    decreases |ms|
  {
    if |ms| > 0 {
      BlocksOf(ms[1..]);
      assert SectionsOf(ms)[1..] == SectionsOf(ms[1..]);
    }
  }

  /** `split_by_markers` of a text whose lines are marker-headed sections with
      non-blank bodies: one block per section, with its ref and its stripped body. */
  lemma {:induction false} SplitByUnfold(text: string, ms: seq<Marked>, parse: Parser)
    requires |ms| > 0 && WellMarked(ms, parse) && SplitLines(text) == Unfold(ms)
    requires forall k :: 0 <= k < |ms| ==> Strip(Join(ms[k].body, "\n")) != []
    ensures SplitBy(text, parse)
            == seq(|ms|, k requires 0 <= k < |ms| => Piece(Some(ms[k].ref), Strip(Join(ms[k].body, "\n"))))
  {
    var lines := SplitLines(text);
    assert lines[0] == ms[0].header;
    assert HasMarker(lines, parse);
    GroupUnfold(ms, None, [], parse);
    assert Group(lines, None, [], parse) == SectionsOf(ms);
    BlocksOf(ms);
  }

  // ---------------------------------------------------------------------------
  // chunk_text
  // ---------------------------------------------------------------------------

  /** Default window size and overlap of `chunk_text`. */
  const MaxChars: int := 1400
  const Overlap: int := 150

  predicate NoTripleNewline(s: string) {
    forall k :: 0 <= k < |s| - 2 ==> !(s[k] == '\n' && s[k + 1] == '\n' && s[k + 2] == '\n')
  }

  /** Length of the leading run of line feeds. */
  function NewlineRun(s: string): (k: nat)
    ensures k <= |s|
    ensures forall j :: 0 <= j < k ==> s[j] == '\n'
    ensures k < |s| ==> s[k] != '\n'
    decreases |s|
  {
    if |s| > 0 && s[0] == '\n' then 1 + NewlineRun(s[1..]) else 0
  }

  /** `re.sub(r"\n{3,}", "\n\n", s)`: every run of three or more line feeds becomes two. */
  function Collapse(s: string): (r: string)
    ensures NoTripleNewline(r)
    ensures |r| <= |s|
    ensures s == [] <==> r == []
    ensures |s| > 0 && s[0] != '\n' ==> r[0] == s[0]
    decreases |s|
  {
    if |s| == 0 then ""
    else if s[0] != '\n' then
      var rest := Collapse(s[1..]);
      NoTripleAfter([s[0]], rest);
      [s[0]] + rest
    else
      var k := NewlineRun(s);
      var rest := Collapse(s[k..]);
      var lead := if k >= 3 then "\n\n" else s[..k];
      assert forall j :: 0 <= j < |lead| ==> lead[j] == '\n';
      NoTripleAfter(lead, rest);
      lead + rest
  }

  /** One character other than a line feed, or at most two line feeds before a text
      that does not start with one, in front of a text without a triple line feed. */
  lemma NoTripleAfter(lead: string, rest: string)
    requires NoTripleNewline(rest)
    requires || (|lead| == 1 && lead[0] != '\n')
             || (&& |lead| <= 2 && (forall j :: 0 <= j < |lead| ==> lead[j] == '\n')
                 && (rest == [] || rest[0] != '\n'))
    ensures NoTripleNewline(lead + rest)
  {
    var s := lead + rest;
    forall k | 0 <= k < |s| - 2
      ensures !(s[k] == '\n' && s[k + 1] == '\n' && s[k + 2] == '\n')
    {
      if k >= |lead| {
        assert s[k] == rest[k - |lead|] && s[k + 1] == rest[k + 1 - |lead|] && s[k + 2] == rest[k + 2 - |lead|];
      }
    }
  }

  /** Text without a run of three line feeds is left alone. */
  lemma {:induction false} CollapseFixpoint(s: string)
    requires NoTripleNewline(s)
    ensures Collapse(s) == s
    decreases |s|
  {
    if |s| > 0 {
      if s[0] != '\n' {
        CollapseFixpoint(s[1..]);
        assert s == [s[0]] + s[1..];
      } else {
        var k := NewlineRun(s);
        assert |s| >= 3 ==> !(s[0] == '\n' && s[1] == '\n' && s[2] == '\n');
        assert k < 3;
        CollapseFixpoint(s[k..]);
        assert s == s[..k] + s[k..];
      }
    }
  }

  /** Collapsing twice is collapsing once. */
  lemma CollapseIdempotent(s: string)
    ensures Collapse(Collapse(s)) == Collapse(s)
  {
    CollapseFixpoint(Collapse(s));
  }

  /** `k` line feeds. */
  function Newlines(k: nat): (r: string)
    ensures |r| == k && forall j :: 0 <= j < k ==> r[j] == '\n'
  {
    seq(k, _ => '\n')
  }

  /** A character other than a line feed survives. */
  lemma CollapseChar(c: char)
    requires c != '\n'
    ensures Collapse([c]) == [c]
  {
    assert [c][1..] == [];
  }

  /** A run of `k` line feeds keeps `min(k, 2)` of them. */
  lemma CollapseRun(k: nat)
    ensures Collapse(Newlines(k)) == Newlines(if k >= 3 then 2 else k)
  {
    var s := Newlines(k);
    if k > 0 {
      assert NewlineRun(s) == k;
      assert s[k..] == [];
      assert s[..k] == s;
    }
  }

  /** The leading line-feed run of `a` is that of `a + b` unless it reaches into `b`. */
  lemma {:induction false} NewlineRunAppend(a: string, b: string)
    requires NewlineRun(a) < |a| || b == [] || b[0] != '\n'
    ensures NewlineRun(a + b) == NewlineRun(a)
    decreases |a|
  {
    if a == [] {
      assert a + b == b;
    } else if a[0] == '\n' {
      assert (a + b)[1..] == a[1..] + b;
      NewlineRunAppend(a[1..], b);
    } else {
      assert (a + b)[0] == a[0];
    }
  }

  /** `Collapse` on a text starting with a character other than a line feed. */
  lemma CollapseCons(c: char, t: string)
    requires c != '\n'
    ensures Collapse([c] + t) == [c] + Collapse(t)
  {
    assert ([c] + t)[1..] == t;
  }

  /** `Collapse` on a text starting with a run of `k` line feeds. */
  lemma CollapseLead(s: string, k: nat)
    requires 0 < k == NewlineRun(s)
    ensures Collapse(s) == (if k >= 3 then "\n\n" else s[..k]) + Collapse(s[k..])
  {
  }

  /** Collapsing works piecewise when the cut does not fall inside a run of line feeds:
      together with CollapseChar and CollapseRun this pins `Collapse` on every text. */
  lemma {:induction false} CollapseAppend(a: string, b: string)
    requires a == [] || b == [] || a[|a| - 1] != '\n' || b[0] != '\n'
    ensures Collapse(a + b) == Collapse(a) + Collapse(b)
    decreases |a|
  {
    if a == [] {
      assert a + b == b;
    } else if b == [] {
      assert a + b == a;
    } else if a[0] != '\n' {
      if |a| > 1 {
        assert a[1..][|a| - 2] == a[|a| - 1];
      }
      CollapseAppend(a[1..], b);
      CollapseAppendChar(a, b);
    } else {
      var k := NewlineRun(a);
      if k < |a| {
        assert a[k..][|a| - k - 1] == a[|a| - 1];
        CollapseAppend(a[k..], b);
      }
      CollapseAppendRun(a, b, k);
    }
  }

  /** The step of CollapseAppend for a text starting with another character. */
  lemma CollapseAppendChar(a: string, b: string)
    requires a != [] && a[0] != '\n'
    requires Collapse(a[1..] + b) == Collapse(a[1..]) + Collapse(b)
    ensures Collapse(a + b) == Collapse(a) + Collapse(b)
  {
    var t := a[1..];
    SliceAppend(a, b, 1);
    assert a[..1] == [a[0]];
    CollapseCons(a[0], t);
    CollapseCons(a[0], t + b);
    ConcatAssoc([a[0]], Collapse(t), Collapse(b));
  }

  /** The step of CollapseAppend for a text starting with a run of `k` line feeds. */
  lemma CollapseAppendRun(a: string, b: string, k: nat)
    requires a != [] && b != [] && a[0] == '\n' && k == NewlineRun(a)
    requires a[|a| - 1] != '\n' || b[0] != '\n'
    requires k < |a| ==> Collapse(a[k..] + b) == Collapse(a[k..]) + Collapse(b)
    ensures Collapse(a + b) == Collapse(a) + Collapse(b)
  {
    NewlineRunAppend(a, b);
    CollapseLead(a, k);
    CollapseLead(a + b, k);
    var lead := if k >= 3 then "\n\n" else a[..k];
    var c := a[k..];
    SliceAppend(a, b, k);
    assert Collapse(a) == lead + Collapse(c);
    assert Collapse(a + b) == lead + Collapse(c + b);
    if k == |a| {
      assert c == [] && c + b == b;
    }
    assert Collapse(c + b) == Collapse(c) + Collapse(b);
    ConcatAssoc(lead, Collapse(c), Collapse(b));
  }

  /** `s.rfind("\n\n")`: the start of the last paragraph break, or -1. */
  function RFindBreak(s: string): (r: int)
    ensures r == -1 || 0 <= r <= |s| - 2
    ensures r >= 0 ==> s[r] == '\n' && s[r + 1] == '\n'
    ensures forall j :: r < j < |s| - 1 ==> !(s[j] == '\n' && s[j + 1] == '\n')
    decreases |s|
  {
    if |s| < 2 then -1
    else if s[|s| - 2] == '\n' && s[|s| - 1] == '\n' then |s| - 2
    else RFindBreak(s[..|s| - 1])
  }

  /** One turn of the loop: the chunk taken at `i` and the `end` the loop records. */
  datatype Cut = Cut(chunk: string, end: nat)

  /** Cutting a stripped window at offset `cut` is cutting the raw window at its
      leading whitespace plus `cut`. */
  lemma CutWindow(raw: string, cut: nat)
    requires cut <= |Strip(raw)|
    ensures Lead(raw) + cut <= |raw|
    ensures Strip(raw[..Lead(raw) + cut]) == Strip(Strip(raw)[..cut])
  {
    StripSlice(raw);
    var l := Lead(raw);
    assert Strip(raw)[..cut] == raw[l..l + cut];
    assert raw[..l + cut] == raw[..l] + raw[l..l + cut];
    StripPrependSpaces(raw[..l], Strip(raw)[..cut]);
  }

  /** The window at `i`: at most `maxChars` characters, stripped; unless it reaches the
      end of the text, it is cut at its last paragraph break when that break lies at or
      beyond 60% of `maxChars` (`cut >= 0.6 * max_chars` is `5 * cut >= 3 * max_chars`
      on integers). After a cut the recorded end is `i + cut`, although `cut` is an
      offset into the stripped window. */
  function Window(t: string, i: nat, maxChars: int): (w: Cut)
    requires i < |t| && maxChars > 0
    ensures i < w.end <= |t| && w.end - i <= maxChars
    ensures |w.chunk| <= w.end - i
  {
    var end := if i + maxChars < |t| then i + maxChars else |t|;
    var raw := t[i..end];
    var chunk := Strip(raw);
    if end < |t| then
      var cut := RFindBreak(chunk);
      if 5 * cut >= 3 * maxChars then Cut(Strip(chunk[..cut]), i + cut)
      else Cut(chunk, end)
    else Cut(chunk, end)
  }

  /** Where the text of the window's chunk ends in `t`: the window's bound, or after a
      paragraph cut the break itself. */
  function Reach(t: string, i: nat, maxChars: int): (x: nat)
    requires i < |t| && maxChars > 0
    ensures i < x <= |t| && x - i <= maxChars
  {
    var end := if i + maxChars < |t| then i + maxChars else |t|;
    var raw := t[i..end];
    var chunk := Strip(raw);
    if end < |t| then
      var cut := RFindBreak(chunk);
      if 5 * cut >= 3 * maxChars then
        StripSlice(raw);
        i + Lead(raw) + cut
      else end
    else end
  }

  /** The reach is the recorded end, or lies past it by exactly the window's leading
      whitespace. */
  lemma WindowReach(t: string, i: nat, maxChars: int)
    requires i < |t| && maxChars > 0
    ensures var end := if i + maxChars < |t| then i + maxChars else |t|;
            || Reach(t, i, maxChars) == Window(t, i, maxChars).end
            || Reach(t, i, maxChars) == Window(t, i, maxChars).end + Lead(t[i..end])
  {
  }

  /** The window's chunk is the stripped text from `i` to its reach, which is never
      before the recorded end. */
  lemma WindowChunk(t: string, i: nat, maxChars: int)
    requires i < |t| && maxChars > 0
    ensures Window(t, i, maxChars).end <= Reach(t, i, maxChars)
    ensures Window(t, i, maxChars).chunk == Strip(t[i..Reach(t, i, maxChars)])
  {
    var end := if i + maxChars < |t| then i + maxChars else |t|;
    var raw := t[i..end];
    var cut := RFindBreak(Strip(raw));
    if end < |t| && 5 * cut >= 3 * maxChars {
      CutAt(t, i, maxChars, end, raw, cut);
      CutSlice(t, i, end, cut);
    } else {
      NoCutAt(t, i, maxChars, end, raw, cut);
    }
  }

  /** Cutting the stripped window `t[i..end]` at `cut` strips the text from `i` to the
      window's leading whitespace plus `cut`. */
  lemma CutSlice(t: string, i: nat, end: nat, cut: nat)
    requires i <= end <= |t| && cut <= |Strip(t[i..end])|
    ensures i + Lead(t[i..end]) + cut <= end
    ensures Strip(t[i..i + Lead(t[i..end]) + cut]) == Strip(Strip(t[i..end])[..cut])
  {
    var raw := t[i..end];
    CutWindow(raw, cut);
    assert t[i..i + Lead(raw) + cut] == raw[..Lead(raw) + cut];
  }

  /** The window and its reach after a paragraph cut at `cut`. */
  lemma CutAt(t: string, i: nat, maxChars: int, end: nat, raw: string, cut: int)
    requires i < |t| && maxChars > 0
    requires end == (if i + maxChars < |t| then i + maxChars else |t|) && raw == t[i..end]
    requires cut == RFindBreak(Strip(raw)) && end < |t| && 5 * cut >= 3 * maxChars
    ensures cut >= 0 && Window(t, i, maxChars) == Cut(Strip(Strip(raw)[..cut]), i + cut)
    ensures Reach(t, i, maxChars) == i + Lead(raw) + cut
  {
  }

  /** The window and its reach without a paragraph cut. */
  lemma NoCutAt(t: string, i: nat, maxChars: int, end: nat, raw: string, cut: int)
    requires i < |t| && maxChars > 0
    requires end == (if i + maxChars < |t| then i + maxChars else |t|) && raw == t[i..end]
    requires cut == RFindBreak(Strip(raw)) && !(end < |t| && 5 * cut >= 3 * maxChars)
    ensures Window(t, i, maxChars) == Cut(Strip(raw), end)
    ensures Reach(t, i, maxChars) == end
  {
  }

  /** A window ends before `min(i + maxChars, n)` only when that bound is short of the
      end of the text; its chunk then stops at a paragraph break lying at least 60% of
      `maxChars` into the stripped window, and the recorded end falls that window's
      leading whitespace before the break. */
  lemma WindowCutsOnBreak(t: string, i: nat, maxChars: int)
    requires i < |t| && maxChars > 0
    ensures var w := Window(t, i, maxChars);
      var x := Reach(t, i, maxChars);
      var end := if i + maxChars < |t| then i + maxChars else |t|;
      (w.end == end && x == end)
      || (&& x + 2 <= end < |t|
          && t[x] == '\n' && t[x + 1] == '\n'
          && 5 * (w.end - i) >= 3 * maxChars
          && x == w.end + Lead(t[i..end]))
  {
    var end := if i + maxChars < |t| then i + maxChars else |t|;
    var raw := t[i..end];
    var cut := RFindBreak(Strip(raw));
    if end < |t| && 5 * cut >= 3 * maxChars {
      CutAt(t, i, maxChars, end, raw, cut);
      CutBreak(t, i, end, cut);
    } else {
      NoCutAt(t, i, maxChars, end, raw, cut);
    }
  }

  /** A paragraph break at `cut` in the stripped window `t[i..end]` lies in `t` at the
      window's leading whitespace plus `cut`. */
  lemma CutBreak(t: string, i: nat, end: nat, cut: nat)
    requires i <= end <= |t| && cut == RFindBreak(Strip(t[i..end]))
    ensures i + Lead(t[i..end]) + cut + 2 <= end
    ensures t[i + Lead(t[i..end]) + cut] == '\n' && t[i + Lead(t[i..end]) + cut + 1] == '\n'
  {
    var raw := t[i..end];
    var chunk := Strip(raw);
    StripSlice(raw);
    var l := Lead(raw);
    assert chunk[cut] == raw[l + cut] == t[i + l + cut];
    assert chunk[cut + 1] == raw[l + cut + 1] == t[i + l + cut + 1];
  }

  /** The loop of `chunk_text` from cursor `i`; the next cursor is
      `max(end - overlap, end)`. */
  function ChunkFrom(t: string, i: nat, maxChars: int, overlap: int): (r: seq<string>)
    requires maxChars > 0
    ensures forall k :: 0 <= k < |r| ==> 0 < |r[k]| <= maxChars
    decreases |t| - i
  {
    if i >= |t| then []
    else
      var w := Window(t, i, maxChars);
      var here := if |w.chunk| > 0 then [w.chunk] else [];
      if w.end >= |t| then here
      else
        var next := if w.end - overlap > w.end then w.end - overlap else w.end;
        here + ChunkFrom(t, next, maxChars, overlap)
  }

  /** The text `chunk_text` works on: line-feed runs collapsed, then stripped. */
  function Normalise(text: string): string {
    Strip(Collapse(text))
  }

  /** `chunk_text(text, max_chars, overlap)`. With `max_chars` zero or less and a
      non-negative overlap the call never returns: the cursor stays put for 0, and for a
      negative `max_chars` it may move forward once and then moves back forever, since
      Python's slice `t[i:end]` then counts `end` from the end of the text.
      `make_chunks`, the only caller, passes 1400. */
  function ChunkText(text: string, maxChars: int, overlap: int): (r: seq<string>)
    requires maxChars > 0
    ensures r == [] <==> Normalise(text) == []
    ensures forall k :: 0 <= k < |r| ==> 0 < |r[k]| <= maxChars
  {
    var t := Normalise(text);
    if |t| == 0 then [] else ChunkFrom(t, 0, maxChars, overlap)
  }

  /** Window cursors: they start at `i`, end at `n`, strictly increase, and no two
      consecutive ones lie more than `maxChars` apart. */
  predicate Windows(b: seq<nat>, i: nat, n: nat, maxChars: int) {
    && |b| >= 2 && b[0] == i && b[|b| - 1] == n
    && forall k :: 0 <= k < |b| - 1 ==> b[k] < b[k + 1] <= b[k] + maxChars
  }

  predicate Bounded(b: seq<nat>, n: nat) {
    forall k :: 0 <= k < |b| ==> b[k] <= n
  }

  lemma ConsWindows(i: nat, rest: seq<nat>, n: nat, maxChars: int)
    requires |rest| >= 2 && i < rest[0] <= i + maxChars
    requires Windows(rest, rest[0], n, maxChars) && Bounded(rest, n)
    ensures Windows([i] + rest, i, n, maxChars) && Bounded([i] + rest, n)
  {
    var b := [i] + rest;
    forall k | 0 <= k < |b| - 1 ensures b[k] < b[k + 1] <= b[k] + maxChars {
      if k > 0 {
        assert b[k] == rest[k - 1] && b[k + 1] == rest[k];
      }
    }
    forall k | 0 <= k < |b| ensures b[k] <= n {
      if k > 0 {
        assert b[k] == rest[k - 1];
      }
    }
  }

  /** Each cursor `b[k]` comes with a reach `x[k]` no earlier than it, within `n`. */
  predicate Spans(b: seq<nat>, x: seq<nat>, n: nat) {
    && |x| + 1 == |b|
    && forall k :: 0 <= k < |x| ==> b[k] <= x[k] <= n
  }

  /** Reaches of the windows at cursors `b`: the text of window `k` runs from `b[k]` to
      `x[k]`, which is never short of the next cursor, and never more than `maxChars`
      past its own. */
  predicate Reaches(b: seq<nat>, x: seq<nat>, n: nat, maxChars: int) {
    && Spans(b, x, n)
    && forall k :: 0 <= k < |x| ==> b[k + 1] <= x[k] <= b[k] + maxChars
  }

  /** The non-blank stripped texts from each cursor to its reach. */
  function CoverTexts(t: string, b: seq<nat>, x: seq<nat>): seq<string>
    requires Spans(b, x, |t|)
    decreases |x|
  {
    if |x| == 0 then []
    else
      var c := Strip(t[b[0]..x[0]]);
      (if |c| > 0 then [c] else []) + CoverTexts(t, b[1..], x[1..])
  }

  lemma CoverTextsStep(t: string, b: seq<nat>, x: seq<nat>)
    requires Spans(b, x, |t|) && |x| > 0
    ensures var c := Strip(t[b[0]..x[0]]);
            CoverTexts(t, b, x) == (if |c| > 0 then [c] else []) + CoverTexts(t, b[1..], x[1..])
  {
  }

  /** One turn of the loop with a non-negative overlap: the stripped text up to the
      window's reach, when not blank, then the chunks from the recorded end. */
  lemma ChunkFromStep(t: string, i: nat, maxChars: int, overlap: int)
    requires maxChars > 0 && overlap >= 0 && i < |t|
    ensures var c := Strip(t[i..Reach(t, i, maxChars)]);
            ChunkFrom(t, i, maxChars, overlap)
              == (if |c| > 0 then [c] else []) + ChunkFrom(t, Window(t, i, maxChars).end, maxChars, overlap)
  {
    WindowChunk(t, i, maxChars);
  }

  /** Prepending a window, from `i` to reach `r`, to the windows of the rest. */
  lemma CoversCons(t: string, i: nat, r: nat, rb: seq<nat>, rx: seq<nat>, maxChars: int)
    returns (b: seq<nat>, x: seq<nat>)
    requires |rb| >= 2 && i < rb[0] <= r <= |t| && r <= i + maxChars
    requires Windows(rb, rb[0], |t|, maxChars) && Bounded(rb, |t|)
    requires Reaches(rb, rx, |t|, maxChars)
    ensures b == [i] + rb && x == [r] + rx
    ensures Windows(b, i, |t|, maxChars) && Bounded(b, |t|) && Reaches(b, x, |t|, maxChars)
    ensures var c := Strip(t[i..r]);
            CoverTexts(t, b, x) == (if |c| > 0 then [c] else []) + CoverTexts(t, rb, rx)
  {
    b, x := [i] + rb, [r] + rx;
    ConsWindows(i, rb, |t|, maxChars);
    forall k | 0 <= k < |x| ensures b[k] <= x[k] <= |t| && b[k + 1] <= x[k] <= b[k] + maxChars {
      if k > 0 {
        assert b[k + 1] == rb[k] && x[k] == rx[k - 1] && b[k] == rb[k - 1];
      }
    }
    assert b[1..] == rb && x[1..] == rx;
    CoverTextsStep(t, b, x);
  }

  /** With a non-negative overlap the windows follow one another: the cursors climb
      from `i` to the end of the text, each window starting at the previous window's
      recorded end, and each chunk is the stripped text from its cursor to its reach.
      Since a reach is never short of the next cursor, no character is skipped; where a
      reach lies past the next cursor, consecutive chunks share text. */
  lemma {:induction false} ChunkFromCovers(t: string, i: nat, maxChars: int, overlap: int)
    returns (b: seq<nat>, x: seq<nat>)
    requires maxChars > 0 && overlap >= 0 && i < |t|
    ensures Windows(b, i, |t|, maxChars) && Bounded(b, |t|) && Reaches(b, x, |t|, maxChars)
    ensures ChunkFrom(t, i, maxChars, overlap) == CoverTexts(t, b, x)
    decreases |t| - i
  {
    var e := Window(t, i, maxChars).end;
    var r := Reach(t, i, maxChars);
    WindowChunk(t, i, maxChars);
    ChunkFromStep(t, i, maxChars, overlap);
    if e >= |t| {
      b, x := [i, |t|], [r];
      CoverTextsStep(t, b, x);
    } else {
      var rb, rx := ChunkFromCovers(t, e, maxChars, overlap);
      b, x := CoversCons(t, i, r, rb, rx, maxChars);
    }
  }

  /** `chunk_text` with a non-negative overlap: the chunks are the non-blank stripped
      texts of windows that cover the normalised text in order. */
  lemma ChunkTextCovers(text: string, maxChars: int, overlap: int) returns (b: seq<nat>, x: seq<nat>)
    requires maxChars > 0 && overlap >= 0
    ensures var t := Normalise(text);
            t != [] ==> && Windows(b, 0, |t|, maxChars) && Bounded(b, |t|)
                        && Reaches(b, x, |t|, maxChars)
                        && ChunkText(text, maxChars, overlap) == CoverTexts(t, b, x)
  {
    var t := Normalise(text);
    b, x := [], [];
    if t != [] {
      b, x := ChunkFromCovers(t, 0, maxChars, overlap);
    }
  }

  /** The overlap never matters: `max(end - overlap, end)` is `end` for every
      non-negative overlap. */
  lemma {:induction false} OverlapIrrelevant(t: string, i: nat, maxChars: int, overlap: int)
    requires maxChars > 0 && overlap >= 0
    ensures ChunkFrom(t, i, maxChars, overlap) == ChunkFrom(t, i, maxChars, 0)
    decreases |t| - i
  {
    if i < |t| {
      var w := Window(t, i, maxChars);
      if w.end < |t| {
        OverlapIrrelevant(t, w.end, maxChars, overlap);
      }
    }
  }

  /** `c` occurs in `t` as one contiguous piece. */
  ghost predicate Infix(c: string, t: string) {
    exists x, y :: 0 <= x <= y <= |t| && c == t[x..y]
  }

  /** A stripped slice is itself a slice. */
  lemma StripInfix(t: string, x: nat, y: nat)
    requires x <= y <= |t|
    ensures Infix(Strip(t[x..y]), t)
  {
    var raw := t[x..y];
    StripSlice(raw);
    var a := x + Lead(raw);
    var e := a + |Strip(raw)|;
    assert Strip(raw) == t[a..e];
  }

  /** Each covering text is a piece of the text. */
  lemma {:induction false} CoverTextsAreSlices(t: string, b: seq<nat>, x: seq<nat>)
    requires Spans(b, x, |t|)
    ensures forall k :: 0 <= k < |CoverTexts(t, b, x)| ==> Infix(CoverTexts(t, b, x)[k], t)
    decreases |x|
  {
    if |x| > 0 {
      CoverTextsAreSlices(t, b[1..], x[1..]);
      StripInfix(t, b[0], x[0]);
      CoverTextsStep(t, b, x);
    }
  }

  /** Every chunk of `chunk_text` with a non-negative overlap is a piece of the
      normalised text. */
  lemma ChunksAreSlices(text: string, maxChars: int, overlap: int)
    requires maxChars > 0 && overlap >= 0
    ensures var r := ChunkText(text, maxChars, overlap);
            forall k :: 0 <= k < |r| ==> Infix(r[k], Normalise(text))
  {
    var t := Normalise(text);
    if t != [] {
      var b, x := ChunkTextCovers(text, maxChars, overlap);
      CoverTextsAreSlices(t, b, x);
    }
  }

  // ---------------------------------------------------------------------------
  // make_chunks
  // ---------------------------------------------------------------------------

  /** Some block carries `ref`. */
  predicate RefIn(ref: Option<string>, blocks: seq<Piece>) {
    exists j :: 0 <= j < |blocks| && ref == blocks[j].ref
  }

  /** Every piece of `r` carries the ref of some block. */
  predicate RefsAmong(r: seq<Piece>, blocks: seq<Piece>) {
    forall k :: 0 <= k < |r| ==> RefIn(r[k].ref, blocks)
  }

  lemma RefsAmongCons(here: seq<Piece>, rest: seq<Piece>, blocks: seq<Piece>)
    requires |blocks| > 0
    requires forall k :: 0 <= k < |here| ==> here[k].ref == blocks[0].ref
    requires RefsAmong(rest, blocks[1..])
    ensures RefsAmong(here + rest, blocks)
  {
    forall k | 0 <= k < |here + rest| ensures RefIn((here + rest)[k].ref, blocks) {
      if k < |here| {
        assert (here + rest)[k] == here[k];
        assert (here + rest)[k].ref == blocks[0].ref;
      } else {
        assert (here + rest)[k] == rest[k - |here|];
        assert RefIn(rest[k - |here|].ref, blocks[1..]);
        var j :| 0 <= j < |blocks[1..]| && rest[k - |here|].ref == blocks[1..][j].ref;
        assert (here + rest)[k].ref == blocks[j + 1].ref;
      }
    }
  }

  /** `chunk_text` over each block with the default sizes, each chunk tagged with its
      block's ref, in block order. */
  function ChunkBlocks(blocks: seq<Piece>): (r: seq<Piece>)
    ensures forall k :: 0 <= k < |r| ==> 0 < |r[k].text| <= MaxChars
    ensures RefsAmong(r, blocks)
    decreases |blocks|
  {
    if |blocks| == 0 then []
    else
      var here := Tag(blocks[0].ref, ChunkText(blocks[0].text, MaxChars, Overlap));
      var rest := ChunkBlocks(blocks[1..]);
      RefsAmongCons(here, rest, blocks);
      here + rest
  }

  /** A single block gives its own chunks, each tagged with the block's ref. */
  lemma ChunkBlocksOne(p: Piece)
    ensures ChunkBlocks([p]) == Tag(p.ref, ChunkText(p.text, MaxChars, Overlap))
  {
    assert [p][1..] == [];
  }

  /** The chunks of a non-empty run of blocks: the first block's, then the rest's. */
  lemma ChunkBlocksCons(a: seq<Piece>)
    requires |a| > 0
    ensures ChunkBlocks(a) == ChunkBlocks([a[0]]) + ChunkBlocks(a[1..])
  {
    ChunkBlocksOne(a[0]);
  }

  /** The chunks of consecutive blocks are the chunks of the first blocks followed by
      those of the rest: block order is kept. */
  lemma {:induction false} ChunkBlocksAppend(a: seq<Piece>, b: seq<Piece>)
    ensures ChunkBlocks(a + b) == ChunkBlocks(a) + ChunkBlocks(b)
    decreases |a|
  {
    if |a| == 0 {
      assert a + b == b;
    } else {
      var ab := a + b;
      assert ab[0] == a[0];
      assert ab[1..] == a[1..] + b;
      ChunkBlocksCons(ab);
      ChunkBlocksCons(a);
      ChunkBlocksAppend(a[1..], b);
      var h, x, y := ChunkBlocks([a[0]]), ChunkBlocks(a[1..]), ChunkBlocks(b);
      ConcatAssoc(h, x, y);
    }
  }

  /** `make_chunks(text)`. */
  function MakeChunks(text: string): (r: seq<Piece>)
    ensures forall k :: 0 <= k < |r| ==> 0 < |r[k].text| <= MaxChars
    ensures RefsAmong(r, SplitByMarkers(text))
  {
    ChunkBlocks(SplitByMarkers(text))
  }

  /** Text without marker lines is chunked as one block with no ref. */
  lemma MakeChunksUnmarked(text: string)
    requires !HasMarker(SplitLines(text), ParseMarker)
    ensures MakeChunks(text) == Tag(None, ChunkText(text, MaxChars, Overlap))
  {
    assert SplitByMarkers(text) == [Piece(None, text)];
    assert ChunkBlocks([Piece(None, text)][1..]) == [];
  }
}

=== FILE: chunking_corrected.dfy ===
/** The paragraph cut of `chunk_text` as evidently intended, next to the code as
    written in `Chunking`. The code records the end of a cut window as `i + cut`, but
    `cut` is an offset into the STRIPPED window: when the window starts with whitespace
    (which it does after every paragraph cut, since the next window starts before the
    break) the next window starts that many characters too early, and the characters
    before the break are repeated in the next chunk. The corrected window ends at the
    break itself, and then the chunks are the stripped windows of a partition of the
    text. */
module ChunkingCorrected {
  import opened Text
  import opened Chunking

  /** The window at `i` with the end at the break: `i + Lead(raw) + cut`. */
  function CorrectedWindow(t: string, i: nat, maxChars: int): (w: Cut)
    requires i < |t| && maxChars > 0
    ensures i < w.end <= |t| && w.end - i <= maxChars
    ensures |w.chunk| <= w.end - i
  {
    var end := if i + maxChars < |t| then i + maxChars else |t|;
    var raw := t[i..end];
    var chunk := Strip(raw);
    if end < |t| then
      var cut := RFindBreak(chunk);
      if 5 * cut >= 3 * maxChars then
        StripSlice(raw);
        Cut(Strip(chunk[..cut]), i + Lead(raw) + cut)
      else Cut(chunk, end)
    else Cut(chunk, end)
  }

  /** The corrected window takes the chunk the code takes, and ends where that chunk's
      text ends; the code's recorded end is never later. */
  lemma CorrectedAgrees(t: string, i: nat, maxChars: int)
    requires i < |t| && maxChars > 0
    ensures CorrectedWindow(t, i, maxChars).chunk == Window(t, i, maxChars).chunk
    ensures CorrectedWindow(t, i, maxChars).end == Reach(t, i, maxChars)
    ensures Window(t, i, maxChars).end <= CorrectedWindow(t, i, maxChars).end
  {
    WindowChunk(t, i, maxChars);
  }

  /** The corrected window's chunk is the stripped text between its start and its end. */
  lemma CorrectedWindowChunk(t: string, i: nat, maxChars: int)
    requires i < |t| && maxChars > 0
    ensures CorrectedWindow(t, i, maxChars).chunk == Strip(t[i..CorrectedWindow(t, i, maxChars).end])
  {
    CorrectedAgrees(t, i, maxChars);
    WindowChunk(t, i, maxChars);
  }

  /** A corrected window ends before `min(i + maxChars, n)` only when that bound is
      short of the end of the text, and then it ends on a paragraph break lying at least
      60% of `maxChars` into the window. */
  lemma CorrectedCutsOnBreak(t: string, i: nat, maxChars: int)
    requires i < |t| && maxChars > 0
    ensures var w := CorrectedWindow(t, i, maxChars);
      var end := if i + maxChars < |t| then i + maxChars else |t|;
      w.end == end
      || (&& w.end + 2 <= end < |t|
          && t[w.end] == '\n' && t[w.end + 1] == '\n'
          && 5 * (w.end - i) >= 3 * maxChars)
  {
    CorrectedAgrees(t, i, maxChars);
    WindowCutsOnBreak(t, i, maxChars);
  }

  /** The loop of `chunk_text` over corrected windows. */
  function CorrectedChunkFrom(t: string, i: nat, maxChars: int, overlap: int): (r: seq<string>)
    requires maxChars > 0
    ensures forall k :: 0 <= k < |r| ==> 0 < |r[k]| <= maxChars
    decreases |t| - i
  {
    if i >= |t| then []
    else
      var w := CorrectedWindow(t, i, maxChars);
      var here := if |w.chunk| > 0 then [w.chunk] else [];
      if w.end >= |t| then here
      else
        var next := if w.end - overlap > w.end then w.end - overlap else w.end;
        here + CorrectedChunkFrom(t, next, maxChars, overlap)
  }

  /** `chunk_text` with the corrected window. */
  function CorrectedChunkText(text: string, maxChars: int, overlap: int): (r: seq<string>)
    requires maxChars > 0
    ensures r == [] <==> Normalise(text) == []
    ensures forall k :: 0 <= k < |r| ==> 0 < |r[k]| <= maxChars
  {
    var t := Normalise(text);
    if |t| == 0 then []
    else
      var w := CorrectedWindow(t, 0, maxChars);
      assert t[0..w.end][0] == t[0];
      CorrectedChunkFrom(t, 0, maxChars, overlap)
  }

  /** The non-blank stripped windows of `t` between consecutive boundaries. */
  function WindowTexts(t: string, b: seq<nat>): seq<string>
    requires Bounded(b, |t|)
    requires forall k :: 0 <= k < |b| - 1 ==> b[k] <= b[k + 1]
    decreases |b|
  {
    if |b| < 2 then []
    else
      var c := Strip(t[b[0]..b[1]]);
      (if |c| > 0 then [c] else []) + WindowTexts(t, b[1..])
  }

  lemma WindowTextsStep(t: string, b: seq<nat>)
    requires |b| >= 2 && Bounded(b, |t|)
    requires forall k :: 0 <= k < |b| - 1 ==> b[k] <= b[k + 1]
    ensures var c := Strip(t[b[0]..b[1]]);
            WindowTexts(t, b) == (if |c| > 0 then [c] else []) + WindowTexts(t, b[1..])
  {
  }

  /** Prepending a boundary to a partition of the rest of the text. */
  lemma WindowsCons(t: string, i: nat, rest: seq<nat>, maxChars: int) returns (b: seq<nat>)
    requires |rest| >= 2 && i < rest[0] <= i + maxChars
    requires Windows(rest, rest[0], |t|, maxChars) && Bounded(rest, |t|)
    ensures b == [i] + rest
    ensures Windows(b, i, |t|, maxChars) && Bounded(b, |t|)
    ensures var c := Strip(t[i..rest[0]]);
            WindowTexts(t, b) == (if |c| > 0 then [c] else []) + WindowTexts(t, rest)
  {
    b := [i] + rest;
    ConsWindows(i, rest, |t|, maxChars);
    assert b[1..] == rest;
    WindowTextsStep(t, b);
  }

  /** One corrected turn with a non-negative overlap: the stripped window, when not
      blank, then the chunks from the window's end. */
  lemma CorrectedChunkFromStep(t: string, i: nat, maxChars: int, overlap: int)
    requires maxChars > 0 && overlap >= 0 && i < |t|
    ensures var w := CorrectedWindow(t, i, maxChars);
            var c := Strip(t[i..w.end]);
            CorrectedChunkFrom(t, i, maxChars, overlap)
              == (if |c| > 0 then [c] else []) + CorrectedChunkFrom(t, w.end, maxChars, overlap)
  {
    CorrectedWindowChunk(t, i, maxChars);
  }

  /** With a non-negative overlap the corrected chunks are the stripped windows of a
      partition of the text: consecutive, non-overlapping, covering everything, none
      longer than `maxChars`. */
  lemma {:induction false} CorrectedChunkFromWindows(t: string, i: nat, maxChars: int, overlap: int)
    returns (b: seq<nat>)
    requires maxChars > 0 && overlap >= 0 && i < |t|
    ensures Windows(b, i, |t|, maxChars) && Bounded(b, |t|)
    ensures CorrectedChunkFrom(t, i, maxChars, overlap) == WindowTexts(t, b)
    decreases |t| - i
  {
    var e := CorrectedWindow(t, i, maxChars).end;
    CorrectedChunkFromStep(t, i, maxChars, overlap);
    if e >= |t| {
      b := [i, |t|];
      WindowTextsStep(t, b);
    } else {
      var rest := CorrectedChunkFromWindows(t, e, maxChars, overlap);
      b := WindowsCons(t, i, rest, maxChars);
    }
  }

  /** Corrected `chunk_text` with a non-negative overlap: the chunks are the non-blank
      stripped windows of a partition of the normalised text. */
  lemma CorrectedChunkTextWindows(text: string, maxChars: int, overlap: int) returns (b: seq<nat>)
    requires maxChars > 0 && overlap >= 0
    ensures var t := Normalise(text);
            t != [] ==> Windows(b, 0, |t|, maxChars) && Bounded(b, |t|)
                        && CorrectedChunkText(text, maxChars, overlap) == WindowTexts(t, b)
  {
    var t := Normalise(text);
    b := [];
    if t != [] {
      b := CorrectedChunkFromWindows(t, 0, maxChars, overlap);
    }
  }

  // ---------------------------------------------------------------------------
  // computing windows of a concrete text
  // ---------------------------------------------------------------------------

  /** No two consecutive line feeds. */
  predicate NoBreak(s: string) {
    forall j :: 0 <= j < |s| - 1 ==> !(s[j] == '\n' && s[j + 1] == '\n')
  }

  /** The last paragraph break of `p + "\n\n" + y` is the one after `p` when `y` holds
      none and does not start with a line feed. */
  lemma {:induction false} RFindBreakAfter(p: string, y: string)
    requires NoBreak(y) && (y == [] || y[0] != '\n')
    ensures RFindBreak(p + "\n\n" + y) == |p|
    decreases |y|
  {
    var s := p + "\n\n" + y;
    if |y| > 0 {
      var y' := y[..|y| - 1];
      assert s[..|s| - 1] == p + "\n\n" + y';
      RFindBreakAfter(p, y');
      if |y| == 1 {
        assert s[|s| - 1] == y[0];
      } else {
        assert s[|s| - 2] == y[|y| - 2] && s[|s| - 1] == y[|y| - 1];
      }
    }
  }

  /** A non-empty run of non-whitespace characters. */
  predicate Word(s: string) {
    |s| > 0 && NoSpace(s)
  }

  /** A window made of leading whitespace, a word `x`, a paragraph break and a word
      `y`: it strips to `x + "\n\n" + y`, whose last break follows `x`. */
  lemma BreakWindow(raw: string, lead: string, x: string, y: string)
    requires raw == lead + x + "\n\n" + y
    requires AllSpace(lead) && Word(x) && Word(y)
    ensures Strip(raw) == x + "\n\n" + y
    ensures Lead(raw) == |lead|
    ensures RFindBreak(Strip(raw)) == |x|
    ensures Strip(Strip(raw)[..|x|]) == x
  {
    var m := x + "\n\n" + y;
    assert raw == lead + m + [];
    assert raw == lead + m;
    assert m[0] == x[0] && m[|m| - 1] == y[|y| - 1];
    StripOf(lead, m, []);
    TrimLeftSkips(lead, m);
    RFindBreakAfter(x, y);
    assert m[..|x|] == [] + x + [];
    StripOf([], x, []);
  }

  /** A cut window that does not reach the end: the corrected end is just after `x`. */
  lemma WindowAtBreak(t: string, i: nat, maxChars: int, lead: string, x: string, y: string)
    requires maxChars > 0 && i + maxChars < |t|
    requires t[i..i + maxChars] == lead + x + "\n\n" + y
    requires AllSpace(lead) && Word(x) && Word(y) && 5 * |x| >= 3 * maxChars
    ensures CorrectedWindow(t, i, maxChars) == Cut(x, i + |lead| + |x|)
  {
    BreakWindow(t[i..i + maxChars], lead, x, y);
  }

  /** The same window as written ends `|lead|` characters earlier. */
  lemma WindowAtBreakAsWritten(t: string, i: nat, maxChars: int, lead: string, x: string, y: string)
    requires maxChars > 0 && i + maxChars < |t|
    requires t[i..i + maxChars] == lead + x + "\n\n" + y
    requires AllSpace(lead) && Word(x) && Word(y) && 5 * |x| >= 3 * maxChars
    ensures Window(t, i, maxChars) == Cut(x, i + |x|)
  {
    BreakWindow(t[i..i + maxChars], lead, x, y);
  }

  /** A window that reaches the end of the text is the stripped rest of the text. */
  lemma LastWindow(t: string, i: nat, maxChars: int)
    requires maxChars > 0 && i < |t| <= i + maxChars
    ensures CorrectedWindow(t, i, maxChars) == Cut(Strip(t[i..]), |t|)
    ensures Window(t, i, maxChars) == Cut(Strip(t[i..]), |t|)
  {
    assert t[i..|t|] == t[i..];
  }

  /** The same, for a rest `s` of the text that strips to `c`. */
  lemma LastWindowIs(t: string, i: nat, maxChars: int, s: string, c: string)
    requires maxChars > 0 && i < |t| <= i + maxChars
    requires t[i..] == s && Strip(s) == c
    ensures CorrectedWindow(t, i, maxChars) == Cut(c, |t|)
    ensures Window(t, i, maxChars) == Cut(c, |t|)
  {
    LastWindow(t, i, maxChars);
  }

  // ---------------------------------------------------------------------------
  // the counterexample
  // ---------------------------------------------------------------------------

  /** Three one-word paragraphs separated by blank lines. */
  function Paragraphs(a: string, b: string, c: string): string {
    a + "\n\n" + b + "\n\n" + c
  }

  /** Window size `m` cuts the first window inside `b` and the second inside `c`, both
      times on the break, and the window as written from inside `b` reaches the end. */
  predicate Fits(a: string, b: string, c: string, m: int) {
    && Word(a) && Word(b) && Word(c)
    && |a| + 2 < m <= |a| + 2 + |b| && 5 * |a| >= 3 * m
    && |b| + 4 < m < |b| + 4 + |c| && 5 * |b| >= 3 * m
    && |c| + 4 <= m
  }

  /** A slice of `pre + p + c` that starts after `pre` and covers `p` reads `p` and
      then the front of `c`. */
  lemma SliceAfter(pre: string, p: string, c: string, n: int)
    requires |p| <= n <= |p| + |c|
    ensures (pre + p + c)[|pre|..|pre| + n] == p + c[..n - |p|]
  {
    var s := pre + p + c;
    assert s[|pre|..] == p + c;
    assert s[|pre|..|pre| + n] == (p + c)[..n];
  }

  /** The second window's text: the first break, `b`, the second break and the front
      of `c`. */
  lemma SecondSlice(a: string, b: string, c: string, m: int)
    requires Fits(a, b, c, m)
    ensures Paragraphs(a, b, c)[|a|..|a| + m] == "\n\n" + b + "\n\n" + c[..m - |b| - 4]
  {
    var mid := "\n\n" + b + "\n\n";
    assert Paragraphs(a, b, c) == a + mid + c;
    SliceAfter(a, mid, c, m);
  }

  /** Only the two paragraph breaks are line feeds. */
  lemma ParagraphsLineFeeds(a: string, b: string, c: string)
    requires Word(a) && Word(b) && Word(c)
    ensures var t := Paragraphs(a, b, c);
            var p := |a|;
            var q := |a| + 2 + |b|;
            forall k :: 0 <= k < |t| && k != p && k != p + 1 && k != q && k != q + 1 ==> t[k] != '\n'
  {
    var t := Paragraphs(a, b, c);
    var p := |a|;
    var q := |a| + 2 + |b|;
    forall k | 0 <= k < |t| && k != p && k != p + 1 && k != q && k != q + 1 ensures t[k] != '\n' {
      if k < p { assert t[k] == a[k]; }
      else if k < q { assert t[k] == b[k - p - 2]; }
      else { assert t[k] == c[k - q - 2]; }
    }
  }

  lemma ParagraphsNoTriple(a: string, b: string, c: string)
    requires Word(a) && Word(b) && Word(c)
    ensures NoTripleNewline(Paragraphs(a, b, c))
  {
    ParagraphsLineFeeds(a, b, c);
  }

  lemma ParagraphsStripped(a: string, b: string, c: string)
    requires Word(a) && Word(b) && Word(c)
    ensures Strip(Paragraphs(a, b, c)) == Paragraphs(a, b, c)
  {
    var t := Paragraphs(a, b, c);
    assert t == [] + t + [];
    assert t[0] == a[0] && t[|t| - 1] == c[|c| - 1];
    StripOf([], t, []);
  }

  /** The text is already normalised. */
  lemma ParagraphsNormal(a: string, b: string, c: string)
    requires Word(a) && Word(b) && Word(c)
    ensures Normalise(Paragraphs(a, b, c)) == Paragraphs(a, b, c)
  {
    ParagraphsNoTriple(a, b, c);
    CollapseFixpoint(Paragraphs(a, b, c));
    ParagraphsStripped(a, b, c);
  }

  /** One turn of the loop as written, with a non-negative overlap: a non-blank window
      `c` ending at `e` is followed by the chunks from `e`. */
  lemma AsWrittenStep(t: string, i: nat, m: int, overlap: int, c: string, e: nat, rest: seq<string>)
    requires m > 0 && overlap >= 0 && i < |t| && c != []
    requires Window(t, i, m) == Cut(c, e)
    requires ChunkFrom(t, e, m, overlap) == rest
    ensures ChunkFrom(t, i, m, overlap) == [c] + rest
  {
  }

  /** One turn of the corrected loop, with a non-negative overlap. */
  lemma CorrectedStep(t: string, i: nat, m: int, overlap: int, c: string, e: nat, rest: seq<string>)
    requires m > 0 && overlap >= 0 && i < |t| && c != []
    requires CorrectedWindow(t, i, m) == Cut(c, e)
    requires CorrectedChunkFrom(t, e, m, overlap) == rest
    ensures CorrectedChunkFrom(t, i, m, overlap) == [c] + rest
  {
  }

  /** Nothing is left once the cursor reaches the end. */
  lemma Done(t: string, m: int, overlap: int)
    requires m > 0
    ensures ChunkFrom(t, |t|, m, overlap) == []
    ensures CorrectedChunkFrom(t, |t|, m, overlap) == []
  {
  }

  /** The first window ends after `a`. */
  lemma FirstWindow(a: string, b: string, c: string, m: int)
    requires Fits(a, b, c, m)
    ensures CorrectedWindow(Paragraphs(a, b, c), 0, m) == Cut(a, |a|)
  {
    var t := Paragraphs(a, b, c);
    var y := b[..m - |a| - 2];
    assert t[0..m] == [] + a + "\n\n" + y;
    WindowAtBreak(t, 0, m, [], a, y);
  }

  /** As written, the first window ends after `a` too: it has no leading whitespace. */
  lemma FirstWindowAsWritten(a: string, b: string, c: string, m: int)
    requires Fits(a, b, c, m)
    ensures Window(Paragraphs(a, b, c), 0, m) == Cut(a, |a|)
  {
    var t := Paragraphs(a, b, c);
    var y := b[..m - |a| - 2];
    assert t[0..m] == [] + a + "\n\n" + y;
    WindowAtBreakAsWritten(t, 0, m, [], a, y);
  }

  /** The second window starts at the first break and ends after `b`. */
  lemma SecondWindow(a: string, b: string, c: string, m: int)
    requires Fits(a, b, c, m)
    ensures CorrectedWindow(Paragraphs(a, b, c), |a|, m) == Cut(b, |a| + 2 + |b|)
  {
    var t := Paragraphs(a, b, c);
    var y := c[..m - |b| - 4];
    SecondSlice(a, b, c, m);
    WindowAtBreak(t, |a|, m, "\n\n", b, y);
  }

  /** As written, the second window ends two characters before the end of `b`. */
  lemma SecondWindowAsWritten(a: string, b: string, c: string, m: int)
    requires Fits(a, b, c, m)
    ensures Window(Paragraphs(a, b, c), |a|, m) == Cut(b, |a| + |b|)
  {
    var t := Paragraphs(a, b, c);
    var y := c[..m - |b| - 4];
    SecondSlice(a, b, c, m);
    WindowAtBreakAsWritten(t, |a|, m, "\n\n", b, y);
  }

  /** The corrected third window is `c` alone. */
  lemma ThirdWindow(a: string, b: string, c: string, m: int)
    requires Word(c) && |c| + 4 <= m
    ensures CorrectedWindow(Paragraphs(a, b, c), |a| + 2 + |b|, m) == Cut(c, |Paragraphs(a, b, c)|)
  {
    var t := Paragraphs(a, b, c);
    ThirdSlice(a, b, c);
    assert "\n\n" + c == "\n\n" + c + [];
    StripOf("\n\n", c, []);
    LastWindowIs(t, |a| + 2 + |b|, m, "\n\n" + c, c);
  }

  lemma ThirdSlice(a: string, b: string, c: string)
    ensures Paragraphs(a, b, c)[|a| + 2 + |b|..] == "\n\n" + c
  {
  }

  /** The third chunk as written: the last two characters of `b`, the break, and `c`. */
  function Spill(b: string, c: string): string
    requires |b| >= 2
  {
    b[|b| - 2..] + "\n\n" + c
  }

  lemma SpillSlice(a: string, b: string, c: string)
    requires |b| >= 2
    ensures Paragraphs(a, b, c)[|a| + |b|..] == Spill(b, c)
  {
  }

  lemma SpillStripped(b: string, c: string)
    requires |b| >= 2 && Word(b) && Word(c)
    ensures Strip(Spill(b, c)) == Spill(b, c)
  {
    var s := Spill(b, c);
    assert s == [] + s + [];
    assert s[0] == b[|b| - 2] && s[|s| - 1] == c[|c| - 1];
    StripOf([], s, []);
  }

  /** As written, the third window starts two characters before the second break. */
  lemma ThirdWindowAsWritten(a: string, b: string, c: string, m: int)
    requires |b| >= 2 && Word(b) && Word(c) && |c| + 4 <= m
    ensures Window(Paragraphs(a, b, c), |a| + |b|, m) == Cut(Spill(b, c), |Paragraphs(a, b, c)|)
  {
    SpillSlice(a, b, c);
    SpillStripped(b, c);
    LastWindowIs(Paragraphs(a, b, c), |a| + |b|, m, Spill(b, c), Spill(b, c));
  }

  /** The loop as written over any text whose last window, from `e`, is `z`. */
  lemma AsWrittenLast(t: string, e: nat, m: int, overlap: int, z: string)
    requires m > 0 && overlap >= 0 && e < |t| && z != []
    requires Window(t, e, m) == Cut(z, |t|)
    ensures ChunkFrom(t, e, m, overlap) == [z]
  {
    Done(t, m, overlap);
    AsWrittenStep(t, e, m, overlap, z, |t|, []);
  }

  /** The loop as written over any text whose last two windows, from `e1`, are `y`
      and `z`. */
  lemma AsWrittenTwo(t: string, m: int, overlap: int, y: string, z: string, e1: nat, e2: nat)
    requires m > 0 && overlap >= 0 && e1 < e2 < |t| && y != [] && z != []
    requires Window(t, e1, m) == Cut(y, e2)
    requires Window(t, e2, m) == Cut(z, |t|)
    ensures ChunkFrom(t, e1, m, overlap) == [y, z]
  {
    AsWrittenLast(t, e2, m, overlap, z);
    AsWrittenStep(t, e1, m, overlap, y, e2, [z]);
  }

  /** The loop as written over any text whose three windows are `x`, `y` and `z`. */
  lemma AsWrittenChain(t: string, m: int, overlap: int, x: string, y: string, z: string, e1: nat, e2: nat)
    requires m > 0 && overlap >= 0 && 0 < e1 < e2 < |t|
    requires x != [] && y != [] && z != []
    requires Window(t, 0, m) == Cut(x, e1)
    requires Window(t, e1, m) == Cut(y, e2)
    requires Window(t, e2, m) == Cut(z, |t|)
    ensures ChunkFrom(t, 0, m, overlap) == [x, y, z]
  {
    AsWrittenTwo(t, m, overlap, y, z, e1, e2);
    AsWrittenStep(t, 0, m, overlap, x, e1, [y, z]);
  }

  /** The corrected loop over any text whose last window, from `e`, is `z`. */
  lemma CorrectedLast(t: string, e: nat, m: int, overlap: int, z: string)
    requires m > 0 && overlap >= 0 && e < |t| && z != []
    requires CorrectedWindow(t, e, m) == Cut(z, |t|)
    ensures CorrectedChunkFrom(t, e, m, overlap) == [z]
  {
    Done(t, m, overlap);
    CorrectedStep(t, e, m, overlap, z, |t|, []);
  }

  /** The loop as written over a text of the length of `Paragraphs(a, b, c)` whose
      three windows are those of `Paragraphs(a, b, c)`. */
  lemma AsWrittenThree(t: string, a: string, b: string, c: string, m: int, overlap: int)
    requires 0 < |a| && 2 <= |b| && 0 < |c| && 0 < m && overlap >= 0
    requires |t| == |a| + |b| + |c| + 4
    requires Window(t, 0, m) == Cut(a, |a|)
    requires Window(t, |a|, m) == Cut(b, |a| + |b|)
    requires Window(t, |a| + |b|, m) == Cut(Spill(b, c), |t|)
    ensures ChunkFrom(t, 0, m, overlap) == [a, b, Spill(b, c)]
  {
    AsWrittenChain(t, m, overlap, a, b, Spill(b, c), |a|, |a| + |b|);
  }

  lemma AsWrittenFirst(a: string, b: string, c: string, m: int, overlap: int)
    requires Fits(a, b, c, m) && overlap >= 0
    ensures ChunkFrom(Paragraphs(a, b, c), 0, m, overlap) == [a, b, Spill(b, c)]
  {
    FirstWindowAsWritten(a, b, c, m);
    SecondWindowAsWritten(a, b, c, m);
    ThirdWindowAsWritten(a, b, c, m);
    AsWrittenThree(Paragraphs(a, b, c), a, b, c, m, overlap);
  }

  /** As written, the last two characters of `b` come back at the head of the third
      chunk. */
  lemma AsWrittenRepeatsText(a: string, b: string, c: string, m: int, overlap: int)
    requires Fits(a, b, c, m) && overlap >= 0
    ensures ChunkText(Paragraphs(a, b, c), m, overlap) == [a, b, Spill(b, c)]
  {
    ParagraphsNormal(a, b, c);
    AsWrittenFirst(a, b, c, m, overlap);
  }

  /** Corrected, the loop from the start of `c` gives `c` alone. */
  lemma CorrectedLastOf(a: string, b: string, c: string, m: int, overlap: int)
    requires Fits(a, b, c, m) && overlap >= 0
    ensures CorrectedChunkFrom(Paragraphs(a, b, c), |a| + 2 + |b|, m, overlap) == [c]
  {
    ThirdWindow(a, b, c, m);
    CorrectedLast(Paragraphs(a, b, c), |a| + 2 + |b|, m, overlap, c);
  }

  /** Corrected, the loop from the end of `a` gives `b`, then `c`. */
  lemma CorrectedSecondOf(a: string, b: string, c: string, m: int, overlap: int)
    requires Fits(a, b, c, m) && overlap >= 0
    ensures CorrectedChunkFrom(Paragraphs(a, b, c), |a|, m, overlap) == [b, c]
  {
    SecondWindow(a, b, c, m);
    CorrectedLastOf(a, b, c, m, overlap);
    CorrectedStep(Paragraphs(a, b, c), |a|, m, overlap, b, |a| + 2 + |b|, [c]);
  }

  lemma CorrectedFirst(a: string, b: string, c: string, m: int, overlap: int)
    requires Fits(a, b, c, m) && overlap >= 0
    ensures CorrectedChunkFrom(Paragraphs(a, b, c), 0, m, overlap) == [a, b, c]
  {
    FirstWindow(a, b, c, m);
    CorrectedSecondOf(a, b, c, m, overlap);
    CorrectedStep(Paragraphs(a, b, c), 0, m, overlap, a, |a|, [b, c]);
  }

  /** Corrected, every character of the text lands in exactly one chunk. */
  lemma CorrectedSplitsText(a: string, b: string, c: string, m: int, overlap: int)
    requires Fits(a, b, c, m) && overlap >= 0
    ensures CorrectedChunkText(Paragraphs(a, b, c), m, overlap) == [a, b, c]
  {
    ParagraphsNormal(a, b, c);
    CorrectedFirst(a, b, c, m, overlap);
  }

  /** The concrete instance: `"aaaaaaaa\n\nbbbbbbbb\n\ncc"` with 13-character windows. */
  lemma SampleFits()
    ensures Fits("aaaaaaaa", "bbbbbbbb", "cc", 13)
  {
  }

  /** As written the sample gives `"bb\n\ncc"` as its third chunk; corrected, `"cc"`. */
  lemma SampleChunks()
    ensures ChunkText("aaaaaaaa\n\nbbbbbbbb\n\ncc", 13, 150) == ["aaaaaaaa", "bbbbbbbb", "bb\n\ncc"]
    ensures CorrectedChunkText("aaaaaaaa\n\nbbbbbbbb\n\ncc", 13, 150) == ["aaaaaaaa", "bbbbbbbb", "cc"]
  {
    SampleFits();
    assert Paragraphs("aaaaaaaa", "bbbbbbbb", "cc") == "aaaaaaaa\n\nbbbbbbbb\n\ncc";
    assert Spill("bbbbbbbb", "cc") == "bb\n\ncc";
    AsWrittenRepeatsText("aaaaaaaa", "bbbbbbbb", "cc", 13, 150);
    CorrectedSplitsText("aaaaaaaa", "bbbbbbbb", "cc", 13, 150);
  }
}

=== FILE: entities.dfy ===
/** The rows of the lecture companion's database: sessions, the questions asked in
    them, uploaded resources, the chunks cut from a resource's text, and the one answer
    each question may have. Row ids (uuid4 in the database) are naturals handed out by
    the store; timestamps are naturals supplied by the caller. */
module Entities {
  import opened Wrappers

  type Id = nat

  /** The resource statuses the upload flow produces. */
  const EXTRACTED: string := "EXTRACTED"
  const FAILED: string := "FAILED"

  datatype LectureSession = LectureSession(id: Id, title: string, topics: Option<string>)

  datatype Question = Question(id: Id, sessionId: Id, text: string, orderIndex: int)

  /** `extractedAt` is the time extraction finished, when it did. */
  datatype Resource = Resource(
    id: Id, sessionId: Id, filename: string, mimeType: Option<string>, storagePath: string,
    status: string, extractedText: Option<string>, error: Option<string>, extractedAt: Option<nat>)

  datatype Chunk = Chunk(id: Id, sessionId: Id, resourceId: Id, chunkIndex: nat, pageRef: Option<string>, text: string)

  /** One entry of an answer's source list: which chunk the context came from. */
  datatype SourceRef = SourceRef(chunkId: Id, filename: string, pageRef: Option<string>, rank: real)

  /** `sources` is the list that the database keeps serialised as JSON text. */
  datatype Answer = Answer(id: Id, sessionId: Id, questionId: Id, answerMd: string, sources: seq<SourceRef>)

  /** A full-text or semantic search hit. */
  datatype Hit = Hit(chunkId: Id, resourceId: Id, filename: string, pageRef: Option<string>, text: string, rank: real)
}

=== FILE: explain.dfy ===
/** The two explain routes (backend/app/routers/explain.py, backend/app/routers/explain_all.py):
    a question's text is keywordized into a full-text query, the hits become the prompt's
    context, the language model's markdown is stored as the question's one answer, and
    the hits are kept as its sources. The search and the language model are parameters:
    `search(session, query)` stands for `search_chunks_fts(…, limit=6)` on the current
    chunks, `generate(prompt)` for `ollama_generate`. */
module Explain {
  import opened Wrappers
  import opened Entities
  import opened Keywords
  import opened Prompt
  import opened Store

  type Search = (Id, string) -> seq<Hit>
  type Generate = string -> string

  /** `get_question`: the position of the question with id `qid`. */
  function FindQuestion(qs: seq<Question>, qid: Id): (r: Option<nat>)
    ensures r.Some? ==> r.value < |qs| && qs[r.value].id == qid
    ensures r.None? <==> forall k :: 0 <= k < |qs| ==> qs[k].id != qid
  {
    Find(qs, (q: Question) => q.id == qid)
  }

  /** The stored form of one hit. */
  function SourceOf(h: Hit): SourceRef {
    SourceRef(h.chunkId, h.filename, h.pageRef, h.rank)
  }

  function Sources(hs: seq<Hit>): seq<SourceRef> {
    seq(|hs|, k requires 0 <= k < |hs| => SourceOf(hs[k]))
  }

  /** The context hits for question `q`. */
  function HitsFor(q: Question, search: Search): seq<Hit> {
    search(q.sessionId, Keywordize(q.text))
  }

  /** The body both routes run for one question: search, prompt, generate, upsert. */
  function Explain(db: Db, q: Question, search: Search, generate: Generate): (Db, Answer) {
    var hits := HitsFor(q, search);
    UpsertAnswer(db, q.sessionId, q.id, generate(BuildPrompt(q.text, hits)), Sources(hits))
  }

  /** `explain_one`: 404 for an unknown question, otherwise a fresh answer, whether or
      not the question had one. */
  function ExplainOne(db: Db, qid: Id, search: Search, generate: Generate): (r: (Db, Result<Answer, HttpError>))
    ensures FindQuestion(db.questions, qid).None? ==> r == (db, Err(HttpError(404, "Question not found")))
    ensures FindQuestion(db.questions, qid).Some? ==> r.1.Ok?
  {
    match FindQuestion(db.questions, qid)
    case None => (db, Err(HttpError(404, "Question not found")))
    case Some(i) =>
      var (db', a) := Explain(db, db.questions[i], search, generate);
      (db', Ok(a))
  }

  // ---------------------------------------------------------------------------
  // the answers' sessions
  // ---------------------------------------------------------------------------

  /** Question ids are unique (they are primary keys). */
  predicate QuestionIdsUnique(qs: seq<Question>) {
    forall i, j :: 0 <= i < j < |qs| ==> qs[i].id != qs[j].id
  }

  /** Every answer carries the session of the question it answers. */
  predicate AnswersInSession(db: Db) {
    forall i, k :: 0 <= i < |db.answers| && 0 <= k < |db.questions| && db.answers[i].questionId == db.questions[k].id
      ==> db.answers[i].sessionId == db.questions[k].sessionId
  }

  predicate Consistent(db: Db) {
    Valid(db) && QuestionIdsUnique(db.questions) && AnswersInSession(db)
  }

  /** What one explain step does to the store: only answers (and the id counter)
      change, the question is answered afterwards by the returned answer, whose
      markdown is generated from the prompt for the hits and whose sources are the hits
      in order; nothing answered before loses its answer. */
  lemma ExplainStep(db: Db, q: Question, search: Search, generate: Generate)
    requires Valid(db)
    ensures var (db', a) := Explain(db, q, search, generate);
      var hits := HitsFor(q, search);
      && Valid(db')
      && db' == db.(answers := db'.answers, nextId := db'.nextId)
      && a.questionId == q.id
      && a.answerMd == generate(BuildPrompt(q.text, hits))
      && |a.sources| == |hits|
      && (forall k :: 0 <= k < |hits| ==>
            a.sources[k] == SourceRef(hits[k].chunkId, hits[k].filename, hits[k].pageRef, hits[k].rank))
      && (exists i :: 0 <= i < |db'.answers| && db'.answers[i] == a)
      && Answered(db'.answers, q.id)
      && |db.answers| <= |db'.answers|
      && (forall j :: 0 <= j < |db.answers| && db.answers[j].questionId != q.id ==> db'.answers[j] == db.answers[j])
  {
    var hits := HitsFor(q, search);
    UpsertAnswerUnique(db, q.sessionId, q.id, generate(BuildPrompt(q.text, hits)), Sources(hits));
  }

  /** No answered question loses its answer. */
  ghost predicate KeepsAnswers(before: seq<Answer>, after: seq<Answer>) {
    forall x :: Answered(before, x) ==> Answered(after, x)
  }

  lemma ExplainKeepsAnswers(db: Db, q: Question, search: Search, generate: Generate)
    requires Valid(db)
    ensures KeepsAnswers(db.answers, Explain(db, q, search, generate).0.answers)
  {
    ExplainStep(db, q, search, generate);
    var db' := Explain(db, q, search, generate).0;
    forall x | Answered(db.answers, x) ensures Answered(db'.answers, x) {
      if x != q.id {
        var j :| 0 <= j < |db.answers| && db.answers[j].questionId == x;
        assert db'.answers[j] == db.answers[j];
      }
    }
  }

  /** A question of a consistent store gets an answer in its own session, and the store
      stays consistent. */
  lemma ExplainConsistent(db: Db, q: Question, search: Search, generate: Generate)
    requires Consistent(db) && q in db.questions
    ensures var (db', a) := Explain(db, q, search, generate);
      Consistent(db') && a.sessionId == q.sessionId
  {
    var hits := HitsFor(q, search);
    var md := generate(BuildPrompt(q.text, hits));
    var (db', a) := Explain(db, q, search, generate);
    UpsertAnswerUnique(db, q.sessionId, q.id, md, Sources(hits));
    var k0 :| 0 <= k0 < |db.questions| && db.questions[k0] == q;
    assert a.sessionId == q.sessionId by {
      if Answered(db.answers, q.id) {
        var i :| 0 <= i < |db.answers| && db.answers[i].questionId == q.id && a == db.answers[i].(answerMd := md, sources := Sources(hits));
        assert db.answers[i].sessionId == db.questions[k0].sessionId;
      }
    }
    forall i, k | 0 <= i < |db'.answers| && 0 <= k < |db'.questions| && db'.answers[i].questionId == db'.questions[k].id
      ensures db'.answers[i].sessionId == db'.questions[k].sessionId
    {
      if db'.answers[i].questionId == q.id {
        assert db'.answers[i] == a;
        assert db.questions[k].id == db.questions[k0].id;
        assert k == k0;
      } else {
        assert i < |db.answers|;
        assert db'.answers[i] == db.answers[i];
      }
    }
  }

  /** `explain_one`: an unknown id changes nothing; a known question gets the answer
      generated for it, in its session, the store stays consistent and no question has
      two answers. */
  lemma ExplainOneSpec(db: Db, qid: Id, search: Search, generate: Generate)
    requires Consistent(db)
    ensures var (db', r) := ExplainOne(db, qid, search, generate);
      && Consistent(db')
      && (r.Err? <==> forall k :: 0 <= k < |db.questions| ==> db.questions[k].id != qid)
      && (r.Err? ==> db' == db && r.error == HttpError(404, "Question not found"))
      && (r.Ok? ==>
            && db'.questions == db.questions
            && r.value.questionId == qid
            && (exists k :: 0 <= k < |db.questions| && db.questions[k].id == qid
                 && r.value.sessionId == db.questions[k].sessionId
                 && r.value.answerMd == generate(BuildPrompt(db.questions[k].text, HitsFor(db.questions[k], search)))
                 && |r.value.sources| == |HitsFor(db.questions[k], search)|)
            && (exists i :: 0 <= i < |db'.answers| && db'.answers[i] == r.value))
  {
    match FindQuestion(db.questions, qid)
    case None =>
    case Some(k) =>
      var q := db.questions[k];
      ExplainStep(db, q, search, generate);
      ExplainConsistent(db, q, search, generate);
  }

  // ---------------------------------------------------------------------------
  // explain-all
  // ---------------------------------------------------------------------------

  /** The questions `explain_all` works on: all of the session's with `force`, else
      those without an answer; by ascending `order_index` either way. */
  function Selection(db: Db, sid: Id, force: bool): seq<Question> {
    if force then ListQuestions(db, sid) else ListUnanswered(db, sid)
  }

  /** The loop over the selection, in order, one answer per question. */
  function ExplainEach(db: Db, qs: seq<Question>, search: Search, generate: Generate): (Db, seq<Answer>)
    decreases |qs|
  {
    if |qs| == 0 then (db, [])
    else
      var (db1, a) := Explain(db, qs[0], search, generate);
      var (db2, rest) := ExplainEach(db1, qs[1..], search, generate);
      (db2, [a] + rest)
  }

  /** `explain_all`: the count and the saved answers. */
  function ExplainAll(db: Db, sid: Id, force: bool, search: Search, generate: Generate): (Db, nat, seq<Answer>) {
    var qs := Selection(db, sid, force);
    if |qs| == 0 then (db, 0, [])
    else
      var (db', answers) := ExplainEach(db, qs, search, generate);
      (db', |answers|, answers)
  }

  /** The answers follow the questions one for one, in order. */
  predicate Follows(answers: seq<Answer>, qs: seq<Question>) {
    |answers| == |qs| && forall k :: 0 <= k < |qs| ==> answers[k].questionId == qs[k].id
  }

  /** Every question of `qs` has an answer among `answers`. */
  predicate AllHaveAnswers(answers: seq<Answer>, qs: seq<Question>) {
    forall k :: 0 <= k < |qs| ==> Answered(answers, qs[k].id)
  }

  /** Each answer carries the session of the question at its position. */
  predicate SameSessions(answers: seq<Answer>, qs: seq<Question>) {
    |answers| == |qs| && forall k :: 0 <= k < |qs| ==> answers[k].sessionId == qs[k].sessionId
  }

  /** Every question of `qs` is one of `questions`. */
  predicate AllIn(qs: seq<Question>, questions: seq<Question>) {
    forall k :: 0 <= k < |qs| ==> qs[k] in questions
  }

  lemma FollowsCons(a: Answer, rest: seq<Answer>, qs: seq<Question>)
    requires |qs| > 0 && a.questionId == qs[0].id && Follows(rest, qs[1..])
    ensures Follows([a] + rest, qs)
  {
    forall k | 0 < k < |qs| ensures ([a] + rest)[k].questionId == qs[k].id {
      assert ([a] + rest)[k] == rest[k - 1];
      assert qs[k] == qs[1..][k - 1];
    }
  }

  lemma AllHaveAnswersCons(answers: seq<Answer>, qs: seq<Question>)
    requires |qs| > 0 && Answered(answers, qs[0].id) && AllHaveAnswers(answers, qs[1..])
    ensures AllHaveAnswers(answers, qs)
  {
    forall k | 0 < k < |qs| ensures Answered(answers, qs[k].id) {
      assert qs[k] == qs[1..][k - 1];
    }
  }

  lemma SameSessionsCons(a: Answer, rest: seq<Answer>, qs: seq<Question>)
    requires |qs| > 0 && a.sessionId == qs[0].sessionId && SameSessions(rest, qs[1..])
    ensures SameSessions([a] + rest, qs)
  {
    forall k | 0 < k < |qs| ensures ([a] + rest)[k].sessionId == qs[k].sessionId {
      assert ([a] + rest)[k] == rest[k - 1];
      assert qs[k] == qs[1..][k - 1];
    }
  }

  lemma AllInTail(qs: seq<Question>, questions: seq<Question>)
    requires |qs| > 0 && AllIn(qs, questions)
    ensures qs[0] in questions && AllIn(qs[1..], questions)
  {
    forall k | 0 <= k < |qs[1..]| ensures qs[1..][k] in questions {
      assert qs[1..][k] == qs[k + 1];
    }
  }

  /** The loop answers every question it is given, in order, keeps every earlier answer
      and the questions themselves, and keeps one answer per question. */
  lemma {:induction false} ExplainEachSpec(db: Db, qs: seq<Question>, search: Search, generate: Generate)
    requires Valid(db)
    ensures var (db', answers) := ExplainEach(db, qs, search, generate);
      && Valid(db')
      && db'.questions == db.questions
      && Follows(answers, qs)
      && AllHaveAnswers(db'.answers, qs)
      && KeepsAnswers(db.answers, db'.answers)
    decreases |qs|
  {
    if |qs| > 0 {
      var (db1, a) := Explain(db, qs[0], search, generate);
      ExplainStep(db, qs[0], search, generate);
      ExplainKeepsAnswers(db, qs[0], search, generate);
      ExplainEachSpec(db1, qs[1..], search, generate);
      var (db2, rest) := ExplainEach(db1, qs[1..], search, generate);
      FollowsCons(a, rest, qs);
      assert Answered(db2.answers, qs[0].id);
      AllHaveAnswersCons(db2.answers, qs);
    }
  }

  /** On a consistent store, every saved answer carries its question's session. */
  lemma {:induction false} ExplainEachSessions(db: Db, qs: seq<Question>, search: Search, generate: Generate)
    requires Consistent(db) && AllIn(qs, db.questions)
    ensures var (db', answers) := ExplainEach(db, qs, search, generate);
      Consistent(db') && SameSessions(answers, qs)
    decreases |qs|
  {
    if |qs| > 0 {
      var (db1, a) := Explain(db, qs[0], search, generate);
      AllInTail(qs, db.questions);
      ExplainStep(db, qs[0], search, generate);
      ExplainConsistent(db, qs[0], search, generate);
      ExplainEachSessions(db1, qs[1..], search, generate);
      var (db2, rest) := ExplainEach(db1, qs[1..], search, generate);
      SameSessionsCons(a, rest, qs);
    }
  }

  /** `explain_all`: the count is the number of selected questions, which are all of the
      session's with `force` and its unanswered ones without; the answers follow the
      selection; an empty selection changes nothing; no question ends up with two answers. */
  lemma ExplainAllSpec(db: Db, sid: Id, force: bool, search: Search, generate: Generate)
    requires Valid(db)
    ensures var (db', count, answers) := ExplainAll(db, sid, force, search, generate);
      var qs := Selection(db, sid, force);
      && Valid(db')
      && count == |answers| == |qs|
      && (forall q :: q in qs <==> q in db.questions && q.sessionId == sid && (force || !Answered(db.answers, q.id)))
      && (forall k :: 0 <= k < |qs| ==> answers[k].questionId == qs[k].id)
      && (qs == [] ==> db' == db)
  {
    var qs := Selection(db, sid, force);
    if |qs| > 0 {
      ExplainEachSpec(db, qs, search, generate);
    }
  }

  /** After a run without `force`, every question of the session is answered, so a second
      such run selects nothing and reports a count of 0. */
  lemma ExplainAllSettles(db: Db, sid: Id, search: Search, generate: Generate)
    requires Valid(db)
    ensures var db' := ExplainAll(db, sid, false, search, generate).0;
      && (forall q :: q in db'.questions && q.sessionId == sid ==> Answered(db'.answers, q.id))
      && ExplainAll(db', sid, false, search, generate).1 == 0
  {
    var db' := ExplainAll(db, sid, false, search, generate).0;
    AllAnswered(db, sid, search, generate);
    NothingUnanswered(db', sid);
  }

  lemma AllAnswered(db: Db, sid: Id, search: Search, generate: Generate)
    requires Valid(db)
    ensures var db' := ExplainAll(db, sid, false, search, generate).0;
      forall q :: q in db'.questions && q.sessionId == sid ==> Answered(db'.answers, q.id)
  {
    var qs := ListUnanswered(db, sid);
    if |qs| > 0 {
      var db' := ExplainEach(db, qs, search, generate).0;
      ExplainEachSpec(db, qs, search, generate);
      AnsweredAfter(db, db', sid, qs);
    }
  }

  /** Answering every open question of a session, and keeping the other answers, leaves
      no question of the session open. */
  lemma AnsweredAfter(db: Db, db': Db, sid: Id, qs: seq<Question>)
    requires db'.questions == db.questions
    requires AllHaveAnswers(db'.answers, qs) && KeepsAnswers(db.answers, db'.answers)
    requires forall q :: q in db.questions && q.sessionId == sid && !Answered(db.answers, q.id) ==> q in qs
    ensures forall q :: q in db'.questions && q.sessionId == sid ==> Answered(db'.answers, q.id)
  {
    forall q | q in db'.questions && q.sessionId == sid ensures Answered(db'.answers, q.id) {
      if !Answered(db.answers, q.id) {
        var k :| 0 <= k < |qs| && qs[k] == q;
      }
    }
  }

  lemma NothingUnanswered(db: Db, sid: Id)
    requires forall q :: q in db.questions && q.sessionId == sid ==> Answered(db.answers, q.id)
    ensures ListUnanswered(db, sid) == []
  {
  }

  /** Each answer `explain_all` saves carries its question's session, and the store
      stays consistent. */
  lemma ExplainAllSessions(db: Db, sid: Id, force: bool, search: Search, generate: Generate)
    requires Consistent(db)
    ensures var (db', count, answers) := ExplainAll(db, sid, force, search, generate);
      var qs := Selection(db, sid, force);
      && Consistent(db')
      && |answers| == |qs|
      && forall k :: 0 <= k < |qs| ==> answers[k].sessionId == sid
  {
    var qs := Selection(db, sid, force);
    if |qs| > 0 {
      forall k | 0 <= k < |qs| ensures qs[k] in db.questions && qs[k].sessionId == sid {
        assert qs[k] in qs;
      }
      ExplainEachSessions(db, qs, search, generate);
    }
  }
}

=== FILE: extract.dfy ===
/** Text extraction from uploads (`backend/app/extract.py`). The PDF and PowerPoint
    libraries are replaced by what they report for the uploaded bytes: the text of each
    page, or the `text` of each shape of each slide, or the message of the exception
    they raise. */
module Extract {
  import opened Wrappers
  import opened Text
  import opened Markers
  import opened Chunking
  import opened Entities

  const PdfMime: string := "application/pdf"
  const PptxMime: string := "application/vnd.openxmlformats-officedocument.presentationml.presentation"
  const UnsupportedMessage: string := "Unsupported file type. Only PDF and PPTX are supported in Phase 1.1."
  const ErrorPrefix: string := "Extraction error: "

  /** What the libraries make of the uploaded bytes. A page is `None` when the library
      finds no text on it; a shape is `None` when it has no `text` attribute. */
  datatype Document = Document(pages: Outcome<seq<Option<string>>>, slides: Outcome<seq<seq<Option<string>>>>)

  /** `extract_text`'s `(status, extracted_text_or_error)`. */
  datatype Extraction = Extraction(status: string, output: string)

  // ---------------------------------------------------------------------------
  // the marked-up text
  // ---------------------------------------------------------------------------

  /** A page or slide that yielded text, with its 1-based position in the document. */
  datatype Entry = Entry(kind: string, number: nat, text: string)

  /** The ref `split_by_markers` reads back from the entry's header. */
  function RefOf(e: Entry): string {
    e.kind + " " + NatToString(e.number)
  }

  /** One part: a blank line, the header line, then the entry's text. */
  function Part(e: Entry): string {
    "\n" + Header(e.kind, e.number) + "\n" + e.text
  }

  function Parts(es: seq<Entry>): (r: seq<string>)
    ensures |r| == |es|
    decreases |es|
  {
    if |es| == 0 then [] else [Part(es[0])] + Parts(es[1..])
  }

  /** `"\n".join(parts).strip()`. */
  function Render(es: seq<Entry>): string {
    Strip(Join(Parts(es), "\n"))
  }

  // ---------------------------------------------------------------------------
  // extract_pdf / extract_pptx
  // ---------------------------------------------------------------------------

  /** `page.extract_text() or ""`. */
  function PageText(page: Option<string>): string {
    page.GetOr("")
  }

  /** Entry numbers strictly increase. */
  predicate Increasing(r: seq<Entry>) {
    forall k, j :: 0 <= k < j < |r| ==> r[k].number < r[j].number
  }

  /** An entry numbered `n` goes in front of entries with greater numbers. */
  lemma IncreasingCons(e: Entry, r: seq<Entry>)
    requires Increasing(r) && forall k :: 0 <= k < |r| ==> e.number < r[k].number
    ensures Increasing([e] + r)
  {
    var s := [e] + r;
    forall k, j | 0 <= k < j < |s| ensures s[k].number < s[j].number {
      assert s[j] == r[j - 1];
      if k > 0 {
        assert s[k] == r[k - 1];
      }
    }
  }

  /** Each entry of `r` is a page numbered from `first` that has text once stripped,
      with its text. */
  predicate PagesEach(r: seq<Entry>, pages: seq<Option<string>>, first: nat) {
    forall k :: 0 <= k < |r| ==>
      && r[k].kind == "page" && Strip(r[k].text) != []
      && first <= r[k].number < first + |pages|
      && r[k].text == PageText(pages[r[k].number - first])
  }

  /** `r` lists, in increasing page order, pages numbered from `first` that have text
      once stripped, each with its text. */
  predicate PagesOk(r: seq<Entry>, pages: seq<Option<string>>, first: nat) {
    PagesEach(r, pages, first) && Increasing(r)
  }

  /** The pages, numbered from `first`, that have text once stripped. */
  function PageEntries(pages: seq<Option<string>>, first: nat): (r: seq<Entry>)
    ensures PagesOk(r, pages, first)
    decreases |pages|
  {
    if |pages| == 0 then []
    else
      var rest := PageEntries(pages[1..], first + 1);
      var t := PageText(pages[0]);
      PagesShift(rest, pages, first);
      if Strip(t) != [] then
        var e := Entry("page", first, t);
        PagesCons(e, rest, pages, first);
        IncreasingCons(e, rest);
        [e] + rest
      else rest
  }

  /** Entries for the pages after the first are entries for all the pages. */
  lemma PagesShift(r: seq<Entry>, pages: seq<Option<string>>, first: nat)
    requires |pages| > 0 && PagesEach(r, pages[1..], first + 1)
    ensures PagesEach(r, pages, first)
    ensures forall k :: 0 <= k < |r| ==> first < r[k].number
  {
    forall k | 0 <= k < |r| ensures r[k].text == PageText(pages[r[k].number - first]) {
      assert pages[1..][r[k].number - (first + 1)] == pages[r[k].number - first];
    }
  }

  /** The first page's entry goes in front of them. */
  lemma PagesCons(e: Entry, r: seq<Entry>, pages: seq<Option<string>>, first: nat)
    requires |pages| > 0 && e == Entry("page", first, PageText(pages[0])) && Strip(e.text) != []
    requires PagesEach(r, pages, first)
    ensures PagesEach([e] + r, pages, first)
  {
    var s := [e] + r;
    forall k | 0 < k < |s|
      ensures && s[k].kind == "page" && Strip(s[k].text) != []
              && first <= s[k].number < first + |pages|
              && s[k].text == PageText(pages[s[k].number - first])
    {
      assert s[k] == r[k - 1];
    }
  }

  /** Every page with text has its entry. */
  lemma {:induction false} PageEntriesComplete(pages: seq<Option<string>>, first: nat, i: nat)
    requires i < |pages| && Strip(PageText(pages[i])) != []
    ensures exists k :: 0 <= k < |PageEntries(pages, first)| && PageEntries(pages, first)[k].number == first + i
    decreases i
  {
    var r := PageEntries(pages, first);
    var t := PageText(pages[0]);
    if i == 0 {
      assert r[0].number == first;
    } else {
      assert pages[1..][i - 1] == pages[i];
      PageEntriesComplete(pages[1..], first + 1, i - 1);
      var rest := PageEntries(pages[1..], first + 1);
      var k :| 0 <= k < |rest| && rest[k].number == first + 1 + (i - 1);
      if Strip(t) != [] {
        assert r[k + 1] == rest[k];
      } else {
        assert r[k] == rest[k];
      }
    }
  }

  /** The stripped text of each shape that has a non-blank one, in shape order. */
  function ShapeTexts(shapes: seq<Option<string>>): (r: seq<string>)
    ensures forall k :: 0 <= k < |r| ==> r[k] != [] && Strip(r[k]) == r[k]
    ensures r == [] <==> forall i :: 0 <= i < |shapes| ==> shapes[i].None? || Strip(shapes[i].value) == []
    decreases |shapes|
  {
    if |shapes| == 0 then []
    else
      var rest := ShapeTexts(shapes[1..]);
      assert forall i :: 1 <= i < |shapes| ==> shapes[1..][i - 1] == shapes[i];
      match shapes[0]
      case Some(t) =>
        if t != [] && Strip(t) != [] then
          StripIdempotent(t);
          [Strip(t)] + rest
        else rest
      case None => rest
  }

  /** The stripped non-blank shape texts of each slide. */
  function SlideLines(slides: seq<seq<Option<string>>>): (r: seq<seq<string>>)
    ensures |r| == |slides| && forall i :: 0 <= i < |slides| ==> r[i] == ShapeTexts(slides[i])
  {
    seq(|slides|, i requires 0 <= i < |slides| => ShapeTexts(slides[i]))
  }

  /** Each entry of `r` is a slide numbered from `first` that has shape texts, with
      those texts one per line. */
  predicate SlidesEach(r: seq<Entry>, lines: seq<seq<string>>, first: nat) {
    forall k :: 0 <= k < |r| ==>
      && r[k].kind == "slide"
      && first <= r[k].number < first + |lines|
      && lines[r[k].number - first] != []
      && r[k].text == Join(lines[r[k].number - first], "\n")
  }

  lemma SlidesShift(r: seq<Entry>, lines: seq<seq<string>>, first: nat)
    requires |lines| > 0 && SlidesEach(r, lines[1..], first + 1)
    ensures SlidesEach(r, lines, first)
    ensures forall k :: 0 <= k < |r| ==> first < r[k].number
  {
    forall k | 0 <= k < |r| ensures lines[r[k].number - first] == lines[1..][r[k].number - (first + 1)] {
    }
  }

  /** The first slide's entry goes in front of them. */
  lemma SlidesCons(e: Entry, r: seq<Entry>, lines: seq<seq<string>>, first: nat)
    requires |lines| > 0 && lines[0] != [] && e == Entry("slide", first, Join(lines[0], "\n"))
    requires SlidesEach(r, lines, first)
    ensures SlidesEach([e] + r, lines, first)
  {
    var s := [e] + r;
    forall k | 0 < k < |s|
      ensures && s[k].kind == "slide"
              && first <= s[k].number < first + |lines|
              && lines[s[k].number - first] != []
              && s[k].text == Join(lines[s[k].number - first], "\n")
    {
      assert s[k] == r[k - 1];
    }
  }

  /** The slides, numbered from `first`, that have at least one non-blank shape, given
      each slide's shape texts; the entry's text is those texts, one per line. */
  function SlideEntries(lines: seq<seq<string>>, first: nat): (r: seq<Entry>)
    ensures SlidesEach(r, lines, first) && Increasing(r)
    decreases |lines|
  {
    if |lines| == 0 then []
    else
      var rest := SlideEntries(lines[1..], first + 1);
      SlidesShift(rest, lines, first);
      if lines[0] != [] then
        var e := Entry("slide", first, Join(lines[0], "\n"));
        SlidesCons(e, rest, lines, first);
        IncreasingCons(e, rest);
        [e] + rest
      else rest
  }

  /** Every slide with a non-blank shape has its entry. */
  lemma {:induction false} SlideEntriesComplete(lines: seq<seq<string>>, first: nat, i: nat)
    requires i < |lines| && lines[i] != []
    ensures exists k :: 0 <= k < |SlideEntries(lines, first)| && SlideEntries(lines, first)[k].number == first + i
    decreases i
  {
    var r := SlideEntries(lines, first);
    if i == 0 {
      assert r[0].number == first;
    } else {
      assert lines[1..][i - 1] == lines[i];
      SlideEntriesComplete(lines[1..], first + 1, i - 1);
      var rest := SlideEntries(lines[1..], first + 1);
      var k :| 0 <= k < |rest| && rest[k].number == first + 1 + (i - 1);
      if lines[0] != [] {
        assert r[k + 1] == rest[k];
      } else {
        assert r[k] == rest[k];
      }
    }
  }

  /** `extract_pdf`. */
  function ExtractPdf(pages: seq<Option<string>>): string {
    Render(PageEntries(pages, 1))
  }

  /** `extract_pptx`. */
  function ExtractPptx(slides: seq<seq<Option<string>>>): string {
    Render(SlideEntries(SlideLines(slides), 1))
  }

  // ---------------------------------------------------------------------------
  // extract_text
  // ---------------------------------------------------------------------------

  predicate IsPdf(filename: string, mime: Option<string>) {
    EndsWith(Lower(filename), ".pdf") || mime == Some(PdfMime)
  }

  predicate IsPptx(filename: string, mime: Option<string>) {
    EndsWith(Lower(filename), ".pptx") || mime == Some(PptxMime)
  }

  /** `extract_text`: PDF is tried first, then PowerPoint; anything else is refused, and
      a library exception becomes a failure carrying its message. */
  function ExtractText(filename: string, mime: Option<string>, doc: Document): (r: Extraction)
    ensures r.status == EXTRACTED || r.status == FAILED
    ensures r.status == EXTRACTED <==>
      (IsPdf(filename, mime) && doc.pages.Success?)
      || (!IsPdf(filename, mime) && IsPptx(filename, mime) && doc.slides.Success?)
    ensures !IsPdf(filename, mime) && !IsPptx(filename, mime) ==> r.output == UnsupportedMessage
    ensures IsPdf(filename, mime) && doc.pages.Raised? ==> r.output == ErrorPrefix + doc.pages.message
    ensures !IsPdf(filename, mime) && IsPptx(filename, mime) && doc.slides.Raised? ==>
      r.output == ErrorPrefix + doc.slides.message
    ensures r.status == EXTRACTED ==>
      r.output == (if IsPdf(filename, mime) then ExtractPdf(doc.pages.value) else ExtractPptx(doc.slides.value))
  {
    if IsPdf(filename, mime) then
      match doc.pages
      case Success(pages) => Extraction(EXTRACTED, ExtractPdf(pages))
      case Raised(e) => Extraction(FAILED, ErrorPrefix + e)
    else if IsPptx(filename, mime) then
      match doc.slides
      case Success(slides) => Extraction(EXTRACTED, ExtractPptx(slides))
      case Raised(e) => Extraction(FAILED, ErrorPrefix + e)
    else Extraction(FAILED, UnsupportedMessage)
  }

  /** The PDF test comes first: a PDF by name or type is read as a PDF even when the other
      of the two says PowerPoint. */
  lemma PdfBeforePptx(filename: string, mime: Option<string>, doc: Document)
    requires IsPdf(filename, mime) && doc.pages.Success?
    ensures ExtractText(filename, mime, doc) == Extraction(EXTRACTED, ExtractPdf(doc.pages.value))
  {
  }

  /** Extracted text never starts or ends with whitespace. */
  lemma ExtractedIsStripped(filename: string, mime: Option<string>, doc: Document)
    requires ExtractText(filename, mime, doc).status == EXTRACTED
    ensures Strip(ExtractText(filename, mime, doc).output) == ExtractText(filename, mime, doc).output
  {
    var r := ExtractText(filename, mime, doc);
    if IsPdf(filename, mime) {
      StripIdempotent(Join(Parts(PageEntries(doc.pages.value, 1)), "\n"));
    } else {
      StripIdempotent(Join(Parts(SlideEntries(SlideLines(doc.slides.value), 1)), "\n"));
    }
  }

  // ---------------------------------------------------------------------------
  // reading the marked-up text back
  // ---------------------------------------------------------------------------

  /** The lines under the header of an entry followed by another: the text's lines and
      the blank line that opens the next part. */
  function MiddleBody(t: string): seq<string> {
    Split(t, '\n') + [""]
  }

  /** The lines under the last header: `strip` has removed the text's trailing whitespace. */
  function LastBody(t: string): seq<string> {
    Split(TrimRight(t), '\n')
  }

  /** The document the rendered text is, as marker-headed sections. */
  function Layout(es: seq<Entry>): (r: seq<Marked>)
    requires |es| > 0
    ensures |r| == |es|
    decreases |es|
  {
    var e := es[0];
    if |es| == 1 then [Marked(Header(e.kind, e.number), RefOf(e), LastBody(e.text))]
    else [Marked(Header(e.kind, e.number), RefOf(e), MiddleBody(e.text))] + Layout(es[1..])
  }

  /** The whitespace `strip` removes from the end of `t`. */
  function Trailing(t: string): string {
    t[|TrimRight(t)|..]
  }

  lemma JoinCons(x: string, p: seq<string>, sep: string)
    requires |p| >= 1
    ensures Join([x] + p, sep) == x + sep + Join(p, sep)
  {
    assert ([x] + p)[1..] == p;
  }

  lemma JoinMiddle(t: string)
    ensures Join(MiddleBody(t), "\n") == t + "\n"
  {
    JoinSplit(t, '\n');
    JoinAppend(Split(t, '\n'), [""], "\n");
  }

  lemma JoinLast(t: string)
    ensures Join(LastBody(t), "\n") + Trailing(t) == t
  {
    JoinSplit(TrimRight(t), '\n');
    TrimRightSlice(t);
  }

  lemma BaseShape(h: string, jb: string, w: string)
    ensures "\n" + h + "\n" + (jb + w) == "\n" + (h + "\n" + jb) + w
  {
  }

  lemma StepShape(h: string, t: string, ju: string, w: string)
    ensures ("\n" + h + "\n" + t) + "\n" + ("\n" + ju + w) == "\n" + (h + "\n" + (t + "\n") + "\n" + ju) + w
  {
  }

  lemma {:induction false} PartsAsLinesLast(es: seq<Entry>)
    requires |es| == 1
    ensures Join(Parts(es), "\n") == "\n" + Join(Unfold(Layout(es)), "\n") + Trailing(es[0].text)
    ensures StartsWith(Join(Unfold(Layout(es)), "\n"), Header(es[0].kind, es[0].number))
    ensures EndsWith(Join(Unfold(Layout(es)), "\n"), TrimRight(es[0].text))
  {
    var e := es[0];
    var h := Header(e.kind, e.number);
    var w := Trailing(e.text);
    var body := LastBody(e.text);
    var jb := Join(body, "\n");
    assert Unfold(Layout(es)) == [h] + body;
    JoinCons(h, body, "\n");
    JoinLast(e.text);
    JoinSplit(TrimRight(e.text), '\n');
    assert Parts(es) == [Part(e)];
    assert e.text == jb + w;
    BaseShape(h, jb, w);
  }

  lemma JoinStep(h: string, body: seq<string>, t: string, u: seq<string>)
    requires |body| >= 1 && |u| >= 1 && Join(body, "\n") == t + "\n"
    ensures Join([h] + (body + u), "\n") == h + "\n" + (t + "\n") + "\n" + Join(u, "\n")
  {
    JoinAppend(body, u, "\n");
    JoinCons(h, body + u, "\n");
  }

  lemma PartsCons(es: seq<Entry>)
    requires |es| >= 2
    ensures Join(Parts(es), "\n") == Part(es[0]) + "\n" + Join(Parts(es[1..]), "\n")
  {
    assert Parts(es) == [Part(es[0])] + Parts(es[1..]);
    JoinCons(Part(es[0]), Parts(es[1..]), "\n");
  }

  lemma LayoutCons(es: seq<Entry>)
    requires |es| >= 2
    ensures Unfold(Layout(es)) == [Header(es[0].kind, es[0].number)] + (MiddleBody(es[0].text) + Unfold(Layout(es[1..])))
    ensures |Unfold(Layout(es[1..]))| >= 1
  {
    var m := Marked(Header(es[0].kind, es[0].number), RefOf(es[0]), MiddleBody(es[0].text));
    var rest := Layout(es[1..]);
    assert Layout(es) == [m] + rest;
    assert ([m] + rest)[1..] == rest;
    assert Unfold(rest) == [rest[0].header] + rest[0].body + Unfold(rest[1..]);
  }

  /** The sections' lines of two or more entries: the first header, the first text, a
      blank line, then the lines of the rest. */
  lemma LayoutJoinCons(es: seq<Entry>)
    requires |es| >= 2
    ensures Join(Unfold(Layout(es)), "\n")
      == Header(es[0].kind, es[0].number) + "\n" + (es[0].text + "\n") + "\n" + Join(Unfold(Layout(es[1..])), "\n")
  {
    LayoutCons(es);
    JoinMiddle(es[0].text);
    JoinStep(Header(es[0].kind, es[0].number), MiddleBody(es[0].text), es[0].text, Unfold(Layout(es[1..])));
  }

  lemma PartsAsLinesStep(es: seq<Entry>, ju: string, w: string)
    requires |es| >= 2
    requires ju == Join(Unfold(Layout(es[1..])), "\n")
    requires Join(Parts(es[1..]), "\n") == "\n" + ju + w
    ensures Join(Parts(es), "\n") == "\n" + Join(Unfold(Layout(es)), "\n") + w
  {
    var e := es[0];
    LayoutJoinCons(es);
    PartsCons(es);
    StepShape(Header(e.kind, e.number), e.text, ju, w);
  }

  lemma EndsAffix(pre: string, ju: string, tail: string)
    requires EndsWith(ju, tail)
    ensures EndsWith(pre + ju, tail)
  {
    assert (pre + ju)[|pre + ju| - |tail|..] == ju[|ju| - |tail|..];
  }

  lemma {:induction false} PartsJoin(es: seq<Entry>)
    requires |es| > 0
    ensures Join(Parts(es), "\n") == "\n" + Join(Unfold(Layout(es)), "\n") + Trailing(es[|es| - 1].text)
    decreases |es|
  {
    if |es| == 1 {
      PartsAsLinesLast(es);
    } else {
      var last := es[|es| - 1];
      assert es[1..][|es[1..]| - 1] == last;
      PartsJoin(es[1..]);
      PartsAsLinesStep(es, Join(Unfold(Layout(es[1..])), "\n"), Trailing(last.text));
    }
  }

  lemma {:induction false} LayoutJoinEnds(es: seq<Entry>)
    requires |es| > 0
    ensures EndsWith(Join(Unfold(Layout(es)), "\n"), TrimRight(es[|es| - 1].text))
    decreases |es|
  {
    if |es| == 1 {
      PartsAsLinesLast(es);
    } else {
      var last := es[|es| - 1];
      assert es[1..][|es[1..]| - 1] == last;
      LayoutJoinEnds(es[1..]);
      LayoutJoinCons(es);
      EndsAffix(Header(es[0].kind, es[0].number) + "\n" + (es[0].text + "\n") + "\n",
                Join(Unfold(Layout(es[1..])), "\n"), TrimRight(last.text));
    }
  }

  lemma StartsWithHead(h: string, x: string, y: string)
    ensures StartsWith(h + "\n" + x + "\n" + y, h)
  {
    assert (h + "\n" + x + "\n" + y)[..|h|] == h;
  }

  lemma {:induction false} LayoutJoinStarts(es: seq<Entry>)
    requires |es| > 0
    ensures StartsWith(Join(Unfold(Layout(es)), "\n"), Header(es[0].kind, es[0].number))
  {
    if |es| == 1 {
      PartsAsLinesLast(es);
    } else {
      LayoutJoinCons(es);
      StartsWithHead(Header(es[0].kind, es[0].number), es[0].text + "\n", Join(Unfold(Layout(es[1..])), "\n"));
    }
  }

  /** Joining the parts is a blank line, the sections' lines joined, and the trailing
      whitespace of the last text. */
  lemma PartsAsLines(es: seq<Entry>)
    requires |es| > 0
    ensures Join(Parts(es), "\n") == "\n" + Join(Unfold(Layout(es)), "\n") + Trailing(es[|es| - 1].text)
    ensures StartsWith(Join(Unfold(Layout(es)), "\n"), Header(es[0].kind, es[0].number))
    ensures EndsWith(Join(Unfold(Layout(es)), "\n"), TrimRight(es[|es| - 1].text))
  {
    PartsJoin(es);
    LayoutJoinStarts(es);
    LayoutJoinEnds(es);
  }

  // ---------------------------------------------------------------------------
  // the round trip through split_by_markers
  // ---------------------------------------------------------------------------

  /** An entry the extractors produce from a text without marker-shaped lines. */
  predicate CleanEntry(e: Entry) {
    && (e.kind == "page" || e.kind == "slide")
    && Strip(e.text) != []
    && NoMarkerLine(e.text)
  }

  predicate Clean(es: seq<Entry>) {
    forall k :: 0 <= k < |es| ==> CleanEntry(es[k])
  }

  /** What a section of the layout must satisfy for `split_by_markers` to read it back
      as the block of the entry with text `t`. */
  predicate SectionReads(m: Marked, t: string) {
    && '\n' !in m.header && ParseMarker(m.header) == Some(m.ref)
    && |m.body| > 0
    && (forall j :: 0 <= j < |m.body| ==> PlainLine(m.body[j], ParseMarker))
    && Strip(Join(m.body, "\n")) == Strip(t)
  }

  lemma HeaderShape(kind: string, n: nat)
    requires kind == "page" || kind == "slide"
    ensures var h := Header(kind, n); |h| > 0 && h[0] == '-' && '\n' !in h
  {
    var d := NatToString(n);
    assert forall i :: 0 <= i < |d| ==> IsDigit(d[i]);
  }

  lemma ParseEmpty()
    ensures ParseMarker("") == None
  {
    assert Strip("") == "";
  }

  lemma NonBlankEnd(t: string)
    requires Strip(t) != []
    ensures |TrimRight(t)| > 0 && !IsSpace(TrimRight(t)[|TrimRight(t)| - 1])
    ensures t == TrimRight(t) + Trailing(t) && AllSpace(Trailing(t))
    ensures Strip(TrimRight(t)) == Strip(t)
  {
    TrimRightSlice(t);
    StripAppendSpaces(TrimRight(t), Trailing(t));
  }

  /** The body of a section that another section follows: the text's lines and an
      empty line. */
  lemma MiddleReads(t: string)
    requires Strip(t) != [] && NoMarkerLine(t)
    ensures |MiddleBody(t)| > 0
    ensures forall j :: 0 <= j < |MiddleBody(t)| ==> PlainLine(MiddleBody(t)[j], ParseMarker)
    ensures Strip(Join(MiddleBody(t), "\n")) == Strip(t)
  {
    ParseEmpty();
    var body := MiddleBody(t);
    assert forall j :: 0 <= j < |body| - 1 ==> body[j] == Split(t, '\n')[j];
    JoinMiddle(t);
    StripAppendSpaces(t, "\n");
  }

  /** The body of the last section: the lines of the text without its trailing
      whitespace. */
  lemma LastReads(t: string)
    requires Strip(t) != [] && NoMarkerLine(t)
    ensures |LastBody(t)| > 0
    ensures forall j :: 0 <= j < |LastBody(t)| ==> PlainLine(LastBody(t)[j], ParseMarker)
    ensures Strip(Join(LastBody(t), "\n")) == Strip(t)
  {
    NonBlankEnd(t);
    NoMarkerLineDropBack(TrimRight(t), Trailing(t));
    JoinSplit(TrimRight(t), '\n');
  }

  lemma HeaderReads(e: Entry)
    requires e.kind == "page" || e.kind == "slide"
    ensures '\n' !in Header(e.kind, e.number)
    ensures ParseMarker(Header(e.kind, e.number)) == Some(RefOf(e))
  {
    HeaderShape(e.kind, e.number);
    HeaderIsMarker(e.kind, e.number);
  }

  lemma LayoutIndex(es: seq<Entry>, k: nat)
    requires k < |es|
    ensures Layout(es)[k] == Marked(Header(es[k].kind, es[k].number), RefOf(es[k]),
                                    if k == |es| - 1 then LastBody(es[k].text) else MiddleBody(es[k].text))
    decreases k
  {
    if k > 0 {
      LayoutIndex(es[1..], k - 1);
    }
  }

  lemma LayoutSection(es: seq<Entry>, k: nat)
    requires k < |es| && CleanEntry(es[k])
    ensures SectionReads(Layout(es)[k], es[k].text) && Layout(es)[k].ref == RefOf(es[k])
  {
    LayoutIndex(es, k);
    HeaderReads(es[k]);
    if k == |es| - 1 {
      LastReads(es[k].text);
    } else {
      MiddleReads(es[k].text);
    }
  }

  /** Every section of the layout of clean entries reads back as its entry. */
  lemma {:induction false} LayoutReads(es: seq<Entry>)
    requires |es| > 0 && Clean(es)
    ensures forall k :: 0 <= k < |es| ==> SectionReads(Layout(es)[k], es[k].text) && Layout(es)[k].ref == RefOf(es[k])
  {
    forall k | 0 <= k < |es|
      ensures SectionReads(Layout(es)[k], es[k].text) && Layout(es)[k].ref == RefOf(es[k])
    {
      LayoutSection(es, k);
    }
  }

  lemma {:induction false} LayoutWellMarked(es: seq<Entry>)
    requires |es| > 0 && Clean(es)
    ensures WellMarked(Layout(es), ParseMarker)
    ensures forall j :: 0 <= j < |Unfold(Layout(es))| ==> '\n' !in Unfold(Layout(es))[j]
  {
    LayoutReads(es);
    WellMarkedNoBreak(Layout(es), ParseMarker);
  }

  lemma JoinEndsInSeparator(p: seq<string>)
    requires |p| >= 2 && p[|p| - 1] == ""
    ensures var j := Join(p, "\n"); |j| > 0 && j[|j| - 1] == '\n'
  {
    var init := p[..|p| - 1];
    assert p == init + [""];
    JoinAppend(init, [""], "\n");
  }

  /** `splitlines` gives back lines joined with "\n", as long as the joined text does
      not end with a line break. */
  lemma SplitLinesJoin(u: seq<string>)
    requires |u| >= 2 && forall j :: 0 <= j < |u| ==> '\n' !in u[j]
    requires var t := Join(u, "\n"); |t| > 0 && t[|t| - 1] != '\n'
    ensures SplitLines(Join(u, "\n")) == u
  {
    SplitJoin(u, '\n');
    if u[|u| - 1] == "" {
      JoinEndsInSeparator(u);
    }
  }

  /** A text ending in a suffix whose last character is not whitespace ends in it too. */
  lemma LastOfSuffix(j: string, tail: string)
    requires EndsWith(j, tail) && |tail| > 0 && !IsSpace(tail[|tail| - 1])
    ensures |j| > 0 && !IsSpace(j[|j| - 1])
  {
    assert j[|j| - 1] == j[|j| - |tail|..][|tail| - 1];
  }

  /** A text starting with a prefix whose first character is not whitespace starts with
      it too. */
  lemma FirstOfPrefix(j: string, head: string)
    requires StartsWith(j, head) && |head| > 0 && !IsSpace(head[0])
    ensures |j| > 0 && !IsSpace(j[0])
  {
    assert j[0] == j[..|head|][0];
  }

  /** The sections' lines joined start with the first header's dash and end with the
      last text's last non-blank character. */
  lemma LayoutJoinEdges(es: seq<Entry>)
    requires |es| > 0 && CleanEntry(es[0]) && CleanEntry(es[|es| - 1])
    ensures var j := Join(Unfold(Layout(es)), "\n");
      |j| > 0 && !IsSpace(j[0]) && !IsSpace(j[|j| - 1])
  {
    LayoutJoinFirst(es);
    LayoutJoinLast(es);
  }

  lemma LayoutJoinFirst(es: seq<Entry>)
    requires |es| > 0 && CleanEntry(es[0])
    ensures var j := Join(Unfold(Layout(es)), "\n"); |j| > 0 && !IsSpace(j[0])
  {
    var first := es[0];
    LayoutJoinStarts(es);
    HeaderShape(first.kind, first.number);
    FirstOfPrefix(Join(Unfold(Layout(es)), "\n"), Header(first.kind, first.number));
  }

  lemma LayoutJoinLast(es: seq<Entry>)
    requires |es| > 0 && CleanEntry(es[|es| - 1])
    ensures var j := Join(Unfold(Layout(es)), "\n"); |j| > 0 && !IsSpace(j[|j| - 1])
  {
    var last := es[|es| - 1].text;
    LayoutJoinEnds(es);
    NonBlankEnd(last);
    LastOfSuffix(Join(Unfold(Layout(es)), "\n"), TrimRight(last));
  }

  /** Stripping a blank line, a text without whitespace at either end, and whitespace
      leaves the text. */
  lemma RenderOf(es: seq<Entry>, j: string, w: string)
    requires Join(Parts(es), "\n") == "\n" + j + w && AllSpace(w)
    requires |j| > 0 && !IsSpace(j[0]) && !IsSpace(j[|j| - 1])
    ensures Render(es) == j
  {
    StripOf("\n", j, w);
  }

  lemma {:induction false} UnfoldLength(es: seq<Entry>)
    requires |es| > 0
    ensures |Unfold(Layout(es))| >= 2
  {
    var m := Layout(es)[0];
    assert Unfold(Layout(es)) == [m.header] + m.body + Unfold(Layout(es)[1..]);
    if |es| == 1 {
      assert |m.body| >= 1;
    } else {
      assert |m.body| >= 1;
    }
  }

  /** The rendered text's lines are the layout's lines. */
  lemma {:induction false} RenderLines(es: seq<Entry>)
    requires |es| > 0 && Clean(es)
    ensures SplitLines(Render(es)) == Unfold(Layout(es))
  {
    var j := Join(Unfold(Layout(es)), "\n");
    var last := es[|es| - 1].text;
    PartsJoin(es);
    LayoutJoinEdges(es);
    NonBlankEnd(last);
    RenderOf(es, j, Trailing(last));
    LayoutWellMarked(es);
    UnfoldLength(es);
    SplitLinesJoin(Unfold(Layout(es)));
  }

  /** The blocks the layout's sections give are the entries' refs and stripped texts. */
  lemma {:induction false} LayoutPieces(es: seq<Entry>)
    requires |es| > 0 && Clean(es)
    ensures forall k :: 0 <= k < |es| ==> Strip(Join(Layout(es)[k].body, "\n")) != []
    ensures seq(|es|, k requires 0 <= k < |es| => Piece(Some(Layout(es)[k].ref), Strip(Join(Layout(es)[k].body, "\n"))))
            == seq(|es|, k requires 0 <= k < |es| => Piece(Some(RefOf(es[k])), Strip(es[k].text)))
  {
    LayoutReads(es);
  }

  /** `split_by_markers` reads the rendered entries back: one block per entry, in order,
      whose ref is the entry's `"<kind> <n>"` and whose text is the entry's text stripped. */
  lemma {:induction false} RenderRoundTrip(es: seq<Entry>)
    requires |es| > 0 && Clean(es)
    ensures SplitByMarkers(Render(es))
            == seq(|es|, k requires 0 <= k < |es| => Piece(Some(RefOf(es[k])), Strip(es[k].text)))
  {
    RenderLines(es);
    LayoutWellMarked(es);
    LayoutPieces(es);
    SplitByUnfold(Render(es), Layout(es), ParseMarker);
  }

  /** No page has an entry exactly when every page is blank. */
  lemma {:induction false} PageEntriesEmpty(pages: seq<Option<string>>, first: nat)
    ensures PageEntries(pages, first) == [] <==> forall i :: 0 <= i < |pages| ==> Strip(PageText(pages[i])) == []
    decreases |pages|
  {
    if |pages| > 0 {
      PageEntriesEmpty(pages[1..], first + 1);
      assert forall i :: 1 <= i < |pages| ==> pages[1..][i - 1] == pages[i];
    }
  }

  /** A document whose pages are all blank extracts to the empty text. */
  lemma {:induction false} PdfBlank(pages: seq<Option<string>>)
    requires forall i :: 0 <= i < |pages| ==> Strip(PageText(pages[i])) == []
    ensures PageEntries(pages, 1) == [] && ExtractPdf(pages) == ""
  {
    PageEntriesEmpty(pages, 1);
    assert Parts([]) == [];
    assert Strip(Join([], "\n")) == "";
  }

  lemma {:induction false} PageEntriesClean(pages: seq<Option<string>>)
    requires forall i :: 0 <= i < |pages| ==> NoMarkerLine(PageText(pages[i]))
    ensures Clean(PageEntries(pages, 1))
  {
    var es := PageEntries(pages, 1);
    forall k | 0 <= k < |es| ensures CleanEntry(es[k]) {
      assert es[k].text == PageText(pages[es[k].number - 1]);
    }
  }

  lemma {:induction false} PagePieces(pages: seq<Option<string>>)
    ensures var es := PageEntries(pages, 1);
      seq(|es|, k requires 0 <= k < |es| => Piece(Some(RefOf(es[k])), Strip(es[k].text)))
      == seq(|es|, k requires 0 <= k < |es| =>
               Piece(Some("page " + NatToString(es[k].number)), Strip(PageText(pages[es[k].number - 1]))))
  {
    var es := PageEntries(pages, 1);
    forall k | 0 <= k < |es|
      ensures Piece(Some(RefOf(es[k])), Strip(es[k].text))
              == Piece(Some("page " + NatToString(es[k].number)), Strip(PageText(pages[es[k].number - 1])))
    {
      assert es[k].kind + " " == "page ";
      assert RefOf(es[k]) == "page " + NatToString(es[k].number);
    }
  }

  /** `split_by_markers(extract_pdf(pages))` gives one block per non-blank page, in page
      order, with ref `"page <i>"` and the page's text stripped, provided some page is
      non-blank and no page has a line shaped like a marker. */
  lemma {:induction false} PdfRoundTrip(pages: seq<Option<string>>)
    requires exists i :: 0 <= i < |pages| && Strip(PageText(pages[i])) != []
    requires forall i :: 0 <= i < |pages| ==> NoMarkerLine(PageText(pages[i]))
    ensures var es := PageEntries(pages, 1);
      SplitByMarkers(ExtractPdf(pages))
      == seq(|es|, k requires 0 <= k < |es| =>
               Piece(Some("page " + NatToString(es[k].number)), Strip(PageText(pages[es[k].number - 1]))))
  {
    var es := PageEntries(pages, 1);
    var i :| 0 <= i < |pages| && Strip(PageText(pages[i])) != [];
    PageEntriesComplete(pages, 1, i);
    PageEntriesClean(pages);
    RenderRoundTrip(es);
    PagePieces(pages);
  }

  lemma JoinEnds(x: string, y: string)
    requires x != [] && y != []
    ensures var j := x + "\n" + y;
      j[0] == x[0] && j[|j| - 1] == y[|y| - 1]
  {
  }

  /** A non-empty text that neither starts nor ends with whitespace. */
  predicate Unpadded(s: string) {
    s != [] && !IsSpace(s[0]) && !IsSpace(s[|s| - 1])
  }

  /** Non-empty stripped texts without marker lines, joined one per line, give a text
      that starts and ends with a non-blank character and has no marker line. */
  lemma {:induction false} JoinLinesClean(ts: seq<string>)
    requires |ts| >= 1
    requires forall k :: 0 <= k < |ts| ==> ts[k] != [] && Strip(ts[k]) == ts[k] && NoMarkerLine(ts[k])
    ensures Unpadded(Join(ts, "\n")) && NoMarkerLine(Join(ts, "\n"))
    decreases |ts|
  {
    var x := ts[0];
    assert Strip(x) == x != [];
    if |ts| == 1 {
      assert Join(ts, "\n") == x;
    } else {
      var rest := ts[1..];
      JoinLinesClean(rest);
      JoinCons(x, rest, "\n");
      assert [x] + rest == ts;
      var jr := Join(rest, "\n");
      NoLineAround(x, jr, ParseMarker);
      JoinEnds(x, jr);
    }
  }

  /** A property of texts that survives `strip` holds of every shape text when it holds
      of every shape. */
  lemma {:induction false} ShapeTextsKeep(shapes: seq<Option<string>>, p: string -> bool)
    requires forall s :: p(s) ==> p(Strip(s))
    requires forall j :: 0 <= j < |shapes| && shapes[j].Some? ==> p(shapes[j].value)
    ensures forall k :: 0 <= k < |ShapeTexts(shapes)| ==> p(ShapeTexts(shapes)[k])
    decreases |shapes|
  {
    if |shapes| > 0 {
      assert forall j :: 1 <= j < |shapes| ==> shapes[1..][j - 1] == shapes[j];
      ShapeTextsKeep(shapes[1..], p);
    }
  }

  lemma ShapeTextsClean(shapes: seq<Option<string>>)
    requires forall j :: 0 <= j < |shapes| && shapes[j].Some? ==> NoMarkerLine(shapes[j].value)
    ensures forall k :: 0 <= k < |ShapeTexts(shapes)| ==> NoMarkerLine(ShapeTexts(shapes)[k])
  {
    forall s | NoMarkerLine(s) ensures NoMarkerLine(Strip(s)) {
      NoMarkerLineStrip(s);
    }
    ShapeTextsKeep(shapes, NoMarkerLine);
  }

  /** Slide entries are clean and their texts already stripped when no shape has a
      marker line. */
  lemma {:induction false} SlideEntriesClean(slides: seq<seq<Option<string>>>)
    requires forall i, j :: 0 <= i < |slides| && 0 <= j < |slides[i]| && slides[i][j].Some? ==>
      NoMarkerLine(slides[i][j].value)
    ensures var es := SlideEntries(SlideLines(slides), 1);
      Clean(es) && forall k :: 0 <= k < |es| ==> Strip(es[k].text) == es[k].text
  {
    var lines := SlideLines(slides);
    var es := SlideEntries(lines, 1);
    forall k | 0 <= k < |es| ensures CleanEntry(es[k]) && Strip(es[k].text) == es[k].text {
      var n := es[k].number - 1;
      assert lines[n] == ShapeTexts(slides[n]) && lines[n] != [];
      ShapeTextsClean(slides[n]);
      JoinLinesClean(lines[n]);
      StripUnpadded(es[k].text);
    }
  }

  /** A slide's joined shape texts are already stripped. */
  lemma SlideTextStripped(shapes: seq<Option<string>>)
    requires forall j :: 0 <= j < |shapes| && shapes[j].Some? ==> NoMarkerLine(shapes[j].value)
    requires ShapeTexts(shapes) != []
    ensures Strip(Join(ShapeTexts(shapes), "\n")) == Join(ShapeTexts(shapes), "\n")
  {
    ShapeTextsClean(shapes);
    JoinLinesClean(ShapeTexts(shapes));
    StripUnpadded(Join(ShapeTexts(shapes), "\n"));
  }

  lemma SlidePiece(e: Entry, shapes: seq<Option<string>>)
    requires forall j :: 0 <= j < |shapes| && shapes[j].Some? ==> NoMarkerLine(shapes[j].value)
    requires e.kind == "slide" && ShapeTexts(shapes) != [] && e.text == Join(ShapeTexts(shapes), "\n")
    ensures Piece(Some(RefOf(e)), Strip(e.text)) == Piece(Some("slide " + NatToString(e.number)), Join(ShapeTexts(shapes), "\n"))
  {
    SlideTextStripped(shapes);
    SlideRef(e);
  }

  lemma SlideRef(e: Entry)
    requires e.kind == "slide"
    ensures RefOf(e) == "slide " + NatToString(e.number)
  {
    assert e.kind + " " == "slide ";
  }

  lemma {:induction false} SlidePieces(slides: seq<seq<Option<string>>>)
    requires forall i, j :: 0 <= i < |slides| && 0 <= j < |slides[i]| && slides[i][j].Some? ==>
      NoMarkerLine(slides[i][j].value)
    ensures var es := SlideEntries(SlideLines(slides), 1);
      seq(|es|, k requires 0 <= k < |es| => Piece(Some(RefOf(es[k])), Strip(es[k].text)))
      == seq(|es|, k requires 0 <= k < |es| =>
               Piece(Some("slide " + NatToString(es[k].number)), Join(ShapeTexts(slides[es[k].number - 1]), "\n")))
  {
    var es := SlideEntries(SlideLines(slides), 1);
    forall k | 0 <= k < |es|
      ensures Piece(Some(RefOf(es[k])), Strip(es[k].text))
              == Piece(Some("slide " + NatToString(es[k].number)), Join(ShapeTexts(slides[es[k].number - 1]), "\n"))
    {
      var n := es[k].number - 1;
      assert SlideLines(slides)[n] == ShapeTexts(slides[n]);
      SlidePiece(es[k], slides[n]);
    }
  }

  /** Some slide has an entry when some shape is non-blank. */
  lemma SlideEntriesSome(slides: seq<seq<Option<string>>>, i: nat, j: nat)
    requires i < |slides| && j < |slides[i]| && slides[i][j].Some? && Strip(slides[i][j].value) != []
    ensures |SlideEntries(SlideLines(slides), 1)| > 0
  {
    var lines := SlideLines(slides);
    assert lines[i] == ShapeTexts(slides[i]) != [];
    SlideEntriesComplete(lines, 1, i);
  }

  /** `split_by_markers(extract_pptx(slides))` gives one block per slide with a non-blank
      shape, in slide order, with ref `"slide <i>"` and the slide's stripped shape texts
      one per line, provided some shape is non-blank and no shape has a line shaped like
      a marker. */
  lemma {:induction false} PptxRoundTrip(slides: seq<seq<Option<string>>>)
    requires exists i, j :: 0 <= i < |slides| && 0 <= j < |slides[i]| && slides[i][j].Some? && Strip(slides[i][j].value) != []
    requires forall i, j :: 0 <= i < |slides| && 0 <= j < |slides[i]| && slides[i][j].Some? ==>
      NoMarkerLine(slides[i][j].value)
    ensures var es := SlideEntries(SlideLines(slides), 1);
      SplitByMarkers(ExtractPptx(slides))
      == seq(|es|, k requires 0 <= k < |es| =>
               Piece(Some("slide " + NatToString(es[k].number)), Join(ShapeTexts(slides[es[k].number - 1]), "\n")))
  {
    var es := SlideEntries(SlideLines(slides), 1);
    var i, j :| 0 <= i < |slides| && 0 <= j < |slides[i]| && slides[i][j].Some? && Strip(slides[i][j].value) != [];
    SlideEntriesSome(slides, i, j);
    SlideEntriesClean(slides);
    RenderRoundTrip(es);
    SlidePieces(slides);
  }
}

=== FILE: hybrid.dfy ===
/** The merge step of `search_chunks_hybrid` (backend/app/crud.py): full-text and
    semantic hits, each with its own rank, are combined per chunk id into one weighted
    score, labelled by which searches found the chunk, ordered by score (highest first)
    and cut to `limit`. The two searches themselves are inputs. Scores are exact reals. */
module Hybrid {
  import opened Wrappers
  import opened Sorting
  import opened Entities

  /** The `"source"` of a merged hit. */
  datatype Label = Fts | Semantic | Both

  /** An entry of the `combined` dict: the hit whose fields are kept, its score so far
      and its source. */
  datatype Scored = Scored(hit: Hit, score: real, source: Label)

  /** A merged hit: `rank` holds the final score. */
  datatype Ranked = Ranked(hit: Hit, source: Label)

  const WFts: real := 0.45
  const WSem: real := 0.55

  function Id(e: Scored): Id {
    e.hit.chunkId
  }

  /** Where chunk `id` sits in the dict, which keeps first-insertion order. */
  function Position(c: seq<Scored>, id: Id): (r: Option<nat>)
    ensures r.Some? ==> r.value < |c| && c[r.value].hit.chunkId == id
    ensures r.Some? ==> forall i :: 0 <= i < r.value ==> c[i].hit.chunkId != id
    ensures r.None? <==> forall i :: 0 <= i < |c| ==> c[i].hit.chunkId != id
  {
    Find(c, (e: Scored) => e.hit.chunkId == id)
  }

  /** The first hit for chunk `id`. */
  function FindHit(hs: seq<Hit>, id: Id): (r: Option<nat>)
    ensures r.Some? ==> r.value < |hs| && hs[r.value].chunkId == id
    ensures r.None? <==> forall i :: 0 <= i < |hs| ==> hs[i].chunkId != id
  {
    Find(hs, (h: Hit) => h.chunkId == id)
  }

  /** The first loop's body: `combined[cid] = {**h, "score": rank * w_fts, "source": "fts"}`. */
  function PutFts(c: seq<Scored>, h: Hit): seq<Scored> {
    var e := Scored(h, h.rank * WFts, Fts);
    match Position(c, h.chunkId)
    case Some(i) => c[i := e]
    case None => c + [e]
  }

  /** The second loop's body: a chunk already there gains the weighted semantic rank and
      becomes "hybrid"; a new one is added as a semantic hit. */
  function AddSem(c: seq<Scored>, h: Hit): seq<Scored> {
    match Position(c, h.chunkId)
    case Some(i) => c[i := c[i].(score := c[i].score + h.rank * WSem, source := Both)]
    case None => c + [Scored(h, h.rank * WSem, Semantic)]
  }

  /** The `for` loops, as folds over the hits in order. */
  function FtsLoop(c: seq<Scored>, hs: seq<Hit>): seq<Scored>
    decreases |hs|
  {
    if |hs| == 0 then c else PutFts(FtsLoop(c, hs[..|hs| - 1]), hs[|hs| - 1])
  }

  function SemLoop(c: seq<Scored>, hs: seq<Hit>): seq<Scored>
    decreases |hs|
  {
    if |hs| == 0 then c else AddSem(SemLoop(c, hs[..|hs| - 1]), hs[|hs| - 1])
  }

  function Combined(fts: seq<Hit>, sem: seq<Hit>): seq<Scored> {
    SemLoop(FtsLoop([], fts), sem)
  }

  /** `sorted(..., key=score, reverse=True)` is a stable sort by the negated score. */
  function Descending(e: Scored): real {
    -e.score
  }

  function Finish(e: Scored): Ranked {
    Ranked(e.hit.(rank := e.score), e.source)
  }

  function Take<T>(s: seq<T>, n: nat): (r: seq<T>)
    ensures |r| <= n && |r| <= |s| && r == s[..|r|]
    ensures |s| <= n ==> r == s
  {
    if |s| <= n then s else s[..n]
  }

  /** `search_chunks_hybrid` after the two searches. */
  function Merge(fts: seq<Hit>, sem: seq<Hit>, limit: nat): seq<Ranked> {
    var ranked := Take(SortBy(Combined(fts, sem), Descending), limit);
    seq(|ranked|, i requires 0 <= i < |ranked| => Finish(ranked[i]))
  }

  // ---------------------------------------------------------------------------
  // reference definition of the combined dict
  // ---------------------------------------------------------------------------

  /** A search returns each chunk at most once. */
  predicate DistinctHits(hs: seq<Hit>) {
    forall i, j :: 0 <= i < j < |hs| ==> hs[i].chunkId != hs[j].chunkId
  }

  /** The entry of a full-text hit once both loops have run. */
  function FtsEntry(h: Hit, sem: seq<Hit>): Scored {
    match FindHit(sem, h.chunkId)
    case Some(k) => Scored(h, h.rank * WFts + sem[k].rank * WSem, Both)
    case None => Scored(h, h.rank * WFts, Fts)
  }

  function FtsEntries(fts: seq<Hit>, sem: seq<Hit>): (r: seq<Scored>)
    ensures |r| == |fts| && forall j :: 0 <= j < |fts| ==> r[j] == FtsEntry(fts[j], sem)
  {
    seq(|fts|, j requires 0 <= j < |fts| => FtsEntry(fts[j], sem))
  }

  /** The semantic hits for chunks the full-text search did not find, in order. */
  function SemOnly(fts: seq<Hit>, sem: seq<Hit>): (r: seq<Scored>)
    ensures forall i :: 0 <= i < |r| ==>
      && r[i].hit in sem && r[i].source == Semantic && r[i].score == r[i].hit.rank * WSem
      && FindHit(fts, r[i].hit.chunkId).None?
    decreases |sem|
  {
    if |sem| == 0 then []
    else
      var h := sem[|sem| - 1];
      var rest := SemOnly(fts, sem[..|sem| - 1]);
      if FindHit(fts, h.chunkId).None? then rest + [Scored(h, h.rank * WSem, Semantic)] else rest
  }

  /** Reference: every full-text hit in its order, then the semantic-only hits. */
  function Reference(fts: seq<Hit>, sem: seq<Hit>): seq<Scored> {
    FtsEntries(fts, sem) + SemOnly(fts, sem)
  }

  lemma FindHitAppend(hs: seq<Hit>, h: Hit, id: Id)
    requires FindHit(hs, id).None? && h.chunkId != id
    ensures FindHit(hs + [h], id).None?
  {
    assert forall i :: 0 <= i < |hs| ==> (hs + [h])[i] == hs[i];
  }

  lemma FindHitLast(hs: seq<Hit>, h: Hit)
    requires FindHit(hs, h.chunkId).None?
    ensures FindHit(hs + [h], h.chunkId) == Some(|hs|)
    decreases |hs|
  {
    if |hs| > 0 {
      assert (hs + [h])[1..] == hs[1..] + [h];
      FindHitLast(hs[1..], h);
    }
  }

  lemma FindHitKeeps(hs: seq<Hit>, h: Hit, id: Id)
    requires FindHit(hs, id).Some?
    ensures FindHit(hs + [h], id) == FindHit(hs, id)
    decreases |hs|
  {
    if hs[0].chunkId != id {
      assert (hs + [h])[1..] == hs[1..] + [h];
      FindHitKeeps(hs[1..], h, id);
    }
  }

  /** Distinct full-text hits each get their own dict entry, in order. */
  lemma {:induction false} FtsLoopAppends(fts: seq<Hit>)
    requires DistinctHits(fts)
    ensures FtsLoop([], fts) == seq(|fts|, j requires 0 <= j < |fts| => Scored(fts[j], fts[j].rank * WFts, Fts))
    decreases |fts|
  {
    if |fts| > 0 {
      var init := fts[..|fts| - 1];
      var h := fts[|fts| - 1];
      FtsLoopAppends(init);
      var c := FtsLoop([], init);
      assert Position(c, h.chunkId).None? by {
        forall i | 0 <= i < |c| ensures c[i].hit.chunkId != h.chunkId {
          assert c[i].hit == fts[i];
        }
      }
    }
  }

  /** Entry `j` of the dict after the semantic loop over `init`, once `h` is added too. */
  lemma FtsEntryStep(f: Hit, init: seq<Hit>, h: Hit)
    requires FindHit(init, h.chunkId).None?
    ensures f.chunkId != h.chunkId ==> FtsEntry(f, init + [h]) == FtsEntry(f, init)
    ensures f.chunkId == h.chunkId ==>
      FtsEntry(f, init + [h]) == Scored(f, f.rank * WFts + h.rank * WSem, Both)
  {
    if f.chunkId != h.chunkId {
      match FindHit(init, f.chunkId)
      case Some(_) => FindHitKeeps(init, h, f.chunkId);
      case None => FindHitAppend(init, h, f.chunkId);
    } else {
      FindHitLast(init, h);
    }
  }

  lemma SemOnlyStep(fts: seq<Hit>, sem: seq<Hit>)
    requires |sem| > 0
    ensures var h := sem[|sem| - 1];
      SemOnly(fts, sem) == SemOnly(fts, sem[..|sem| - 1])
                           + (if FindHit(fts, h.chunkId).None? then [Scored(h, h.rank * WSem, Semantic)] else [])
  {
  }

  lemma {:induction false} PositionOfFts(fts: seq<Hit>, sem: seq<Hit>, j: nat)
    requires DistinctHits(fts) && j < |fts|
    ensures Position(Reference(fts, sem), fts[j].chunkId) == Some(j)
  {
    var c := Reference(fts, sem);
    forall i | 0 <= i < j ensures c[i].hit.chunkId != fts[j].chunkId {
      assert c[i] == FtsEntry(fts[i], sem);
    }
    assert c[j] == FtsEntry(fts[j], sem);
  }

  lemma {:induction false} FtsEntriesBump(fts: seq<Hit>, init: seq<Hit>, h: Hit, j: nat)
    requires DistinctHits(fts) && j < |fts| && fts[j].chunkId == h.chunkId
    requires FindHit(init, h.chunkId).None?
    ensures var c := FtsEntries(fts, init);
      FtsEntries(fts, init + [h]) == c[j := Bump(c[j], h)]
  {
    var c := FtsEntries(fts, init);
    var e := FtsEntries(fts, init + [h]);
    forall i | 0 <= i < |fts|
      ensures e[i] == c[j := Bump(c[j], h)][i]
    {
      FtsEntryStep(fts[i], init, h);
    }
  }

  lemma AddSemAt(c: seq<Scored>, h: Hit, j: nat)
    requires Position(c, h.chunkId) == Some(j)
    ensures AddSem(c, h) == c[j := Bump(c[j], h)]
  {
  }

  /** An entry once a semantic hit for its chunk is added. */
  function Bump(e: Scored, h: Hit): Scored {
    e.(score := e.score + h.rank * WSem, source := Both)
  }

  /** The semantic loop's step when the hit's chunk is already in the dict. */
  lemma SemStepBoth(fts: seq<Hit>, init: seq<Hit>, h: Hit, j: nat)
    requires DistinctHits(fts) && j < |fts| && fts[j].chunkId == h.chunkId
    requires FindHit(init, h.chunkId).None?
    ensures AddSem(Reference(fts, init), h) == Reference(fts, init + [h])
  {
    AddSemBump(fts, init, h, j);
    ReferenceBump(fts, init, h, j);
  }

  /** The loop's side: the full-text entry `j` is bumped in place. */
  lemma AddSemBump(fts: seq<Hit>, init: seq<Hit>, h: Hit, j: nat)
    requires DistinctHits(fts) && j < |fts| && fts[j].chunkId == h.chunkId
    ensures var c := FtsEntries(fts, init);
      AddSem(Reference(fts, init), h) == c[j := Bump(c[j], h)] + SemOnly(fts, init)
  {
    var c := FtsEntries(fts, init);
    var only := SemOnly(fts, init);
    PositionOfFts(fts, init, j);
    AddSemAt(c + only, h, j);
    assert (c + only)[j] == c[j];
    UpdateFront(c, only, j, Bump(c[j], h));
  }

  /** The reference's side: the same entry is bumped, the semantic-only ones stay. */
  lemma ReferenceBump(fts: seq<Hit>, init: seq<Hit>, h: Hit, j: nat)
    requires DistinctHits(fts) && j < |fts| && fts[j].chunkId == h.chunkId
    requires FindHit(init, h.chunkId).None?
    ensures var c := FtsEntries(fts, init);
      Reference(fts, init + [h]) == c[j := Bump(c[j], h)] + SemOnly(fts, init)
  {
    FtsEntriesBump(fts, init, h, j);
    SemOnlyFound(fts, init, h, j);
  }

  /** Updating an index of the front of a concatenation updates the front. */
  lemma UpdateFront<T>(c: seq<T>, d: seq<T>, j: nat, x: T)
    requires j < |c|
    ensures (c + d)[j := x] == c[j := x] + d
  {
  }

  /** A semantic hit the full-text search found adds nothing to the semantic-only hits. */
  lemma SemOnlyFound(fts: seq<Hit>, init: seq<Hit>, h: Hit, j: nat)
    requires j < |fts| && fts[j].chunkId == h.chunkId
    ensures SemOnly(fts, init + [h]) == SemOnly(fts, init)
  {
    assert FindHit(fts, h.chunkId).Some?;
    SemOnlyStep(fts, init + [h]);
    assert (init + [h])[..|init + [h]| - 1] == init;
  }

  /** A semantic hit the full-text search did not find is appended to them. */
  lemma SemOnlyNew(fts: seq<Hit>, init: seq<Hit>, h: Hit)
    requires FindHit(fts, h.chunkId).None?
    ensures SemOnly(fts, init + [h]) == SemOnly(fts, init) + [Scored(h, h.rank * WSem, Semantic)]
  {
    SemOnlyStep(fts, init + [h]);
    assert (init + [h])[..|init + [h]| - 1] == init;
  }

  /** A hit whose chunk is in neither search leaves every full-text entry alone. */
  lemma FtsEntriesSame(fts: seq<Hit>, init: seq<Hit>, h: Hit)
    requires FindHit(init, h.chunkId).None? && FindHit(fts, h.chunkId).None?
    ensures FtsEntries(fts, init + [h]) == FtsEntries(fts, init)
  {
    forall i | 0 <= i < |fts| ensures FtsEntry(fts[i], init + [h]) == FtsEntry(fts[i], init) {
      FtsEntryStep(fts[i], init, h);
    }
  }

  /** The last of distinct hits is not among the others. */
  lemma LastNotBefore(init: seq<Hit>, h: Hit)
    requires DistinctHits(init + [h])
    ensures FindHit(init, h.chunkId).None?
  {
    forall i | 0 <= i < |init| ensures init[i].chunkId != h.chunkId {
      assert (init + [h])[i] == init[i] && (init + [h])[|init|] == h;
    }
  }

  /** A chunk in neither search has no entry in the reference dict. */
  lemma {:induction false} NotInReference(fts: seq<Hit>, init: seq<Hit>, h: Hit)
    requires FindHit(init, h.chunkId).None? && FindHit(fts, h.chunkId).None?
    ensures Position(Reference(fts, init), h.chunkId).None?
  {
    var c := Reference(fts, init);
    var n := |fts|;
    var only := SemOnly(fts, init);
    forall i | 0 <= i < |c| ensures c[i].hit.chunkId != h.chunkId {
      if i < n {
        assert c[i] == FtsEntry(fts[i], init);
      } else {
        assert c[i] == only[i - n];
        assert only[i - n].hit in init;
      }
    }
  }

  /** The semantic loop's step when the hit's chunk is new. */
  lemma SemStepNew(fts: seq<Hit>, init: seq<Hit>, h: Hit)
    requires DistinctHits(init + [h])
    requires FindHit(fts, h.chunkId).None?
    ensures AddSem(Reference(fts, init), h) == Reference(fts, init + [h])
  {
    LastNotBefore(init, h);
    NotInReference(fts, init, h);
    SemOnlyNew(fts, init, h);
    FtsEntriesSame(fts, init, h);
  }

  /** With distinct hits in each search, the loops build the reference dict. */
  lemma {:induction false} CombinedIsReference(fts: seq<Hit>, sem: seq<Hit>)
    requires DistinctHits(fts) && DistinctHits(sem)
    ensures Combined(fts, sem) == Reference(fts, sem)
  {
    FtsLoopAppends(fts);
    SemLoopReference(fts, sem);
  }

  lemma {:induction false} SemLoopReference(fts: seq<Hit>, sem: seq<Hit>)
    requires DistinctHits(fts) && DistinctHits(sem)
    ensures SemLoop(FtsLoop([], fts), sem) == Reference(fts, sem)
    decreases |sem|
  {
    if |sem| == 0 {
      FtsLoopAppends(fts);
      assert FtsEntries(fts, []) == FtsLoop([], fts);
      assert Reference(fts, []) == FtsEntries(fts, []) + [];
    } else {
      var init := sem[..|sem| - 1];
      var h := sem[|sem| - 1];
      assert sem == init + [h];
      SemLoopReference(fts, init);
      match FindHit(fts, h.chunkId)
      case Some(j) =>
        assert FindHit(init, h.chunkId).None? by {
          forall i | 0 <= i < |init| ensures init[i].chunkId != h.chunkId {
            assert init[i] == sem[i];
          }
        }
        SemStepBoth(fts, init, h, j);
      case None =>
        SemStepNew(fts, init, h);
    }
  }

  // ---------------------------------------------------------------------------
  // properties of the merge
  // ---------------------------------------------------------------------------

  /** What the merged entry for a chunk holds: the full-text hit's fields when that
      search found the chunk (else the semantic hit's), the sum of the weighted ranks it
      was found with, and a source naming exactly the searches that found it. */
  predicate EntryOk(e: Scored, fts: seq<Hit>, sem: seq<Hit>) {
    var f := FindHit(fts, e.hit.chunkId);
    var m := FindHit(sem, e.hit.chunkId);
    && (f.Some? || m.Some?)
    && (e.source == Both <==> f.Some? && m.Some?)
    && (e.source == Fts <==> f.Some? && m.None?)
    && (e.source == Semantic <==> f.None? && m.Some?)
    && (f.Some? ==> e.hit == fts[f.value])
    && (f.None? ==> e.hit == sem[m.value])
    && e.score == (if f.Some? then fts[f.value].rank * WFts else 0.0)
                  + (if m.Some? then sem[m.value].rank * WSem else 0.0)
  }

  function IdOf(e: Scored): Id {
    e.hit.chunkId
  }

  /** Two entries are for different chunks. */
  predicate Apart(a: Scored, b: Scored) {
    a.hit.chunkId != b.hit.chunkId
  }

  lemma {:induction false} FtsEntryOk(fts: seq<Hit>, sem: seq<Hit>, j: nat)
    requires DistinctHits(fts) && j < |fts|
    ensures EntryOk(FtsEntry(fts[j], sem), fts, sem)
  {
    assert FindHit(fts, fts[j].chunkId) == Some(j);
  }

  lemma {:induction false} SemOnlyOk(fts: seq<Hit>, sem: seq<Hit>, i: nat)
    requires DistinctHits(sem) && i < |SemOnly(fts, sem)|
    ensures EntryOk(SemOnly(fts, sem)[i], fts, sem)
  {
    var e := SemOnly(fts, sem)[i];
    var k :| 0 <= k < |sem| && sem[k] == e.hit;
    var m := FindHit(sem, e.hit.chunkId);
    assert m == Some(k) by {
      if m.value != k {
        assert sem[m.value].chunkId == sem[k].chunkId;
      }
    }
  }

  lemma {:induction false} SemOnlyApart(fts: seq<Hit>, sem: seq<Hit>)
    requires DistinctHits(sem)
    ensures Pairwise(SemOnly(fts, sem), Apart)
    decreases |sem|
  {
    if |sem| > 0 {
      var init := sem[..|sem| - 1];
      var h := sem[|sem| - 1];
      assert DistinctHits(init) by {
        forall a, b | 0 <= a < b < |init| ensures init[a].chunkId != init[b].chunkId {
          assert init[a] == sem[a] && init[b] == sem[b];
        }
      }
      SemOnlyApart(fts, init);
      var rest := SemOnly(fts, init);
      if FindHit(fts, h.chunkId).None? {
        var e := Scored(h, h.rank * WSem, Semantic);
        forall i | 0 <= i < |rest| ensures Apart(rest[i], e) && Apart(e, rest[i]) {
          var k :| 0 <= k < |init| && init[k] == rest[i].hit;
          assert sem[k] == init[k];
        }
        var r := rest + [e];
        forall a, b | 0 <= a < |r| && 0 <= b < |r| && a != b ensures Apart(r[a], r[b]) {
          if a < |rest| && b < |rest| {
            assert r[a] == rest[a] && r[b] == rest[b];
          }
        }
      }
    }
  }

  /** Every entry of the reference dict is as `EntryOk` says. */
  lemma {:induction false} ReferenceEntriesOk(fts: seq<Hit>, sem: seq<Hit>)
    requires DistinctHits(fts) && DistinctHits(sem)
    ensures forall i :: 0 <= i < |Reference(fts, sem)| ==> EntryOk(Reference(fts, sem)[i], fts, sem)
  {
    var a := FtsEntries(fts, sem);
    var b := SemOnly(fts, sem);
    var r := Reference(fts, sem);
    forall i | 0 <= i < |r| ensures EntryOk(r[i], fts, sem) {
      if i < |a| {
        FtsEntryOk(fts, sem, i);
      } else {
        assert r[i] == b[i - |a|];
        SemOnlyOk(fts, sem, i - |a|);
      }
    }
  }

  /** The reference dict holds each chunk once. */
  lemma ReferenceApart(fts: seq<Hit>, sem: seq<Hit>)
    requires DistinctHits(fts) && DistinctHits(sem)
    ensures Pairwise(Reference(fts, sem), Apart)
  {
    var a := FtsEntries(fts, sem);
    var b := SemOnly(fts, sem);
    FtsEntriesApart(fts, sem);
    SemOnlyApart(fts, sem);
    forall x, y | 0 <= x < |a| && 0 <= y < |b| ensures Apart(a[x], b[y]) && Apart(b[y], a[x]) {
      CrossApart(fts, sem, x, y);
    }
    ConcatPairwise(a, b, Apart);
  }

  /** Distinct full-text hits give entries for different chunks. */
  lemma FtsEntriesApart(fts: seq<Hit>, sem: seq<Hit>)
    requires DistinctHits(fts)
    ensures Pairwise(FtsEntries(fts, sem), Apart)
  {
    var a := FtsEntries(fts, sem);
    forall x, y | 0 <= x < |a| && 0 <= y < |a| && x != y ensures Apart(a[x], a[y]) {
      assert a[x].hit == fts[x] && a[y].hit == fts[y];
    }
  }

  /** A full-text entry and a semantic-only entry are for different chunks. */
  lemma CrossApart(fts: seq<Hit>, sem: seq<Hit>, x: nat, y: nat)
    requires x < |fts| && y < |SemOnly(fts, sem)|
    ensures Apart(FtsEntries(fts, sem)[x], SemOnly(fts, sem)[y])
    ensures Apart(SemOnly(fts, sem)[y], FtsEntries(fts, sem)[x])
  {
    var e := SemOnly(fts, sem)[y];
    assert FindHit(fts, e.hit.chunkId).None?;
    assert FtsEntries(fts, sem)[x].hit == fts[x];
  }

  lemma {:induction false} SemOnlyHas(fts: seq<Hit>, sem: seq<Hit>, k: nat)
    requires k < |sem| && FindHit(fts, sem[k].chunkId).None?
    ensures exists i :: 0 <= i < |SemOnly(fts, sem)| && SemOnly(fts, sem)[i].hit == sem[k]
    decreases |sem|
  {
    var init := sem[..|sem| - 1];
    SemOnlyStep(fts, sem);
    if k < |init| {
      assert init[k] == sem[k];
      SemOnlyHas(fts, init, k);
      var i :| 0 <= i < |SemOnly(fts, init)| && SemOnly(fts, init)[i].hit == sem[k];
      assert SemOnly(fts, sem)[i] == SemOnly(fts, init)[i];
    } else {
      var r := SemOnly(fts, sem);
      assert r[|r| - 1].hit == sem[k];
    }
  }

  /** Every chunk either search found has its entry in the reference dict. */
  lemma {:induction false} ReferenceComplete(fts: seq<Hit>, sem: seq<Hit>, id: Id)
    requires FindHit(fts, id).Some? || FindHit(sem, id).Some?
    ensures exists i :: 0 <= i < |Reference(fts, sem)| && Reference(fts, sem)[i].hit.chunkId == id
  {
    var r := Reference(fts, sem);
    match FindHit(fts, id)
    case Some(j) =>
      assert r[j].hit == fts[j];
    case None =>
      var k := FindHit(sem, id).value;
      SemOnlyHas(fts, sem, k);
      var b := SemOnly(fts, sem);
      var i :| 0 <= i < |b| && b[i].hit == sem[k];
      assert r[|fts| + i] == b[i];
  }

  lemma {:induction false} SemOnlyLength(fts: seq<Hit>, sem: seq<Hit>)
    ensures |SemOnly(fts, sem)| <= |sem|
    decreases |sem|
  {
    if |sem| > 0 {
      SemOnlyLength(fts, sem[..|sem| - 1]);
    }
  }

  /** The combined dict, sorted by descending score, before the cut to `limit`. */
  function Sorted(fts: seq<Hit>, sem: seq<Hit>): seq<Scored> {
    SortBy(Combined(fts, sem), Descending)
  }

  lemma MergeIsSorted(fts: seq<Hit>, sem: seq<Hit>, limit: nat)
    ensures |Merge(fts, sem, limit)| <= limit && |Merge(fts, sem, limit)| <= |Sorted(fts, sem)|
    ensures forall i :: 0 <= i < |Merge(fts, sem, limit)| ==> Merge(fts, sem, limit)[i] == Finish(Sorted(fts, sem)[i])
  {
  }

  /** Each merged hit is for a different chunk. */
  lemma {:induction false} MergeDistinct(fts: seq<Hit>, sem: seq<Hit>, limit: nat)
    requires DistinctHits(fts) && DistinctHits(sem)
    ensures var out := Merge(fts, sem, limit);
      forall i, j :: 0 <= i < j < |out| ==> out[i].hit.chunkId != out[j].hit.chunkId
  {
    CombinedIsReference(fts, sem);
    ReferenceApart(fts, sem);
    SortByPairwise(Combined(fts, sem), Descending, Apart);
    MergeIsSorted(fts, sem, limit);
  }

  /** The merged hits come by descending final rank. */
  lemma {:induction false} MergeOrdered(fts: seq<Hit>, sem: seq<Hit>, limit: nat)
    ensures var out := Merge(fts, sem, limit);
      forall i, j :: 0 <= i < j < |out| ==> out[i].hit.rank >= out[j].hit.rank
  {
    MergeIsSorted(fts, sem, limit);
    var s := Sorted(fts, sem);
    assert forall i, j :: 0 <= i < j < |s| ==> Descending(s[i]) <= Descending(s[j]);
  }

  /** What a merged hit holds: `EntryOk` with the final rank in place of the hit's own. */
  predicate RankedOk(r: Ranked, fts: seq<Hit>, sem: seq<Hit>) {
    var f := FindHit(fts, r.hit.chunkId);
    var m := FindHit(sem, r.hit.chunkId);
    && (f.Some? || m.Some?)
    && (r.source == Both <==> f.Some? && m.Some?)
    && (r.source == Fts <==> f.Some? && m.None?)
    && (r.source == Semantic <==> f.None? && m.Some?)
    && (f.Some? ==> r.hit == fts[f.value].(rank := r.hit.rank))
    && (f.None? ==> r.hit == sem[m.value].(rank := r.hit.rank))
    && r.hit.rank == (if f.Some? then fts[f.value].rank * WFts else 0.0)
                     + (if m.Some? then sem[m.value].rank * WSem else 0.0)
  }

  lemma FinishOk(e: Scored, fts: seq<Hit>, sem: seq<Hit>)
    requires EntryOk(e, fts, sem)
    ensures RankedOk(Finish(e), fts, sem)
  {
  }

  lemma {:induction false} SortedEntryOk(fts: seq<Hit>, sem: seq<Hit>, i: nat)
    requires DistinctHits(fts) && DistinctHits(sem) && i < |Sorted(fts, sem)|
    ensures EntryOk(Sorted(fts, sem)[i], fts, sem)
  {
    var c := Combined(fts, sem);
    var s := Sorted(fts, sem);
    CombinedIsReference(fts, sem);
    ReferenceEntriesOk(fts, sem);
    assert s[i] in multiset(c);
    var k :| 0 <= k < |c| && c[k] == s[i];
  }

  /** Each merged hit's source names exactly the searches that found its chunk, and its
      rank is the sum of the weighted ranks it was found with. */
  lemma {:induction false} MergeEntriesOk(fts: seq<Hit>, sem: seq<Hit>, limit: nat)
    requires DistinctHits(fts) && DistinctHits(sem)
    ensures var out := Merge(fts, sem, limit);
      forall i :: 0 <= i < |out| ==> RankedOk(out[i], fts, sem)
  {
    var s := Sorted(fts, sem);
    var out := Merge(fts, sem, limit);
    MergeIsSorted(fts, sem, limit);
    forall i | 0 <= i < |out| ensures RankedOk(out[i], fts, sem) {
      SortedEntryOk(fts, sem, i);
      FinishOk(s[i], fts, sem);
    }
  }

  /** When the two searches found no more than `limit` hits in all, every chunk either
      of them found is among the merged hits. */
  lemma {:induction false} MergeComplete(fts: seq<Hit>, sem: seq<Hit>, limit: nat, id: Id)
    requires DistinctHits(fts) && DistinctHits(sem)
    requires |fts| + |sem| <= limit
    requires FindHit(fts, id).Some? || FindHit(sem, id).Some?
    ensures var out := Merge(fts, sem, limit);
      exists i :: 0 <= i < |out| && out[i].hit.chunkId == id
  {
    var s := Sorted(fts, sem);
    SortedLength(fts, sem);
    MergeIsSorted(fts, sem, limit);
    assert |Merge(fts, sem, limit)| == |s|;
    SortedComplete(fts, sem, id);
    var i :| 0 <= i < |s| && s[i].hit.chunkId == id;
    assert Merge(fts, sem, limit)[i].hit.chunkId == id;
  }

  lemma SortedLength(fts: seq<Hit>, sem: seq<Hit>)
    requires DistinctHits(fts) && DistinctHits(sem)
    ensures |Sorted(fts, sem)| <= |fts| + |sem|
  {
    CombinedIsReference(fts, sem);
    SemOnlyLength(fts, sem);
  }

  /** Every chunk either search found is in the sorted dict. */
  lemma SortedComplete(fts: seq<Hit>, sem: seq<Hit>, id: Id)
    requires DistinctHits(fts) && DistinctHits(sem)
    requires FindHit(fts, id).Some? || FindHit(sem, id).Some?
    ensures exists i :: 0 <= i < |Sorted(fts, sem)| && Sorted(fts, sem)[i].hit.chunkId == id
  {
    var c := Combined(fts, sem);
    var s := Sorted(fts, sem);
    CombinedIsReference(fts, sem);
    ReferenceComplete(fts, sem, id);
    var k :| 0 <= k < |c| && c[k].hit.chunkId == id;
    assert c[k] in multiset(s);
    var i :| 0 <= i < |s| && s[i] == c[k];
  }
}

=== FILE: keywords.dfy ===
/** `keywordize` (backend/app/routers/explain.py, copied verbatim in explain_all.py): the
    full-text query built from a question. The question is lowercased, every character
    that is neither a word character nor whitespace becomes a space, the result is split
    on whitespace, short and stop-word tokens are dropped, and the first eight distinct
    tokens are joined with single spaces; when none survives, the stripped question is
    the query. */
module Keywords {
  import opened Text

  /** `STOP`. */
  const Stop: set<string> := {
    "the", "a", "an", "and", "or", "but", "so", "to", "of", "in", "on", "for", "with", "as", "at", "by",
    "is", "are", "was", "were", "be", "been", "being", "do", "does", "did",
    "why", "what", "how", "when", "where", "which", "who",
    "this", "that", "these", "those", "it", "we", "you", "i", "they",
    "can", "could", "should", "would", "may", "might"}

  /** The loop stops once this many keywords are collected. */
  const MaxKeywords: nat := 8

  /** Tokens shorter than this are dropped. */
  const MinLength: nat := 3

  /** A character that can appear in a scrubbed question. */
  predicate Scrubbed(c: char) {
    (IsWordChar(c) && !('A' <= c <= 'Z')) || IsSpace(c)
  }

  /** `re.sub(r"[^\w\s]", " ", q.lower())`. */
  function Scrub(q: string): (r: string)
    ensures |r| == |q|
    ensures forall k :: 0 <= k < |r| ==> Scrubbed(r[k])
    ensures forall k :: 0 <= k < |q| && IsWordChar(q[k]) ==> r[k] == LowerChar(q[k])
    ensures forall k :: 0 <= k < |q| && IsSpace(q[k]) ==> r[k] == q[k]
    ensures forall k :: 0 <= k < |q| && !IsWordChar(q[k]) && !IsSpace(q[k]) ==> r[k] == ' '
  {
    seq(|q|, k requires 0 <= k < |q| =>
      var c := LowerChar(q[k]);
      if IsWordChar(c) || IsSpace(c) then c else ' ')
  }

  /** The whitespace-separated tokens of the scrubbed question. */
  function Tokens(q: string): seq<string> {
    Words(Scrub(q))
  }

  predicate Keep(t: string) {
    |t| >= MinLength && t !in Stop
  }

  /** The list comprehension keeping long, non-stop-word tokens, in order. */
  function Filter(ts: seq<string>): (r: seq<string>)
    ensures forall k :: 0 <= k < |r| ==> Keep(r[k]) && r[k] in ts
    ensures forall t :: t in ts && Keep(t) ==> t in r
    decreases |ts|
  {
    if |ts| == 0 then []
    else if Keep(ts[0]) then [ts[0]] + Filter(ts[1..])
    else Filter(ts[1..])
  }

  /** One token is kept exactly when it is long enough and not a stop word. */
  lemma FilterSingle(t: string)
    ensures Filter([t]) == if Keep(t) then [t] else []
  {
    assert [t][1..] == [];
  }

  /** Filtering distributes over concatenation: with FilterSingle this pins `Filter`,
      so the kept tokens stay in the order and the multiplicity of the input. */
  lemma {:induction false} FilterAppend(a: seq<string>, b: seq<string>)
    ensures Filter(a + b) == Filter(a) + Filter(b)
    decreases |a|
  {
    if a == [] {
      assert a + b == b;
      assert Filter(a) == [];
    } else {
      var t, a' := a[0], a[1..];
      assert a == [t] + a';
      assert a + b == [t] + (a' + b);
      FilterCons(t, a');
      FilterCons(t, a' + b);
      FilterAppend(a', b);
      if Keep(t) {
        ConcatAssoc([t], Filter(a'), Filter(b));
      }
    }
  }

  lemma FilterCons(t: string, ts: seq<string>)
    ensures Filter([t] + ts) == (if Keep(t) then [t] else []) + Filter(ts)
  {
    assert ([t] + ts)[1..] == ts;
  }

  predicate Distinct(s: seq<string>) {
    forall i, j :: 0 <= i < j < |s| ==> s[i] != s[j]
  }

  /** Reference definition: each token at its first occurrence, nothing else. */
  function FirstOccurrences(ts: seq<string>): (r: seq<string>)
    ensures Distinct(r)
    ensures forall t :: t in r <==> t in ts
    decreases |ts|
  {
    if |ts| == 0 then []
    else
      var r := FirstOccurrences(ts[..|ts| - 1]);
      var t := ts[|ts| - 1];
      assert forall u :: u in ts <==> u in ts[..|ts| - 1] || u == t;
      if t in r then r else r + [t]
  }

  /** The first `MaxKeywords` elements. */
  function Cap(s: seq<string>): (r: seq<string>)
    ensures |r| <= MaxKeywords
  {
    if |s| <= MaxKeywords then s else s[..MaxKeywords]
  }

  /** The `for` loop with its `break`, continuing from the keywords `out` collected so far. */
  function Collect(ts: seq<string>, out: seq<string>): seq<string>
    decreases |ts|
  {
    if |ts| == 0 then out
    else
      var out' := if ts[0] in out then out else out + [ts[0]];
      if |out'| >= MaxKeywords then out' else Collect(ts[1..], out')
  }

  function Keywords(q: string): seq<string> {
    Collect(Filter(Tokens(q)), [])
  }

  /** `keywordize`. */
  function Keywordize(q: string): string {
    var ks := Keywords(q);
    if ks != [] then Join(ks, " ") else Strip(q)
  }

  // ---------------------------------------------------------------------------
  // the loop collects the first distinct tokens
  // ---------------------------------------------------------------------------

  /** Distinct tokens already seen keep their place when more tokens follow. */
  lemma {:induction false} FirstOccurrencesPrefix(a: seq<string>, b: seq<string>)
    ensures var p := FirstOccurrences(a); var q := FirstOccurrences(a + b);
      |p| <= |q| && q[..|p|] == p
    decreases |b|
  {
    if |b| > 0 {
      var b' := b[..|b| - 1];
      assert (a + b)[..|a + b| - 1] == a + b';
      FirstOccurrencesPrefix(a, b');
    } else {
      assert a + b == a;
    }
  }

  lemma FirstOccurrencesStep(p: seq<string>, t: string)
    ensures FirstOccurrences(p + [t])
            == if t in FirstOccurrences(p) then FirstOccurrences(p) else FirstOccurrences(p) + [t]
  {
    assert (p + [t])[..|p + [t]| - 1] == p;
  }

  /** Continuing the loop from the distinct tokens of `p` gives the first distinct
      tokens of `p + ts`, capped. */
  lemma {:induction false} CollectFrom(p: seq<string>, ts: seq<string>)
    requires |FirstOccurrences(p)| < MaxKeywords
    ensures Collect(ts, FirstOccurrences(p)) == Cap(FirstOccurrences(p + ts))
    decreases |ts|
  {
    var out := FirstOccurrences(p);
    if |ts| == 0 {
      assert p + ts == p;
    } else {
      var t := ts[0];
      FirstOccurrencesStep(p, t);
      var out' := FirstOccurrences(p + [t]);
      assert p + ts == (p + [t]) + ts[1..];
      FirstOccurrencesPrefix(p + [t], ts[1..]);
      if |out'| >= MaxKeywords {
        assert |out'| == MaxKeywords;
      } else {
        CollectFrom(p + [t], ts[1..]);
      }
    }
  }

  /** The loop keeps, in order, the first eight distinct tokens. */
  lemma CollectFirstDistinct(ts: seq<string>)
    ensures Collect(ts, []) == Cap(FirstOccurrences(ts))
  {
    assert FirstOccurrences([]) == [];
    assert [] + ts == ts;
    CollectFrom([], ts);
  }

  /** The loop of `keywordize` over already filtered tokens, as written. */
  method CollectLoop(toks: seq<string>) returns (out: seq<string>)
    ensures out == Cap(FirstOccurrences(toks))
  {
    out := [];
    var i := 0;
    while i < |toks|
      invariant 0 <= i <= |toks|
      invariant out == FirstOccurrences(toks[..i])
      invariant |out| < MaxKeywords
    {
      var t := toks[i];
      FirstOccurrencesStep(toks[..i], t);
      assert toks[..i + 1] == toks[..i] + [t];
      if t !in out {
        out := out + [t];
      }
      if |out| >= MaxKeywords {
        FirstOccurrencesPrefix(toks[..i + 1], toks[i + 1..]);
        assert toks[..i + 1] + toks[i + 1..] == toks;
        return;
      }
      i := i + 1;
    }
    assert toks[..i] == toks;
  }

  // ---------------------------------------------------------------------------
  // properties of keywordize
  // ---------------------------------------------------------------------------

  lemma CapElements(s: seq<string>)
    ensures forall k :: 0 <= k < |Cap(s)| ==> Cap(s)[k] in s
    ensures Distinct(s) ==> Distinct(Cap(s))
  {
  }

  lemma {:induction false} TokensShape(q: string)
    ensures forall k :: 0 <= k < |Tokens(q)| ==> |Tokens(q)[k]| > 0 && NoSpace(Tokens(q)[k])
    ensures forall k, j :: 0 <= k < |Tokens(q)| && 0 <= j < |Tokens(q)[k]| ==> Scrubbed(Tokens(q)[k][j])
  {
    WordsChars(Scrub(q), Scrubbed);
  }

  /** A keyword is a lowercase run of word characters. */
  predicate Keyword(t: string) {
    Keep(t) && forall j :: 0 <= j < |t| ==> IsWordChar(t[j]) && !('A' <= t[j] <= 'Z')
  }

  /** The keywords are at most eight distinct tokens that are lowercase runs of word
      characters, at least three long and not stop words, in order of first occurrence. */
  lemma {:induction false} KeywordsShape(q: string)
    ensures var ks := Keywords(q);
      && ks == Cap(FirstOccurrences(Filter(Tokens(q))))
      && |ks| <= MaxKeywords
      && Distinct(ks)
      && (forall k :: 0 <= k < |ks| ==> Keyword(ks[k]) && ks[k] in Tokens(q))
  {
    var ts := Tokens(q);
    var fs := Filter(ts);
    CollectFirstDistinct(fs);
    TokensShape(q);
    CapElements(FirstOccurrences(fs));
    var ks := Keywords(q);
    forall k | 0 <= k < |ks| ensures Keyword(ks[k]) && ks[k] in ts {
      var i :| 0 <= i < |ts| && ts[i] == ks[k];
      forall j | 0 <= j < |ks[k]| ensures IsWordChar(ks[k][j]) && !('A' <= ks[k][j] <= 'Z') {
        assert Scrubbed(ts[i][j]);
      }
    }
  }

  lemma {:induction false} FilterNone(ts: seq<string>)
    requires forall k :: 0 <= k < |ts| ==> !Keep(ts[k])
    ensures Filter(ts) == []
    decreases |ts|
  {
    if |ts| > 0 {
      FilterNone(ts[1..]);
    }
  }

  /** When no token survives the filter the query is the stripped question. */
  lemma NoKeywordsFallback(q: string)
    requires forall k :: 0 <= k < |Tokens(q)| ==> !Keep(Tokens(q)[k])
    ensures Keywordize(q) == Strip(q)
  {
    FilterNone(Tokens(q));
  }

  /** Otherwise it is the keywords joined by single spaces. */
  lemma SomeKeywords(q: string)
    requires exists k :: 0 <= k < |Tokens(q)| && Keep(Tokens(q)[k])
    ensures Keywords(q) != [] && Keywordize(q) == Join(Keywords(q), " ")
  {
    var k :| 0 <= k < |Tokens(q)| && Keep(Tokens(q)[k]);
    var fs := Filter(Tokens(q));
    assert Tokens(q)[k] in fs;
    CollectFirstDistinct(fs);
    assert fs[0] in FirstOccurrences(fs);
  }

  // ---------------------------------------------------------------------------
  // idempotence
  // ---------------------------------------------------------------------------

  lemma {:induction false} JoinChars(ws: seq<string>, p: char -> bool)
    requires p(' ')
    requires forall k, j :: 0 <= k < |ws| && 0 <= j < |ws[k]| ==> p(ws[k][j])
    ensures forall i :: 0 <= i < |Join(ws, " ")| ==> p(Join(ws, " ")[i])
    decreases |ws|
  {
    if |ws| > 1 {
      JoinChars(ws[1..], p);
      var rest := Join(ws[1..], " ");
      var s := Join(ws, " ");
      assert s == ws[0] + " " + rest;
      forall i | 0 <= i < |s| ensures p(s[i]) {
        if i < |ws[0]| {
          assert s[i] == ws[0][i];
        } else if i > |ws[0]| {
          assert s[i] == rest[i - |ws[0]| - 1];
        }
      }
    }
  }

  /** Scrubbing leaves a scrubbed text alone. */
  lemma ScrubFixed(s: string)
    requires forall i :: 0 <= i < |s| ==> Scrubbed(s[i])
    ensures Scrub(s) == s
  {
  }

  lemma {:induction false} FilterFixed(ts: seq<string>)
    requires forall k :: 0 <= k < |ts| ==> Keep(ts[k])
    ensures Filter(ts) == ts
    decreases |ts|
  {
    if |ts| > 0 {
      FilterFixed(ts[1..]);
      assert [ts[0]] + ts[1..] == ts;
    }
  }

  lemma {:induction false} FirstOccurrencesFixed(ts: seq<string>)
    requires Distinct(ts)
    ensures FirstOccurrences(ts) == ts
    decreases |ts|
  {
    if |ts| > 0 {
      var init := ts[..|ts| - 1];
      FirstOccurrencesFixed(init);
      assert ts == init + [ts[|ts| - 1]];
    }
  }

  /** The query built from keywords is its own query. */
  lemma {:induction false} KeywordsFixed(q: string)
    requires Keywords(q) != []
    ensures Keywords(Join(Keywords(q), " ")) == Keywords(q)
  {
    var ks := Keywords(q);
    var s := Join(ks, " ");
    KeywordsShape(q);
    JoinChars(ks, Scrubbed);
    ScrubFixed(s);
    forall k | 0 <= k < |ks| ensures |ks[k]| > 0 && NoSpace(ks[k]) {
      assert |ks[k]| >= MinLength;
    }
    WordsJoin(ks);
    assert Tokens(s) == ks;
    FilterFixed(ks);
    FirstOccurrencesFixed(ks);
    CollectFirstDistinct(ks);
  }

  /** Scrubbing maps whitespace to itself, so surrounding whitespace makes no tokens. */
  lemma {:induction false} TokensOfStripped(q: string)
    ensures Tokens(Strip(q)) == Tokens(q)
  {
    StripParts(q);
    var l := Lead(q);
    var m := Strip(q);
    var a := q[..l];
    var b := q[l + |m|..];
    ScrubAppend(a, m + b);
    ScrubAppend(m, b);
    assert Scrub(a) == a;
    assert Scrub(b) == b;
    assert Scrub(q) == a + Scrub(m) + b;
    WordsPadded(a, Scrub(m), b);
  }

  /** Scrubbing works character by character. */
  lemma ScrubAppend(x: string, y: string)
    ensures Scrub(x + y) == Scrub(x) + Scrub(y)
  {
  }

  /** `keywordize(keywordize(q)) == keywordize(q)`. */
  lemma {:induction false} KeywordizeIdempotent(q: string)
    ensures Keywordize(Keywordize(q)) == Keywordize(q)
  {
    if Keywords(q) != [] {
      KeywordsFixed(q);
    } else {
      TokensOfStripped(q);
      StripIdempotent(q);
    }
  }
}

=== FILE: list_page.dfy ===
/** What the two list pages of the frontend share (frontend/components/CapturePage.tsx,
    frontend/components/SessionsPage.tsx): a list loaded from the backend, an error
    message, and a loading flag, with `refresh` reloading the list. The request is a
    parameter: its outcome is the list or the error it raised. */
module ListPage {
  import opened Wrappers

  datatype Page<T> = Page(items: seq<T>, err: Option<string>, loading: bool)

  /** `e?.message || fallback`: the error's message, or the fallback when it is empty. */
  function ErrorText(message: string, fallback: string): (r: string)
    ensures message != [] ==> r == message
    ensures message == [] ==> r == fallback
  {
    if message != [] then message else fallback
  }

  /** `refresh`, once the request has settled: a loaded list replaces the old one
      wholesale; a failed load keeps the old list and reports the error. Either way the
      page is no longer loading. */
  function Refresh<T>(p: Page<T>, outcome: Outcome<seq<T>>, fallback: string): (r: Page<T>)
    ensures !r.loading
    ensures outcome.Success? <==> r.err.None?
    ensures outcome.Success? ==> r.items == outcome.value
    ensures outcome.Raised? ==> r.items == p.items && r.err == Some(ErrorText(outcome.message, fallback))
  {
    match outcome
    case Success(data) => Page(data, None, false)
    case Raised(m) => Page(p.items, Some(ErrorText(m, fallback)), false)
  }

  /** A successful refresh forgets everything about the page before it. */
  lemma RefreshForgets<T>(p: Page<T>, q: Page<T>, data: seq<T>, fallback: string)
    ensures Refresh(p, Success(data), fallback) == Refresh(q, Success(data), fallback)
  {
  }

  /** Two failed refreshes in a row leave the list as it was. */
  lemma RefreshFailsTwice<T>(p: Page<T>, m1: string, m2: string, fallback: string)
    ensures Refresh(Refresh(p, Raised(m1), fallback), Raised(m2), fallback).items == p.items
  {
  }
}

=== FILE: markers.dfy ===
/** Page and slide marker lines (`MARKER_RE` in backend/app/chunking.py).

    A line is a marker when, stripped, it reads `---`, whitespace, `page` or `slide` in
    any letter case, whitespace, decimal digits, whitespace, `---`. The marker's ref is
    the lower-cased kind, one space, and the digits exactly as written. */
module Markers {
  import opened Wrappers
  import opened Text

  /** Length of the leading whitespace run. */
  function SpaceRun(s: string): (k: nat)
    ensures k <= |s| && AllSpace(s[..k])
    ensures k < |s| ==> !IsSpace(s[k])
    decreases |s|
  {
    if |s| > 0 && IsSpace(s[0]) then 1 + SpaceRun(s[1..]) else 0
  }

  predicate IsKind(kind: string) {
    Lower(kind) == "page" || Lower(kind) == "slide"
  }

  /** Length of a leading `page` or `slide`, letter case ignored; 0 when neither. */
  function KindLength(s: string): (k: nat)
    ensures k <= |s|
    ensures k > 0 ==> IsKind(s[..k])
  {
    if |s| >= 4 && Lower(s[..4]) == "page" then 4
    else if |s| >= 5 && Lower(s[..5]) == "slide" then 5
    else 0
  }

  /** Matches what lies between the two `---` of a stripped line. */
  function ParseMarkerBody(m: string): Option<string> {
    var a := SpaceRun(m);
    var rest := m[a..];
    var kl := KindLength(rest);
    var rest2 := rest[kl..];
    var b := SpaceRun(rest2);
    var rest3 := rest2[b..];
    var d := DigitRun(rest3);
    var tail := rest3[d..];
    if a > 0 && kl > 0 && b > 0 && d > 0 && |tail| > 0 && AllSpace(tail)
    then Some(Lower(rest[..kl]) + " " + rest3[..d])
    else None
  }

  /** `MARKER_RE.match(line.strip())`, returning the ref `"<kind> <digits>"` on a match. */
  function ParseMarker(line: string): Option<string> {
    ParseStripped(Strip(line))
  }

  /** Matches a line that has already been stripped. */
  function ParseStripped(t: string): Option<string> {
    if |t| >= 6 && t[..3] == "---" && t[|t| - 3..] == "---"
    then ParseMarkerBody(t[3..|t| - 3])
    else None
  }

  predicate IsMarker(line: string) {
    ParseMarker(line).Some?
  }

  /** What the regular expression allows between the two `---`, written out. */
  function MarkerBody(w1: string, kind: string, w2: string, digits: string, w3: string): string {
    w1 + (kind + (w2 + (digits + w3)))
  }

  /** The shape the regular expression describes, after stripping. */
  function MarkerLine(w1: string, kind: string, w2: string, digits: string, w3: string): string {
    "---" + MarkerBody(w1, kind, w2, digits, w3) + "---"
  }

  predicate MarkerParts(w1: string, kind: string, w2: string, digits: string, w3: string) {
    && |w1| > 0 && AllSpace(w1)
    && IsKind(kind)
    && |w2| > 0 && AllSpace(w2)
    && |digits| > 0 && AllDigits(digits)
    && |w3| > 0 && AllSpace(w3)
  }

  lemma {:induction false} SpaceRunOf(w: string, rest: string)
    requires AllSpace(w)
    requires rest == [] || !IsSpace(rest[0])
    ensures SpaceRun(w + rest) == |w|
    decreases |w|
  {
    if |w| > 0 {
      assert (w + rest)[0] == w[0];
      assert (w + rest)[1..] == w[1..] + rest;
      SpaceRunOf(w[1..], rest);
    } else {
      assert w + rest == rest;
    }
  }

  lemma KindFirst(kind: string)
    requires IsKind(kind)
    ensures |kind| > 0 && !IsSpace(kind[0]) && !IsDigit(kind[0])
    ensures Lower(kind) == "page" ==> kind[0] == 'p' || kind[0] == 'P'
    ensures Lower(kind) == "slide" ==> kind[0] == 's' || kind[0] == 'S'
  {
    assert |Lower(kind)| == |kind|;
    assert Lower(kind)[0] == LowerChar(kind[0]);
  }

  lemma KindLengthOf(kind: string, rest: string)
    requires IsKind(kind)
    ensures KindLength(kind + rest) == |kind|
  {
    KindFirst(kind);
    var s := kind + rest;
    if Lower(kind) == "page" {
      assert |kind| == 4;
      assert s[..4] == kind;
    } else {
      assert |kind| == 5;
      assert s[..5] == kind;
      assert Lower(s[..4])[0] == LowerChar(kind[0]);
    }
  }

  lemma {:induction false} ParseBodyOf(w1: string, kind: string, w2: string, digits: string, w3: string)
    requires MarkerParts(w1, kind, w2, digits, w3)
    ensures ParseMarkerBody(MarkerBody(w1, kind, w2, digits, w3)) == Some(Lower(kind) + " " + digits)
  {
    var rest3 := digits + w3;
    var rest2 := w2 + rest3;
    var rest := kind + rest2;
    var m := w1 + rest;
    KindFirst(kind);
    SpaceRunOf(w1, rest);
    assert m[|w1|..] == rest;
    KindLengthOf(kind, rest2);
    assert rest[|kind|..] == rest2;
    assert rest[..|kind|] == kind;
    SpaceRunOf(w2, rest3);
    assert rest2[|w2|..] == rest3;
    DigitRunOf(digits, w3);
    assert rest3[|digits|..] == w3;
    assert rest3[..|digits|] == digits;
  }

  /** Every line of the regular expression's shape is recognised, with the ref built
      from its kind and digits. */
  lemma {:induction false} ParseMarkerComplete(line: string, w1: string, kind: string, w2: string, digits: string, w3: string)
    requires MarkerParts(w1, kind, w2, digits, w3)
    requires Strip(line) == MarkerLine(w1, kind, w2, digits, w3)
    ensures ParseMarker(line) == Some(Lower(kind) + " " + digits)
  {
    var t := Strip(line);
    var m := MarkerBody(w1, kind, w2, digits, w3);
    assert t[..3] == "---";
    assert t[|t| - 3..] == "---";
    assert t[3..|t| - 3] == m;
    ParseBodyOf(w1, kind, w2, digits, w3);
  }

  lemma {:induction false} ParseBodySound(m: string) returns (w1: string, kind: string, w2: string, digits: string, w3: string)
    requires ParseMarkerBody(m).Some?
    ensures MarkerParts(w1, kind, w2, digits, w3)
    ensures m == MarkerBody(w1, kind, w2, digits, w3)
    ensures ParseMarkerBody(m) == Some(Lower(kind) + " " + digits)
  {
    var a := SpaceRun(m);
    var rest := m[a..];
    var kl := KindLength(rest);
    var rest2 := rest[kl..];
    var b := SpaceRun(rest2);
    var rest3 := rest2[b..];
    var d := DigitRun(rest3);
    w1, kind, w2, digits, w3 := m[..a], rest[..kl], rest2[..b], rest3[..d], rest3[d..];
    SliceSplit(rest3, d);
    SliceSplit(rest2, b);
    SliceSplit(rest, kl);
    SliceSplit(m, a);
  }

  /** Conversely, whatever is recognised has the regular expression's shape, and the
      ref is its lower-cased kind and its digits. */
  lemma {:induction false} ParseMarkerSound(line: string) returns (w1: string, kind: string, w2: string, digits: string, w3: string)
    requires IsMarker(line)
    ensures MarkerParts(w1, kind, w2, digits, w3)
    ensures Strip(line) == MarkerLine(w1, kind, w2, digits, w3)
    ensures ParseMarker(line) == Some(Lower(kind) + " " + digits)
  {
    var t := Strip(line);
    MarkerFrame(line);
    w1, kind, w2, digits, w3 := FramedSound(t);
  }

  lemma MarkerFrame(line: string)
    requires IsMarker(line)
    ensures var t := Strip(line);
      && |t| >= 6 && t[..3] == "---" && t[|t| - 3..] == "---"
      && ParseMarker(line) == ParseMarkerBody(t[3..|t| - 3])
  {
  }

  lemma {:induction false} FramedSound(t: string) returns (w1: string, kind: string, w2: string, digits: string, w3: string)
    requires |t| >= 6 && t[..3] == "---" && t[|t| - 3..] == "---"
    requires ParseMarkerBody(t[3..|t| - 3]).Some?
    ensures MarkerParts(w1, kind, w2, digits, w3)
    ensures t == MarkerLine(w1, kind, w2, digits, w3)
    ensures ParseMarkerBody(t[3..|t| - 3]) == Some(Lower(kind) + " " + digits)
  {
    w1, kind, w2, digits, w3 := ParseBodySound(t[3..|t| - 3]);
    Framed(t);
  }

  lemma Framed(t: string)
    requires |t| >= 6 && t[..3] == "---" && t[|t| - 3..] == "---"
    ensures t == "---" + t[3..|t| - 3] + "---"
  {
    assert t == t[..3] + t[3..|t| - 3] + t[|t| - 3..];
  }

  /** Whitespace around a line never changes whether it is a marker. */
  lemma ParseMarkerPadded(a: string, line: string, b: string)
    requires AllSpace(a) && AllSpace(b)
    ensures ParseMarker(a + line + b) == ParseMarker(line)
  {
    StripPadded(a, line, b);
  }

  /** The header line the extractors write, `--- <kind> <n> ---`. */
  function Header(kind: string, n: nat): string {
    MarkerLine(" ", kind, " ", NatToString(n), " ")
  }

  lemma LowerKinds()
    ensures Lower("page") == "page" && Lower("slide") == "slide"
  {
    assert Lower("page") == [LowerChar('p'), LowerChar('a'), LowerChar('g'), LowerChar('e')];
    assert Lower("slide") == [LowerChar('s'), LowerChar('l'), LowerChar('i'), LowerChar('d'), LowerChar('e')];
  }

  lemma HeaderStripped(kind: string, n: nat)
    ensures Strip(Header(kind, n)) == Header(kind, n)
  {
    var h := Header(kind, n);
    assert h[0] == '-' && h[|h| - 1] == '-';
    assert [] + h + [] == h;
    StripOf([], h, []);
  }

  lemma SpacedMarker(line: string, kind: string, digits: string)
    requires IsKind(kind) && |digits| > 0 && AllDigits(digits)
    requires Strip(line) == MarkerLine(" ", kind, " ", digits, " ")
    ensures ParseMarker(line) == Some(Lower(kind) + " " + digits)
  {
    ParseMarkerComplete(line, " ", kind, " ", digits, " ");
  }

  /** The extractors' header lines are markers whose ref is `"<kind> <n>"`. */
  lemma HeaderIsMarker(kind: string, n: nat)
    requires kind == "page" || kind == "slide"
    ensures ParseMarker(Header(kind, n)) == Some(kind + " " + NatToString(n))
  {
    LowerKinds();
    assert Lower(kind) == kind;
    HeaderStripped(kind, n);
    SpacedMarker(Header(kind, n), kind, NatToString(n));
  }

  // ---------------------------------------------------------------------------
  // texts without marker lines
  // ---------------------------------------------------------------------------

  /** No "\n"-separated line of `s` is a marker. */
  predicate NoMarkerLine(s: string) {
    NoLine(s, ParseMarker)
  }

  /** `parse` recognises no "\n"-separated line of `s`. */
  predicate NoLine(s: string, parse: string -> Option<string>) {
    forall k :: 0 <= k < |Split(s, '\n')| ==> parse(Split(s, '\n')[k]).None?
  }

  /** Two texts none of whose lines `parse` recognises, one above the other, have
      no such line either. */
  lemma NoLineAround(x: string, y: string, parse: string -> Option<string>)
    requires NoLine(x, parse) && NoLine(y, parse)
    ensures NoLine(x + "\n" + y, parse)
  {
    assert x + "\n" + y == x + ['\n'] + y;
    SplitAtSep(x, y, '\n');
    var a := Split(x, '\n');
    var b := Split(y, '\n');
    forall k | 0 <= k < |a + b| ensures parse((a + b)[k]).None? {
      if k < |a| {
        assert (a + b)[k] == a[k];
      } else {
        assert (a + b)[k] == b[k - |a|];
      }
    }
  }

  lemma {:induction false} SplitAllSpace(s: string, sep: char)
    requires AllSpace(s)
    ensures forall k :: 0 <= k < |Split(s, sep)| ==> AllSpace(Split(s, sep)[k])
    decreases |s|
  {
    if |s| > 0 {
      SplitAllSpace(s[1..], sep);
      var rest := Split(s[1..], sep);
      if s[0] != sep {
        assert AllSpace([s[0]] + rest[0]);
      }
    }
  }

  /** Joining lines that `parse` does not recognise gives a text none of whose lines
      it recognises. */
  lemma LinesJoin(lines: seq<string>, parse: string -> Option<string>)
    requires |lines| >= 1
    requires forall k :: 0 <= k < |lines| ==> '\n' !in lines[k] && parse(lines[k]).None?
    ensures NoLine(Join(lines, "\n"), parse)
  {
    SplitJoin(lines, '\n');
  }

  /** `parse` does not care about whitespace added at either end. */
  ghost predicate PadInvariant(parse: string -> Option<string>) {
    && (forall u, v :: AllSpace(u) ==> parse(u + v) == parse(v))
    && (forall u, v :: AllSpace(v) ==> parse(u + v) == parse(u))
  }

  /** The lines of `a + x` are those of `x`, the first one prefixed by the last line of `a`. */
  lemma {:induction false} LinesDropFront(a: string, x: string, parse: string -> Option<string>)
    requires AllSpace(a) && PadInvariant(parse)
    requires NoLine(a + x, parse)
    ensures NoLine(x, parse)
  {
    var p := Split(a, '\n');
    var q := Split(x, '\n');
    SplitConcat(a, x, '\n');
    SplitAllSpace(a, '\n');
    GlueIndex(p, q);
    var all := Split(a + x, '\n');
    forall k | 0 <= k < |q| ensures parse(q[k]).None? {
      if k == 0 {
        assert all[|p| - 1] == p[|p| - 1] + q[0];
      } else {
        assert all[|p| - 1 + k] == q[k];
      }
    }
  }

  /** The lines of `x + b` are those of `x`, the last one suffixed by the first line of `b`. */
  lemma {:induction false} LinesDropBack(x: string, b: string, parse: string -> Option<string>)
    requires AllSpace(b) && PadInvariant(parse)
    requires NoLine(x + b, parse)
    ensures NoLine(x, parse)
  {
    var p := Split(x, '\n');
    var q := Split(b, '\n');
    SplitConcat(x, b, '\n');
    SplitAllSpace(b, '\n');
    GlueIndex(p, q);
    var all := Split(x + b, '\n');
    forall k | 0 <= k < |p| ensures parse(p[k]).None? {
      if k == |p| - 1 {
        assert all[|p| - 1] == p[|p| - 1] + q[0];
      } else {
        assert all[k] == p[k];
      }
    }
  }

  /** Stripping keeps a text free of lines that `parse` recognises. */
  lemma LinesStrip(s: string, parse: string -> Option<string>)
    requires PadInvariant(parse) && NoLine(s, parse)
    ensures NoLine(Strip(s), parse)
  {
    StripParts(s);
    var l := Lead(s);
    var r := Strip(s);
    var pre := s[..l];
    var post := s[l + |r|..];
    LinesDropFront(pre, r + post, parse);
    LinesDropBack(r, post, parse);
  }

  lemma MarkerPadFront(u: string, v: string)
    requires AllSpace(u)
    ensures ParseMarker(u + v) == ParseMarker(v)
  {
    assert u + v + [] == u + v;
    ParseMarkerPadded(u, v, []);
  }

  lemma MarkerPadBack(u: string, v: string)
    requires AllSpace(v)
    ensures ParseMarker(u + v) == ParseMarker(u)
  {
    assert [] + u + v == u + v;
    ParseMarkerPadded([], u, v);
  }

  /** What a line parses to does not depend on surrounding whitespace. */
  lemma MarkerPadInvariant()
    ensures PadInvariant(ParseMarker)
  {
    forall u, v | AllSpace(u) ensures ParseMarker(u + v) == ParseMarker(v) {
      MarkerPadFront(u, v);
    }
    forall u, v | AllSpace(v) ensures ParseMarker(u + v) == ParseMarker(u) {
      MarkerPadBack(u, v);
    }
  }

  /** Joining non-marker lines gives a text without marker lines. */
  lemma NoMarkerLineJoin(lines: seq<string>)
    requires |lines| >= 1
    requires forall k :: 0 <= k < |lines| ==> '\n' !in lines[k] && !IsMarker(lines[k])
    ensures NoMarkerLine(Join(lines, "\n"))
  {
    LinesJoin(lines, ParseMarker);
  }

  /** Dropping leading whitespace keeps a text free of marker lines. */
  lemma NoMarkerLineDropFront(a: string, x: string)
    requires AllSpace(a) && NoMarkerLine(a + x)
    ensures NoMarkerLine(x)
  {
    MarkerPadInvariant();
    LinesDropFront(a, x, ParseMarker);
  }

  /** Dropping trailing whitespace keeps a text free of marker lines. */
  lemma NoMarkerLineDropBack(x: string, b: string)
    requires AllSpace(b) && NoMarkerLine(x + b)
    ensures NoMarkerLine(x)
  {
    MarkerPadInvariant();
    LinesDropBack(x, b, ParseMarker);
  }

  /** Stripping a text without marker lines leaves no marker line. */
  lemma NoMarkerLineStrip(s: string)
    requires NoMarkerLine(s)
    ensures NoMarkerLine(Strip(s))
  {
    MarkerPadInvariant();
    LinesStrip(s, ParseMarker);
  }
}

=== FILE: prompt.dfy ===
/** `build_prompt` (backend/app/routers/explain.py, copied verbatim in explain_all.py): the
    prompt sent to the language model, with the search hits numbered `[1]`, `[2]`, … in
    hit order so that the answer can cite them. */
module Prompt {
  import opened Wrappers
  import opened Text
  import opened Entities

  /** The context block when there are no hits. */
  const NoContext: string := "(No context found.)"

  /** Separates a hit's filename from its page ref. */
  const Bullet: string := " \U{2022} "

  /** The fixed instructions that open every prompt, up to the question. */
  const Instructions: string :=
    "You are a lecture companion. Answer the student's question using ONLY the provided context when possible.\n"
    + "If context is insufficient, say so and then give a brief general explanation.\n\n"
    + "Return Markdown with sections:\n"
    + "- TL;DR (2-3 lines)\n"
    + "- Explanation\n"
    + "- Example (if helpful)\n"
    + "- Sources (list the bracket numbers you used, e.g., [1], [2])\n\n"
    + "Question:\n"

  /** Python truthiness of an optional string: present and non-empty. */
  predicate Truthy(s: Option<string>) {
    s.Some? && s.value != ""
  }

  /** The filename, followed by the page ref when it is truthy. */
  function RefLabel(h: Hit): (r: string)
    ensures StartsWith(r, h.filename)
    ensures r == h.filename <==> !Truthy(h.pageRef)
    ensures Truthy(h.pageRef) ==> EndsWith(r, Bullet + h.pageRef.value)
  {
    if Truthy(h.pageRef) then
      var r := h.filename + (Bullet + h.pageRef.value);
      assert r[..|h.filename|] == h.filename;
      r
    else h.filename
  }

  /** The entry for hit `h` numbered `n`. */
  function ContextLine(n: nat, h: Hit): string {
    "[" + NatToString(n) + "] " + RefLabel(h) + "\n" + h.text + "\n"
  }

  /** The entries for `hs`, numbered from `first`. */
  function ContextLines(hs: seq<Hit>, first: nat): (r: seq<string>)
    ensures |r| == |hs|
    ensures forall k :: 0 <= k < |hs| ==> r[k] == ContextLine(first + k, hs[k])
    decreases |hs|
  {
    if |hs| == 0 then [] else [ContextLine(first, hs[0])] + ContextLines(hs[1..], first + 1)
  }

  function ContextBlock(hs: seq<Hit>): string {
    if |hs| == 0 then NoContext else Join(ContextLines(hs, 1), "\n")
  }

  /** `build_prompt`. */
  function BuildPrompt(question: string, hs: seq<Hit>): (r: string)
    ensures StartsWith(r, Instructions + question)
    ensures EndsWith(r, "\n\nContext:\n" + ContextBlock(hs) + "\n")
    ensures |r| == |Instructions + question| + |"\n\nContext:\n" + ContextBlock(hs) + "\n"|
  {
    var head := Instructions + question;
    var tail := "\n\nContext:\n" + ContextBlock(hs) + "\n";
    var r := head + tail;
    assert r[..|head|] == head;
    assert r[|r| - |tail|..] == tail;
    r
  }

  // ---------------------------------------------------------------------------
  // reading the numbers back
  // ---------------------------------------------------------------------------

  /** The number of a context entry: the digits between a leading `[` and `]`. */
  function EntryNumber(line: string): Option<nat> {
    if |line| > 0 && line[0] == '[' then
      var s := line[1..];
      var k := DigitRun(s);
      if k > 0 && k < |s| && s[k] == ']' then Some(DigitsValue(s[..k])) else None
    else None
  }

  lemma EntryNumberOf(n: nat, rest: string)
    ensures EntryNumber("[" + NatToString(n) + "]" + rest) == Some(n)
  {
    var d := NatToString(n);
    var line := "[" + d + "]" + rest;
    assert line[1..] == d + ("]" + rest);
    DigitRunOf(d, "]" + rest);
    assert line[1..][..|d|] == d;
    assert line[1..][|d|] == ']';
    DecimalRoundTrip(n);
  }

  /** The entry for hit `h` numbered `n` reads back as number `n` and ends with the
      hit's label and text. */
  lemma ContextLineReads(n: nat, h: Hit)
    ensures EntryNumber(ContextLine(n, h)) == Some(n)
    ensures EndsWith(ContextLine(n, h), RefLabel(h) + "\n" + h.text + "\n")
  {
    ContextLineNumber(n, h);
    ContextLineTail(n, h);
  }

  lemma ContextLineNumber(n: nat, h: Hit)
    ensures EntryNumber(ContextLine(n, h)) == Some(n)
  {
    var rest := " " + RefLabel(h) + "\n" + h.text + "\n";
    assert ContextLine(n, h) == "[" + NatToString(n) + "]" + rest;
    EntryNumberOf(n, rest);
  }

  lemma ContextLineTail(n: nat, h: Hit)
    ensures EndsWith(ContextLine(n, h), RefLabel(h) + "\n" + h.text + "\n")
  {
    var tail := RefLabel(h) + "\n" + h.text + "\n";
    var line := ContextLine(n, h);
    assert line == "[" + NatToString(n) + "] " + tail;
    assert line[|line| - |tail|..] == tail;
  }

  /** The entries are numbered `1..n` in hit order, each with its hit's label and text. */
  lemma ContextNumbered(hs: seq<Hit>)
    ensures forall k :: 0 <= k < |hs| ==>
      && EntryNumber(ContextLines(hs, 1)[k]) == Some(k + 1)
      && EndsWith(ContextLines(hs, 1)[k], RefLabel(hs[k]) + "\n" + hs[k].text + "\n")
  {
    forall k | 0 <= k < |hs|
      ensures EntryNumber(ContextLines(hs, 1)[k]) == Some(k + 1)
      ensures EndsWith(ContextLines(hs, 1)[k], RefLabel(hs[k]) + "\n" + hs[k].text + "\n")
    {
      ContextLineReads(1 + k, hs[k]);
    }
  }

  /** Without hits, the block is the fixed placeholder. */
  lemma NoHitsBlock(question: string)
    ensures EndsWith(BuildPrompt(question, []), "\n\nContext:\n" + NoContext + "\n")
  {
  }
}

=== FILE: sessions_page.dfy ===
/** The session list (frontend/components/SessionsPage.tsx): the form that creates a
    session, and the list it prepends the new session to. The backend's reply is a
    parameter. */
module SessionsPage {
  import opened Wrappers
  import opened Text
  import opened ListPage

  /** `SessionOut` as the page holds it. */
  datatype SessionView = SessionView(id: string, title: string, topics: Option<string>, createdAt: string, questionCount: int)

  /** `SessionCreate`: the request body. */
  datatype SessionCreate = SessionCreate(title: string, topics: Option<string>)

  datatype SessionsState = SessionsState(page: Page<SessionView>, title: string, topics: string)

  const LoadFallback: string := "Failed to load sessions"
  const CreateFallback: string := "Failed to create session"

  /** `canCreate`: the title is not blank. */
  predicate CanCreate(s: SessionsState) {
    Strip(s.title) != []
  }

  /** The request `onCreate` sends, when it sends one. */
  function Payload(s: SessionsState): (r: Option<SessionCreate>)
    ensures r.None? <==> !CanCreate(s)
    ensures r.Some? ==> r.value.title == Strip(s.title) && r.value.title != []
    ensures r.Some? ==> (r.value.topics.None? <==> AllSpace(s.topics))
    ensures r.Some? && !AllSpace(s.topics) ==> r.value.topics == Some(s.topics)
  {
    if !CanCreate(s) then None
    else Some(SessionCreate(Strip(s.title), if Strip(s.topics) != [] then Some(s.topics) else None))
  }

  /** `onCreate`, once the request has settled. A blank title sends nothing and changes
      nothing. */
  function OnCreate(s: SessionsState, outcome: Outcome<SessionView>): (r: SessionsState)
    ensures !CanCreate(s) ==> r == s
  {
    if !CanCreate(s) then s
    else match outcome
      case Success(created) =>
        SessionsState(s.page.(items := [created] + s.page.items, err := None), [], [])
      case Raised(m) =>
        s.(page := s.page.(err := Some(ErrorText(m, CreateFallback))))
  }

  /** A created session goes first and the others keep their order; the form is
      cleared. A failed create keeps the list and the form and reports the error. */
  lemma OnCreateSpec(s: SessionsState, outcome: Outcome<SessionView>)
    requires CanCreate(s)
    ensures var r := OnCreate(s, outcome);
      && (outcome.Success? ==>
            && |r.page.items| == |s.page.items| + 1
            && r.page.items[0] == outcome.value
            && r.page.items[1..] == s.page.items
            && r.page.err.None? && r.title == [] && r.topics == [])
      && (outcome.Raised? ==>
            && r.page.items == s.page.items
            && r.title == s.title && r.topics == s.topics
            && r.page.err == Some(ErrorText(outcome.message, CreateFallback)))
  {
  }

  /** After a successful create the form can no longer create until a title is typed. */
  lemma CreatedClearsForm(s: SessionsState, created: SessionView)
    requires CanCreate(s)
    ensures !CanCreate(OnCreate(s, Success(created)))
    ensures Payload(OnCreate(s, Success(created))).None?
  {
  }

  /** `refresh` on the sessions page. */
  function RefreshSessions(s: SessionsState, outcome: Outcome<seq<SessionView>>): (r: SessionsState)
    ensures r.title == s.title && r.topics == s.topics
    ensures outcome.Success? ==> r.page.items == outcome.value && r.page.err.None?
    ensures outcome.Raised? ==> r.page.items == s.page.items && r.page.err == Some(ErrorText(outcome.message, LoadFallback))
  {
    s.(page := Refresh(s.page, outcome, LoadFallback))
  }
}

=== FILE: sorting.dfy ===
/** Stable insertion sort by a numeric key. It models SQL `ORDER BY key ASC` over the
    in-memory store and Python's `sorted(..., key=...)` (a descending order is a sort
    by the negated key). */
module Sorting {

  predicate SortedBy<T>(s: seq<T>, key: T -> real) {
    forall i, j :: 0 <= i < j < |s| ==> key(s[i]) <= key(s[j])
  }

  /** Inserts `x` before the first element whose key is not smaller, so that equal
      keys keep their original order. */
  function Insert<T>(x: T, s: seq<T>, key: T -> real): (r: seq<T>)
    requires SortedBy(s, key)
    ensures SortedBy(r, key)
    ensures multiset(r) == multiset(s) + multiset{x}
    ensures |r| == |s| + 1 && (r[0] == x || (|s| > 0 && r[0] == s[0]))
    decreases |s|
  {
    if |s| == 0 || key(x) <= key(s[0]) then
      SortedCons(x, s, key);
      [x] + s
    else
      assert s == [s[0]] + s[1..];
      var rest := Insert(x, s[1..], key);
      SortedCons(s[0], rest, key);
      [s[0]] + rest
  }

  /** An element no greater than the head of a sorted sequence extends it. */
  lemma SortedCons<T>(h: T, t: seq<T>, key: T -> real)
    requires SortedBy(t, key) && (|t| == 0 || key(h) <= key(t[0]))
    ensures SortedBy([h] + t, key)
  {
    var r := [h] + t;
    forall i, j | 0 <= i < j < |r| ensures key(r[i]) <= key(r[j]) {
      assert r[j] == t[j - 1];
      if i > 0 {
        assert r[i] == t[i - 1];
      } else {
        assert key(t[0]) <= key(t[j - 1]) || j == 1;
      }
    }
  }

  /** The elements of `s` ordered by ascending key. */
  function SortBy<T>(s: seq<T>, key: T -> real): (r: seq<T>)
    ensures SortedBy(r, key)
    ensures multiset(r) == multiset(s)
    ensures |r| == |s|
    decreases |s|
  {
    if |s| == 0 then []
    else
      var rest := SortBy(s[1..], key);
      assert s == [s[0]] + s[1..];
      Insert(s[0], rest, key)
  }

  /** `R` holds between the elements at any two distinct positions. */
  ghost predicate Pairwise<T>(s: seq<T>, R: (T, T) -> bool) {
    forall i, j :: 0 <= i < |s| && 0 <= j < |s| && i != j ==> R(s[i], s[j])
  }

  lemma {:induction false} ConsPairwise<T>(x: T, s: seq<T>, R: (T, T) -> bool)
    requires Pairwise(s, R)
    requires forall k :: 0 <= k < |s| ==> R(x, s[k]) && R(s[k], x)
    ensures Pairwise([x] + s, R)
  {
    var r := [x] + s;
    forall i, j | 0 <= i < |r| && 0 <= j < |r| && i != j ensures R(r[i], r[j]) {
      if i > 0 && j > 0 {
        assert r[i] == s[i - 1] && r[j] == s[j - 1];
      } else if i == 0 {
        assert r[j] == s[j - 1];
      } else {
        assert r[i] == s[i - 1];
      }
    }
  }

  /** Two sequences each related pairwise, and related across, concatenate to one. */
  lemma ConcatPairwise<T>(a: seq<T>, b: seq<T>, R: (T, T) -> bool)
    requires Pairwise(a, R) && Pairwise(b, R)
    requires forall i, j :: 0 <= i < |a| && 0 <= j < |b| ==> R(a[i], b[j]) && R(b[j], a[i])
    ensures Pairwise(a + b, R)
  {
    var s := a + b;
    forall x, y | 0 <= x < |s| && 0 <= y < |s| && x != y ensures R(s[x], s[y]) {
      if x < |a| && y < |a| {
        assert s[x] == a[x] && s[y] == a[y];
      } else if x >= |a| && y >= |a| {
        assert s[x] == b[x - |a|] && s[y] == b[y - |a|];
      } else if x < |a| {
        assert s[x] == a[x] && s[y] == b[y - |a|];
      } else {
        assert s[y] == a[y] && s[x] == b[x - |a|];
      }
    }
  }

  lemma TailPairwise<T>(s: seq<T>, R: (T, T) -> bool)
    requires |s| > 0 && Pairwise(s, R)
    ensures Pairwise(s[1..], R)
  {
    var t := s[1..];
    forall i, j | 0 <= i < |t| && 0 <= j < |t| && i != j ensures R(t[i], t[j]) {
      assert t[i] == s[i + 1] && t[j] == s[j + 1];
    }
  }

  lemma {:induction false} InsertPairwise<T>(x: T, s: seq<T>, key: T -> real, R: (T, T) -> bool)
    requires SortedBy(s, key) && Pairwise(s, R)
    requires forall k :: 0 <= k < |s| ==> R(x, s[k]) && R(s[k], x)
    ensures Pairwise(Insert(x, s, key), R)
    decreases |s|
  {
    if |s| == 0 || key(x) <= key(s[0]) {
      ConsPairwise(x, s, R);
    } else {
      var t := s[1..];
      TailPairwise(s, R);
      InsertPairwise(x, t, key, R);
      var u := Insert(x, t, key);
      forall k | 0 <= k < |u| ensures R(s[0], u[k]) && R(u[k], s[0]) {
        assert u[k] in multiset(t) + multiset{x};
        if u[k] != x {
          assert u[k] in t;
          var m :| 0 <= m < |t| && t[m] == u[k];
          assert u[k] == s[m + 1];
        }
      }
      ConsPairwise(s[0], u, R);
    }
  }

  /** Sorting keeps any relation that held between all pairs of positions. */
  lemma {:induction false} SortByPairwise<T>(s: seq<T>, key: T -> real, R: (T, T) -> bool)
    requires Pairwise(s, R)
    ensures Pairwise(SortBy(s, key), R)
    decreases |s|
  {
    if |s| > 0 {
      var t := s[1..];
      TailPairwise(s, R);
      SortByPairwise(t, key, R);
      var rest := SortBy(t, key);
      forall k | 0 <= k < |rest| ensures R(s[0], rest[k]) && R(rest[k], s[0]) {
        assert rest[k] in multiset(t);
        var m :| 0 <= m < |t| && t[m] == rest[k];
        assert rest[k] == s[m + 1];
      }
      InsertPairwise(s[0], rest, key, R);
    }
  }
}

=== FILE: store.dfy ===
/** The persistence rules of backend/app/crud.py over an in-memory store: one sequence
    per table in insertion order, and a counter that hands out fresh row ids (uuid4 in
    the database). Transactions, commits and SQL text are not modelled; each operation
    is a function from the store before to the store after. */
module Store {
  import opened Wrappers
  import opened Sorting
  import opened Entities
  import opened Chunking

  datatype Db = Db(
    sessions: seq<LectureSession>,
    questions: seq<Question>,
    resources: seq<Resource>,
    chunks: seq<Chunk>,
    answers: seq<Answer>,
    nextId: nat)

  // ---------------------------------------------------------------------------
  // selecting rows
  // ---------------------------------------------------------------------------

  /** A `WHERE` clause: the rows satisfying `p`, in store order. */
  function Select<T(!new)>(s: seq<T>, p: T -> bool): (r: seq<T>)
    ensures forall x :: x in r <==> x in s && p(x)
    ensures forall k :: 0 <= k < |r| ==> p(r[k])
    ensures |r| <= |s|
    decreases |s|
  {
    if |s| == 0 then []
    else
      assert forall x :: x in s <==> x == s[0] || x in s[1..];
      if p(s[0]) then [s[0]] + Select(s[1..], p) else Select(s[1..], p)
  }

  lemma {:induction false} SelectConcat<T(!new)>(a: seq<T>, b: seq<T>, p: T -> bool)
    ensures Select(a + b, p) == Select(a, p) + Select(b, p)
    decreases |a|
  {
    if |a| > 0 {
      assert (a + b)[1..] == a[1..] + b;
      SelectConcat(a[1..], b, p);
    } else {
      assert a + b == b;
    }
  }

  lemma {:induction false} SelectAll<T(!new)>(s: seq<T>, p: T -> bool)
    requires forall k :: 0 <= k < |s| ==> p(s[k])
    ensures Select(s, p) == s
    decreases |s|
  {
    if |s| > 0 {
      SelectAll(s[1..], p);
      assert [s[0]] + s[1..] == s;
    }
  }

  lemma {:induction false} SelectNone<T(!new)>(s: seq<T>, p: T -> bool)
    requires forall k :: 0 <= k < |s| ==> !p(s[k])
    ensures Select(s, p) == []
    decreases |s|
  {
    if |s| > 0 {
      SelectNone(s[1..], p);
    }
  }

  // ---------------------------------------------------------------------------
  // the store invariant
  // ---------------------------------------------------------------------------

  /** The unique constraint `uq_answers_question_id`. */
  predicate OneAnswerPerQuestion(answers: seq<Answer>) {
    forall i, j :: 0 <= i < j < |answers| ==> answers[i].questionId != answers[j].questionId
  }

  /** Every row id was handed out already, so the counter's next value is fresh. */
  predicate IdsIssued(db: Db) {
    && (forall k :: 0 <= k < |db.questions| ==> db.questions[k].id < db.nextId)
    && (forall k :: 0 <= k < |db.resources| ==> db.resources[k].id < db.nextId)
    && (forall k :: 0 <= k < |db.chunks| ==> db.chunks[k].id < db.nextId)
    && (forall k :: 0 <= k < |db.answers| ==> db.answers[k].id < db.nextId)
  }

  /** A resource keeps extracted text only when EXTRACTED, an error only when FAILED,
      and an extraction time exactly when it is one of the two. */
  predicate Normalised(r: Resource) {
    && (r.extractedText.Some? ==> r.status == EXTRACTED)
    && (r.error.Some? ==> r.status == FAILED)
    && (r.extractedAt.Some? <==> (r.status == EXTRACTED || r.status == FAILED))
  }

  predicate Valid(db: Db) {
    && OneAnswerPerQuestion(db.answers)
    && IdsIssued(db)
    && forall k :: 0 <= k < |db.resources| ==> Normalised(db.resources[k])
  }

  // ---------------------------------------------------------------------------
  // questions
  // ---------------------------------------------------------------------------

  function OrderKey(q: Question): real {
    q.orderIndex as real
  }

  /** `max(order_index)` over the session's questions, or None when it has none. */
  function MaxOrder(qs: seq<Question>, sid: Id): (r: Option<int>)
    ensures r.None? <==> forall k :: 0 <= k < |qs| ==> qs[k].sessionId != sid
    ensures r.Some? ==> exists k :: 0 <= k < |qs| && qs[k].sessionId == sid && qs[k].orderIndex == r.value
    ensures r.Some? ==> forall k :: 0 <= k < |qs| && qs[k].sessionId == sid ==> qs[k].orderIndex <= r.value
    decreases |qs|
  {
    if |qs| == 0 then None
    else
      var rest := MaxOrder(qs[1..], sid);
      assert forall k :: 1 <= k < |qs| ==> qs[k] == qs[1..][k - 1];
      if qs[0].sessionId != sid then rest
      else match rest
        case None => Some(qs[0].orderIndex)
        case Some(m) => Some(if qs[0].orderIndex > m then qs[0].orderIndex else m)
  }

  /** `create_question`: the new question's `order_index` is the session's largest
      (or 0) plus one. */
  function CreateQuestion(db: Db, sid: Id, text: string): (r: (Db, Question))
    ensures var (db', q) := r;
      && q.sessionId == sid && q.text == text && q.id == db.nextId
      && db'.questions == db.questions + [q]
      && db' == db.(questions := db'.questions, nextId := db.nextId + 1)
      && q.orderIndex == MaxOrder(db.questions, sid).GetOr(0) + 1
  {
    var q := Question(db.nextId, sid, text, MaxOrder(db.questions, sid).GetOr(0) + 1);
    (db.(questions := db.questions + [q], nextId := db.nextId + 1), q)
  }

  /** The new question comes after every question of its session; other sessions'
      questions, and everything else, are untouched, and the store stays valid. */
  lemma CreateQuestionOrders(db: Db, sid: Id, text: string)
    requires Valid(db)
    ensures var (db', q) := CreateQuestion(db, sid, text);
      && (forall k :: 0 <= k < |db.questions| && db.questions[k].sessionId == sid ==>
            db.questions[k].orderIndex < q.orderIndex)
      && (MaxOrder(db.questions, sid).None? ==> q.orderIndex == 1)
      && Select(db'.questions, (x: Question) => x.sessionId != sid)
         == Select(db.questions, (x: Question) => x.sessionId != sid)
      && Valid(db')
  {
    var (db', q) := CreateQuestion(db, sid, text);
    SelectConcat(db.questions, [q], (x: Question) => x.sessionId != sid);
  }

  /** `list_questions`: the session's questions by ascending `order_index`. */
  function ListQuestions(db: Db, sid: Id): (r: seq<Question>)
    ensures SortedBy(r, OrderKey)
    ensures multiset(r) == multiset(Select(db.questions, (q: Question) => q.sessionId == sid))
    ensures forall q :: q in r <==> q in db.questions && q.sessionId == sid
  {
    var mine := Select(db.questions, (q: Question) => q.sessionId == sid);
    var r := SortBy(mine, OrderKey);
    assert forall q :: q in r <==> q in multiset(r);
    r
  }

  /** Whether the question with id `qid` has an answer. */
  predicate Answered(answers: seq<Answer>, qid: Id) {
    exists k :: 0 <= k < |answers| && answers[k].questionId == qid
  }

  /** `list_unanswered_questions`: the session's questions without an answer, by
      ascending `order_index`. */
  function ListUnanswered(db: Db, sid: Id): (r: seq<Question>)
    ensures SortedBy(r, OrderKey)
    ensures multiset(r)
      == multiset(Select(db.questions, (q: Question) => q.sessionId == sid && !Answered(db.answers, q.id)))
    ensures forall q :: q in r <==> q in db.questions && q.sessionId == sid && !Answered(db.answers, q.id)
  {
    var open := Select(db.questions, (q: Question) => q.sessionId == sid && !Answered(db.answers, q.id));
    var r := SortBy(open, OrderKey);
    assert forall q :: q in r <==> q in multiset(r);
    r
  }

  // ---------------------------------------------------------------------------
  // resources
  // ---------------------------------------------------------------------------

  /** `get_session(…) is not None`. */
  predicate HasSession(db: Db, sid: Id) {
    exists k :: 0 <= k < |db.sessions| && db.sessions[k].id == sid
  }

  /** `s` from last to first. */
  function Reverse<T(!new)>(s: seq<T>): (r: seq<T>)
    ensures |r| == |s|
    ensures forall k :: 0 <= k < |s| ==> r[k] == s[|s| - 1 - k]
    ensures forall x :: x in r <==> x in s
    decreases |s|
  {
    if |s| == 0 then []
    else
      var r := Reverse(s[1..]) + [s[0]];
      assert forall x :: x in s <==> x == s[0] || x in s[1..];
      r
  }

  /** `list_extractable_resources` (and `list_resources`): the session's resources,
      newest first. Rows are appended as they are created, so newest first is the
      store order reversed. */
  function ListResources(db: Db, sid: Id): (r: seq<Resource>)
    ensures forall x :: x in r <==> x in db.resources && x.sessionId == sid
    ensures var mine := Select(db.resources, (x: Resource) => x.sessionId == sid);
      |r| == |mine| && forall k :: 0 <= k < |r| ==> r[k] == mine[|mine| - 1 - k]
  {
    Reverse(Select(db.resources, (x: Resource) => x.sessionId == sid))
  }

  /** `create_resource`, at time `now`: the text is kept only for EXTRACTED and the
      error only for FAILED. */
  function CreateResource(
    db: Db, sid: Id, filename: string, mimeType: Option<string>, storagePath: string,
    status: string, extractedText: Option<string>, error: Option<string>, now: nat): (r: (Db, Resource))
    ensures var (db', res) := r;
      && Normalised(res)
      && res.id == db.nextId && res.sessionId == sid && res.filename == filename
      && res.mimeType == mimeType && res.storagePath == storagePath && res.status == status
      && (status == EXTRACTED ==> res.extractedText == extractedText)
      && (status == FAILED ==> res.error == error)
      && (res.extractedAt.Some? ==> res.extractedAt == Some(now))
      && db' == db.(resources := db.resources + [res], nextId := db.nextId + 1)
  {
    var res := Resource(
      db.nextId, sid, filename, mimeType, storagePath, status,
      if status == EXTRACTED then extractedText else None,
      if status == FAILED then error else None,
      if status == EXTRACTED || status == FAILED then Some(now) else None);
    (db.(resources := db.resources + [res], nextId := db.nextId + 1), res)
  }

  lemma CreateResourceValid(
    db: Db, sid: Id, filename: string, mimeType: Option<string>, storagePath: string,
    status: string, extractedText: Option<string>, error: Option<string>, now: nat)
    requires Valid(db)
    ensures Valid(CreateResource(db, sid, filename, mimeType, storagePath, status, extractedText, error, now).0)
  {
  }

  // ---------------------------------------------------------------------------
  // chunks
  // ---------------------------------------------------------------------------

  /** The chunk rows `create_chunks_for_resource` inserts: numbered from 1 in input
      order, with ids from `firstId`. */
  function NewChunks(firstId: nat, sid: Id, rid: Id, pieces: seq<Piece>): (r: seq<Chunk>)
    ensures |r| == |pieces|
    ensures forall k :: 0 <= k < |r| ==>
      r[k] == Chunk(firstId + k, sid, rid, k + 1, pieces[k].ref, pieces[k].text)
  {
    seq(|pieces|, k requires 0 <= k < |pieces| =>
      Chunk(firstId + k, sid, rid, k + 1, pieces[k].ref, pieces[k].text))
  }

  /** The chunks of resource `rid`. */
  function OfResource(rid: Id): Chunk -> bool {
    (c: Chunk) => c.resourceId == rid
  }

  /** The chunks of every other resource. */
  function NotOfResource(rid: Id): Chunk -> bool {
    (c: Chunk) => c.resourceId != rid
  }

  /** `create_chunks_for_resource`: deletes the resource's chunks, inserts the new ones,
      and returns how many it inserted. */
  function CreateChunks(db: Db, sid: Id, rid: Id, pieces: seq<Piece>): (r: (Db, nat))
    ensures r.1 == |pieces|
    ensures r.0 == db.(chunks := r.0.chunks, nextId := db.nextId + |pieces|)
  {
    var kept := Select(db.chunks, NotOfResource(rid));
    (db.(chunks := kept + NewChunks(db.nextId, sid, rid, pieces), nextId := db.nextId + |pieces|), |pieces|)
  }

  /** After the insert the resource's chunks are exactly the new ones, numbered 1..n in
      input order, and other resources' chunks are as they were. */
  lemma {:induction false} CreateChunksReplaces(db: Db, sid: Id, rid: Id, pieces: seq<Piece>)
    ensures var db' := CreateChunks(db, sid, rid, pieces).0;
      && Select(db'.chunks, OfResource(rid)) == NewChunks(db.nextId, sid, rid, pieces)
      && Select(db'.chunks, NotOfResource(rid)) == Select(db.chunks, NotOfResource(rid))
  {
    var kept := Select(db.chunks, NotOfResource(rid));
    var added := NewChunks(db.nextId, sid, rid, pieces);
    SelectConcat(kept, added, OfResource(rid));
    SelectConcat(kept, added, NotOfResource(rid));
    SelectNone(kept, OfResource(rid));
    SelectAll(added, OfResource(rid));
    SelectAll(kept, NotOfResource(rid));
    SelectNone(added, NotOfResource(rid));
    assert kept + [] == kept;
  }

  lemma {:induction false} CreateChunksValid(db: Db, sid: Id, rid: Id, pieces: seq<Piece>)
    requires Valid(db)
    ensures Valid(CreateChunks(db, sid, rid, pieces).0)
  {
    var db' := CreateChunks(db, sid, rid, pieces).0;
    var kept := Select(db.chunks, NotOfResource(rid));
    var added := NewChunks(db.nextId, sid, rid, pieces);
    assert db'.chunks == kept + added;
    forall k | 0 <= k < |db'.chunks| ensures db'.chunks[k].id < db'.nextId {
      if k < |kept| {
        assert db'.chunks[k] in db.chunks;
      } else {
        assert db'.chunks[k] == added[k - |kept|];
      }
    }
  }

  // ---------------------------------------------------------------------------
  // answers
  // ---------------------------------------------------------------------------

  /** `get_answer_by_question(...).first()`: the position of the first answer to `qid`. */
  function FindAnswer(answers: seq<Answer>, qid: Id): (r: Option<nat>)
    ensures r.Some? ==> r.value < |answers| && answers[r.value].questionId == qid
    ensures r.Some? ==> forall j :: 0 <= j < r.value ==> answers[j].questionId != qid
    ensures r.None? <==> !Answered(answers, qid)
  {
    Find(answers, (a: Answer) => a.questionId == qid)
  }

  /** `upsert_answer`: an existing answer gets the new markdown and sources and keeps
      everything else; otherwise a new answer is appended. */
  function UpsertAnswer(db: Db, sid: Id, qid: Id, md: string, sources: seq<SourceRef>): (r: (Db, Answer))
    ensures r.1.questionId == qid && r.1.answerMd == md && r.1.sources == sources
    ensures r.0 == db.(answers := r.0.answers, nextId := r.0.nextId)
  {
    match FindAnswer(db.answers, qid)
    case Some(i) =>
      var a := db.answers[i].(answerMd := md, sources := sources);
      (db.(answers := db.answers[i := a]), a)
    case None =>
      var a := Answer(db.nextId, sid, qid, md, sources);
      (db.(answers := db.answers + [a], nextId := db.nextId + 1), a)
  }

  /** After an upsert exactly one answer belongs to the question: the returned one. An
      update changes only that answer's markdown and sources; an insert adds one answer
      carrying the given session. Other questions' answers stay in place. */
  lemma UpsertAnswerUnique(db: Db, sid: Id, qid: Id, md: string, sources: seq<SourceRef>)
    requires Valid(db)
    ensures var (db', a) := UpsertAnswer(db, sid, qid, md, sources);
      && Valid(db')
      && (exists i :: 0 <= i < |db'.answers| && db'.answers[i] == a)
      && (forall j :: 0 <= j < |db'.answers| && db'.answers[j].questionId == qid ==> db'.answers[j] == a)
      && (forall j :: 0 <= j < |db.answers| && db.answers[j].questionId != qid ==> db'.answers[j] == db.answers[j])
      && (Answered(db.answers, qid) ==>
            |db'.answers| == |db.answers|
            && exists i :: 0 <= i < |db.answers| && db.answers[i].questionId == qid
                 && a == db.answers[i].(answerMd := md, sources := sources))
      && (!Answered(db.answers, qid) ==>
            db'.answers == db.answers + [a] && a.sessionId == sid && a.id == db.nextId)
  {
    var (db', a) := UpsertAnswer(db, sid, qid, md, sources);
    match FindAnswer(db.answers, qid)
    case Some(i) =>
      assert db'.answers[i] == a;
    case None =>
      assert db'.answers[|db.answers|] == a;
  }

  /** A second upsert for the same question adds no answer. */
  lemma UpsertTwice(db: Db, sid: Id, qid: Id, md1: string, s1: seq<SourceRef>, md2: string, s2: seq<SourceRef>)
    requires Valid(db)
    ensures var db1 := UpsertAnswer(db, sid, qid, md1, s1).0;
      var db2 := UpsertAnswer(db1, sid, qid, md2, s2).0;
      |db2.answers| == |db1.answers| && Answered(db1.answers, qid)
  {
    UpsertAnswerUnique(db, sid, qid, md1, s1);
  }
}

=== FILE: text.dfy ===
/** Character classes and string primitives shared by the backend (Python) and the
    frontend (TypeScript) parts of the model.

    Python's `str.strip`, `str.split`, `str.splitlines`, `\s`, `\w`, `\d` and `str.lower`
    are Unicode-aware; this module fixes their ASCII behaviour, which is what every lemma
    of the model is stated over. */
module Text {

  /** Whitespace for `strip`, `split()`, `\s` and JavaScript's `trim`: space, tab,
      line feed, vertical tab, form feed and carriage return. */
  predicate IsSpace(c: char) {
    c == ' ' || ('\t' <= c <= '\r')
  }

  predicate IsDigit(c: char) {
    '0' <= c <= '9'
  }

  /** Python's `\w` on ASCII: letters, digits and the underscore. */
  predicate IsWordChar(c: char) {
    ('a' <= c <= 'z') || ('A' <= c <= 'Z') || IsDigit(c) || c == '_'
  }

  predicate AllSpace(s: string) {
    forall k :: 0 <= k < |s| ==> IsSpace(s[k])
  }

  predicate NoSpace(s: string) {
    forall k :: 0 <= k < |s| ==> !IsSpace(s[k])
  }

  predicate AllDigits(s: string) {
    forall k :: 0 <= k < |s| ==> IsDigit(s[k])
  }

  predicate StartsWith(s: string, prefix: string) {
    |prefix| <= |s| && s[..|prefix|] == prefix
  }

  predicate EndsWith(s: string, suffix: string) {
    |suffix| <= |s| && s[|s| - |suffix|..] == suffix
  }

  /** `str.lower()` on one character: only ASCII capitals change. */
  function LowerChar(c: char): char {
    if 'A' <= c <= 'Z' then (c as int + 32) as char else c
  }

  function Lower(s: string): (r: string)
    ensures |r| == |s|
    ensures forall k :: 0 <= k < |s| ==> r[k] == LowerChar(s[k])
  {
    seq(|s|, k requires 0 <= k < |s| => LowerChar(s[k]))
  }

  /** `s.replace(from, to)` for single characters. */
  function ReplaceChar(s: string, from: char, to: char): (r: string)
    ensures |r| == |s|
    ensures forall k :: 0 <= k < |s| ==> r[k] == (if s[k] == from then to else s[k])
  {
    seq(|s|, k requires 0 <= k < |s| => if s[k] == from then to else s[k])
  }

  // ---------------------------------------------------------------------------
  // strip / trim
  // ---------------------------------------------------------------------------

  /** `str.lstrip()`: the suffix left after dropping leading whitespace. */
  function TrimLeft(s: string): (r: string)
    ensures |r| <= |s|
    ensures r == [] || !IsSpace(r[0])
    decreases |s|
  {
    if |s| > 0 && IsSpace(s[0]) then TrimLeft(s[1..]) else s
  }

  lemma {:induction false} TrimLeftSlice(s: string)
    ensures TrimLeft(s) == s[|s| - |TrimLeft(s)|..]
    ensures AllSpace(s[..|s| - |TrimLeft(s)|])
    decreases |s|
  {
    if |s| > 0 && IsSpace(s[0]) {
      TrimLeftSlice(s[1..]);
      var r := TrimLeft(s[1..]);
      assert s[1..][|s| - 1 - |r|..] == s[|s| - |r|..];
    }
  }

  /** `str.rstrip()`: the prefix left after dropping trailing whitespace. */
  function TrimRight(s: string): (r: string)
    ensures |r| <= |s|
    ensures r == [] || !IsSpace(r[|r| - 1])
    decreases |s|
  {
    if |s| > 0 && IsSpace(s[|s| - 1]) then TrimRight(s[..|s| - 1]) else s
  }

  lemma {:induction false} TrimRightSlice(s: string)
    ensures TrimRight(s) == s[..|TrimRight(s)|]
    ensures AllSpace(s[|TrimRight(s)|..])
    decreases |s|
  {
    if |s| > 0 && IsSpace(s[|s| - 1]) {
      TrimRightSlice(s[..|s| - 1]);
      var r := TrimRight(s[..|s| - 1]);
      assert s[..|s| - 1][..|r|] == s[..|r|];
      assert forall k :: 0 <= k < |s| - 1 - |r| ==> s[..|s| - 1][|r|..][k] == s[|r|..][k];
    }
  }

  /** Number of leading whitespace characters. */
  function Lead(s: string): nat {
    |s| - |TrimLeft(s)|
  }

  /** Python's `str.strip()` and JavaScript's `trim()`: the slice of `s` between its
      leading and trailing whitespace runs (see `StripSlice`). */
  function Strip(s: string): (r: string)
    ensures |r| <= |s|
    ensures r == [] || (!IsSpace(r[0]) && !IsSpace(r[|r| - 1]))
    ensures r == [] <==> AllSpace(s)
  {
    var l := TrimLeft(s);
    var r := TrimRight(l);
    TrimLeftSlice(s);
    TrimRightSlice(l);
    assert r == [] ==> AllSpace(s) by {
      if r == [] {
        assert l == [];
        assert s[..|s| - |l|] == s;
      }
    }
    r
  }

  lemma SliceSplit(s: string, i: nat)
    requires i <= |s|
    ensures s[..i] + s[i..] == s
  {
  }

  /** A string is its leading whitespace, its stripped form and its trailing whitespace. */
  lemma StripParts(s: string)
    ensures Lead(s) + |Strip(s)| <= |s|
    ensures s == s[..Lead(s)] + (Strip(s) + s[Lead(s) + |Strip(s)|..])
    ensures AllSpace(s[..Lead(s)]) && AllSpace(s[Lead(s) + |Strip(s)|..])
  {
    StripSlice(s);
    var l := Lead(s);
    var e := l + |Strip(s)|;
    SliceSplit(s[l..], |Strip(s)|);
    assert s[l..][..|Strip(s)|] == Strip(s);
    assert s[l..][|Strip(s)|..] == s[e..];
    SliceSplit(s, l);
  }

  /** What `strip` removes is whitespace on both sides. */
  lemma StripSlice(s: string)
    ensures Lead(s) + |Strip(s)| <= |s|
    ensures Strip(s) == s[Lead(s)..Lead(s) + |Strip(s)|]
    ensures AllSpace(s[..Lead(s)]) && AllSpace(s[Lead(s) + |Strip(s)|..])
  {
    var l := TrimLeft(s);
    var r := TrimRight(l);
    TrimLeftSlice(s);
    TrimRightSlice(l);
    assert l == s[Lead(s)..];
    assert r == l[..|r|];
    assert l[..|r|] == s[Lead(s)..Lead(s) + |r|];
    assert s[Lead(s) + |r|..] == l[|r|..];
  }

  lemma TrimLeftSkips(a: string, x: string)
    requires AllSpace(a)
    requires x == [] || !IsSpace(x[0])
    ensures TrimLeft(a + x) == x
    decreases |a|
  {
    if |a| > 0 {
      assert (a + x)[1..] == a[1..] + x;
      TrimLeftSkips(a[1..], x);
    } else {
      assert a + x == x;
    }
  }

  lemma TrimRightSkips(x: string, b: string)
    requires AllSpace(b)
    requires x == [] || !IsSpace(x[|x| - 1])
    ensures TrimRight(x + b) == x
    decreases |b|
  {
    if |b| > 0 {
      assert (x + b)[..|x + b| - 1] == x + b[..|b| - 1];
      TrimRightSkips(x, b[..|b| - 1]);
    } else {
      assert x + b == x;
    }
  }

  /** `strip` is determined by its three defining facts: whatever is whitespace-padded
      around a text that neither starts nor ends in whitespace strips to that text. */
  lemma {:induction false} StripOf(a: string, m: string, b: string)
    requires AllSpace(a) && AllSpace(b)
    requires m == [] || (!IsSpace(m[0]) && !IsSpace(m[|m| - 1]))
    ensures Strip(a + m + b) == m
  {
    if m == [] {
      assert a + m + b == a + b;
      AllSpaceConcat(a, b);
    } else {
      assert a + m + b == a + (m + b);
      TrimLeftSkips(a, m + b);
      TrimRightSkips(m, b);
    }
  }

  /** A string that neither starts nor ends in whitespace strips to itself. */
  lemma StripUnpadded(m: string)
    requires m == [] || (!IsSpace(m[0]) && !IsSpace(m[|m| - 1]))
    ensures Strip(m) == m
  {
    assert [] + m + [] == m;
    StripOf([], m, []);
  }

  lemma {:induction false} StripIdempotent(s: string)
    ensures Strip(Strip(s)) == Strip(s)
  {
  }

  lemma AllSpaceConcat(x: string, y: string)
    requires AllSpace(x) && AllSpace(y)
    ensures AllSpace(x + y)
  {
    forall k | 0 <= k < |x + y| ensures IsSpace((x + y)[k]) {
      if k < |x| { assert (x + y)[k] == x[k]; } else { assert (x + y)[k] == y[k - |x|]; }
    }
  }

  lemma {:induction false} StripRegrouped(a: string, pre: string, r: string, post: string, b: string)
    requires AllSpace(a) && AllSpace(pre) && AllSpace(post) && AllSpace(b)
    requires r == [] || (!IsSpace(r[0]) && !IsSpace(r[|r| - 1]))
    ensures Strip(a + (pre + r + post) + b) == r
  {
    AllSpaceConcat(a, pre);
    AllSpaceConcat(post, b);
    assert a + (pre + r + post) + b == (a + pre) + r + (post + b);
    StripOf(a + pre, r, post + b);
  }

  /** Whitespace added around a string does not change what it strips to. */
  lemma {:induction false} StripPadded(a: string, s: string, b: string)
    requires AllSpace(a) && AllSpace(b)
    ensures Strip(a + s + b) == Strip(s)
  {
    var r := Strip(s);
    var l := Lead(s);
    StripSlice(s);
    var pre := s[..l];
    var post := s[l + |r|..];
    assert s == pre + r + post;
    StripRegrouped(a, pre, r, post, b);
  }

  lemma StripAppendSpaces(s: string, b: string)
    requires AllSpace(b)
    ensures Strip(s + b) == Strip(s)
  {
    assert [] + s + b == s + b;
    StripPadded([], s, b);
  }

  lemma StripPrependSpaces(a: string, s: string)
    requires AllSpace(a)
    ensures Strip(a + s) == Strip(s)
  {
    assert a + s + [] == a + s;
    StripPadded(a, s, []);
  }

  // ---------------------------------------------------------------------------
  // split / join
  // ---------------------------------------------------------------------------

  /** Python's `s.split(sep)` for a one-character separator: the pieces between
      separators, always at least one. */
  function Split(s: string, sep: char): (r: seq<string>)
    ensures |r| >= 1
    ensures forall k :: 0 <= k < |r| ==> sep !in r[k]
    decreases |s|
  {
    if |s| == 0 then [""]
    else
      var rest := Split(s[1..], sep);
      if s[0] == sep then [""] + rest else [[s[0]] + rest[0]] + rest[1..]
  }

  /** Python's `sep.join(parts)`. */
  function Join(parts: seq<string>, sep: string): string
    decreases |parts|
  {
    if |parts| == 0 then ""
    else if |parts| == 1 then parts[0]
    else parts[0] + sep + Join(parts[1..], sep)
  }

  /** Splitting and re-joining with the same separator gives back the text. */
  lemma {:induction false} JoinSplit(s: string, sep: char)
    ensures Join(Split(s, sep), [sep]) == s
    decreases |s|
  {
    if |s| > 0 {
      var rest := Split(s[1..], sep);
      JoinSplit(s[1..], sep);
      if s[0] == sep {
        assert Split(s, sep) == [""] + rest;
        assert ([""] + rest)[1..] == rest;
      } else {
        var parts := [[s[0]] + rest[0]] + rest[1..];
        assert Split(s, sep) == parts;
        if |rest| == 1 {
          assert Join(rest, [sep]) == rest[0];
        } else {
          assert parts[1..] == rest[1..];
          assert Join(rest, [sep]) == rest[0] + [sep] + Join(rest[1..], [sep]);
        }
      }
    }
  }

  lemma {:induction false} JoinAppend(p: seq<string>, q: seq<string>, sep: string)
    requires |p| >= 1 && |q| >= 1
    ensures Join(p + q, sep) == Join(p, sep) + sep + Join(q, sep)
    decreases |p|
  {
    if |p| == 1 {
      assert (p + q)[1..] == q;
    } else {
      assert (p + q)[1..] == p[1..] + q;
      JoinAppend(p[1..], q, sep);
    }
  }

  lemma SplitCons(c: char, t: string, sep: char)
    ensures var rest := Split(t, sep);
            Split([c] + t, sep) == if c == sep then [""] + rest else [[c] + rest[0]] + rest[1..]
  {
    assert ([c] + t)[1..] == t;
  }

  /** The pieces of `p` then `q`, the last of `p` glued to the first of `q`. */
  function Glue(p: seq<string>, q: seq<string>): seq<string>
    requires |p| >= 1 && |q| >= 1
  {
    p[..|p| - 1] + [p[|p| - 1] + q[0]] + q[1..]
  }

  lemma GlueIndex(p: seq<string>, q: seq<string>)
    requires |p| >= 1 && |q| >= 1
    ensures |Glue(p, q)| == |p| + |q| - 1
    ensures forall k :: 0 <= k < |p| - 1 ==> Glue(p, q)[k] == p[k]
    ensures Glue(p, q)[|p| - 1] == p[|p| - 1] + q[0]
    ensures forall k :: 1 <= k < |q| ==> Glue(p, q)[|p| - 1 + k] == q[k]
  {
  }

  /** Gluing a string onto the first piece commutes with gluing pieces together. */
  lemma GlueFirst(c: string, p: seq<string>, q: seq<string>)
    requires |p| >= 1 && |q| >= 1
    ensures var r := Glue(p, q);
            [c + r[0]] + r[1..] == Glue([c + p[0]] + p[1..], q)
  {
    var r := Glue(p, q);
    var p2 := [c + p[0]] + p[1..];
    if |p| == 1 {
      assert r[0] == p[0] + q[0];
      assert r[1..] == q[1..];
      assert c + (p[0] + q[0]) == (c + p[0]) + q[0];
    } else {
      assert r[0] == p[0];
      assert r[1..] == p[1..|p| - 1] + [p[|p| - 1] + q[0]] + q[1..];
      assert p2[..|p2| - 1] == [c + p[0]] + p[1..|p| - 1];
    }
  }

  lemma GlueEmptyFirst(p: seq<string>, q: seq<string>)
    requires |p| >= 1 && |q| >= 1
    ensures [""] + Glue(p, q) == Glue([""] + p, q)
  {
    var p2 := [""] + p;
    assert p2[..|p2| - 1] == [""] + p[..|p| - 1];
    assert p2[|p2| - 1] == p[|p| - 1];
  }

  lemma SplitConcatStep(c: char, x: string, y: string, sep: char)
    requires Split(x + y, sep) == Glue(Split(x, sep), Split(y, sep))
    ensures Split([c] + x + y, sep) == Glue(Split([c] + x, sep), Split(y, sep))
  {
    assert [c] + x + y == [c] + (x + y);
    SplitCons(c, x, sep);
    SplitCons(c, x + y, sep);
    if c == sep {
      GlueEmptyFirst(Split(x, sep), Split(y, sep));
    } else {
      GlueFirst([c], Split(x, sep), Split(y, sep));
    }
  }

  /** Splitting a concatenation glues the last piece of the left part to the first
      piece of the right part. */
  lemma {:induction false} SplitConcat(x: string, y: string, sep: char)
    ensures Split(x + y, sep) == Glue(Split(x, sep), Split(y, sep))
    decreases |x|
  {
    if |x| == 0 {
      var q := Split(y, sep);
      assert x + y == y;
      assert "" + q[0] == q[0];
      assert [q[0]] + q[1..] == q;
    } else {
      SplitConcat(x[1..], y, sep);
      assert x == [x[0]] + x[1..];
      SplitConcatStep(x[0], x[1..], y, sep);
    }
  }

  /** Splitting at a separator splits the pieces apart. */
  lemma SplitAtSep(x: string, y: string, sep: char)
    ensures Split(x + [sep] + y, sep) == Split(x, sep) + Split(y, sep)
  {
    assert x + [sep] + y == x + ([sep] + y);
    assert ([sep] + y)[1..] == y;
    var q := Split([sep] + y, sep);
    assert q == [""] + Split(y, sep);
    assert q[0] == "" && q[1..] == Split(y, sep);
    SplitConcat(x, [sep] + y, sep);
    var p := Split(x, sep);
    assert p[|p| - 1] + "" == p[|p| - 1];
    assert p[..|p| - 1] + [p[|p| - 1]] == p;
    assert Split(x + [sep] + y, sep) == p[..|p| - 1] + [p[|p| - 1]] + Split(y, sep);
  }

  lemma {:induction false} SplitNoSep(s: string, sep: char)
    requires sep !in s
    ensures Split(s, sep) == [s]
    decreases |s|
  {
    if |s| > 0 {
      assert sep !in s[1..];
      SplitNoSep(s[1..], sep);
      assert [s[0]] + s[1..] == s;
    }
  }

  /** Joining separator-free pieces and splitting again gives back the pieces. */
  lemma {:induction false} SplitJoin(parts: seq<string>, sep: char)
    requires |parts| >= 1
    requires forall k :: 0 <= k < |parts| ==> sep !in parts[k]
    ensures Split(Join(parts, [sep]), sep) == parts
    decreases |parts|
  {
    if |parts| == 1 {
      SplitNoSep(parts[0], sep);
    } else {
      SplitNoSep(parts[0], sep);
      SplitJoin(parts[1..], sep);
      SplitAtSep(parts[0], Join(parts[1..], [sep]), sep);
      assert [parts[0]] + parts[1..] == parts;
    }
  }

  /** Python's `str.splitlines()` with "\n" as the only line boundary: like
      `split("\n")`, but a final empty piece (after a trailing newline, or of the
      empty text) is not a line. */
  function SplitLines(s: string): (r: seq<string>)
    ensures forall k :: 0 <= k < |r| ==> '\n' !in r[k]
    ensures s == [] <==> r == []
    ensures Join(r, "\n") + (if |s| > 0 && s[|s| - 1] == '\n' then "\n" else "") == s
  {
    var pieces := Split(s, '\n');
    JoinSplit(s, '\n');
    JoinLast(pieces[..|pieces| - 1], pieces[|pieces| - 1], "\n");
    assert pieces[..|pieces| - 1] + [pieces[|pieces| - 1]] == pieces;
    if pieces[|pieces| - 1] == "" then pieces[..|pieces| - 1] else pieces
  }

  lemma ConcatAssoc<T>(h: seq<T>, x: seq<T>, y: seq<T>)
    ensures h + (x + y) == (h + x) + y
  {
  }

  /** Cutting a concatenation inside its left part. */
  lemma SliceAppend<T>(a: seq<T>, b: seq<T>, k: nat)
    requires k <= |a|
    ensures a == a[..k] + a[k..]
    ensures (a + b)[..k] == a[..k] && (a + b)[k..] == a[k..] + b
    ensures a + b == a[..k] + (a[k..] + b)
  {
  }

  /** Joining with one more piece at the end. */
  lemma JoinLast(p: seq<string>, x: string, sep: string)
    ensures Join(p + [x], sep) == if p == [] then x else Join(p, sep) + sep + x
  {
    if p == [] {
      assert p + [x] == [x];
    } else {
      JoinAppend(p, [x], sep);
    }
  }

  // ---------------------------------------------------------------------------
  // whitespace-separated words
  // ---------------------------------------------------------------------------

  /** Length of the leading run of non-whitespace characters. */
  function WordLength(s: string): (k: nat)
    ensures k <= |s| && NoSpace(s[..k])
    ensures k < |s| ==> IsSpace(s[k])
    decreases |s|
  {
    if |s| == 0 || IsSpace(s[0]) then 0 else 1 + WordLength(s[1..])
  }

  /** Python's `str.split()` with no argument: the maximal whitespace-free runs. */
  function Words(s: string): (r: seq<string>)
    ensures forall k :: 0 <= k < |r| ==> |r[k]| > 0 && NoSpace(r[k])
    decreases |s|
  {
    if |s| == 0 then []
    else if IsSpace(s[0]) then Words(s[1..])
    else
      var k := WordLength(s);
      [s[..k]] + Words(s[k..])
  }

  lemma {:induction false} WordLengthOf(w: string, rest: string)
    requires NoSpace(w)
    requires rest == [] || IsSpace(rest[0])
    ensures WordLength(w + rest) == |w|
    decreases |w|
  {
    if |w| > 0 {
      assert (w + rest)[0] == w[0];
      assert (w + rest)[1..] == w[1..] + rest;
      WordLengthOf(w[1..], rest);
    } else {
      assert w + rest == rest;
    }
  }

  /** Words separated by single spaces are split back into the same words. */
  lemma {:induction false} WordsJoin(ws: seq<string>)
    requires forall k :: 0 <= k < |ws| ==> |ws[k]| > 0 && NoSpace(ws[k])
    ensures Words(Join(ws, " ")) == ws
    decreases |ws|
  {
    if |ws| == 1 {
      var w := ws[0];
      assert w + "" == w;
      WordLengthOf(w, "");
      assert w[|w|..] == "";
    } else if |ws| > 1 {
      var w := ws[0];
      var rest := Join(ws[1..], " ");
      var s := w + (" " + rest);
      assert Join(ws, " ") == s;
      WordLengthOf(w, " " + rest);
      assert s[..|w|] == w;
      assert s[|w|..] == " " + rest;
      assert (" " + rest)[1..] == rest;
      WordsJoin(ws[1..]);
      assert [w] + ws[1..] == ws;
    }
  }

  lemma {:induction false} WordsPrependSpaces(a: string, s: string)
    requires AllSpace(a)
    ensures Words(a + s) == Words(s)
    decreases |a|
  {
    if |a| > 0 {
      assert (a + s)[1..] == a[1..] + s;
      WordsPrependSpaces(a[1..], s);
    } else {
      assert a + s == s;
    }
  }

  lemma {:induction false} WordsAppendSpaces(s: string, b: string)
    requires AllSpace(b)
    ensures Words(s + b) == Words(s)
    decreases |s|
  {
    if |s| == 0 {
      assert s + b == b;
      assert b + [] == b;
      WordsPrependSpaces(b, []);
    } else if IsSpace(s[0]) {
      assert (s + b)[1..] == s[1..] + b;
      WordsAppendSpaces(s[1..], b);
    } else {
      var k := WordLength(s);
      var w := s[..k];
      assert s == w + s[k..];
      assert s + b == w + (s[k..] + b);
      WordLengthOf(w, s[k..]);
      if k < |s| {
        WordLengthOf(w, s[k..] + b);
      } else {
        assert s[k..] + b == b;
        WordLengthOf(w, b);
      }
      assert (s + b)[..k] == w;
      assert (s + b)[k..] == s[k..] + b;
      WordsAppendSpaces(s[k..], b);
    }
  }

  /** Leading and trailing whitespace never produce words. */
  lemma WordsPadded(a: string, s: string, b: string)
    requires AllSpace(a) && AllSpace(b)
    ensures Words(a + s + b) == Words(s)
  {
    assert a + s + b == a + (s + b);
    WordsPrependSpaces(a, s + b);
    WordsAppendSpaces(s, b);
  }

  /** Every character of every word is a non-space character of the text: if the
      text's characters all satisfy `p` or are whitespace, the words' all satisfy `p`. */
  lemma {:induction false} WordsChars(s: string, p: char -> bool)
    requires forall k :: 0 <= k < |s| ==> p(s[k]) || IsSpace(s[k])
    ensures forall k, j :: 0 <= k < |Words(s)| && 0 <= j < |Words(s)[k]| ==> p(Words(s)[k][j])
    decreases |s|
  {
    if |s| > 0 {
      if IsSpace(s[0]) {
        WordsChars(s[1..], p);
      } else {
        var k := WordLength(s);
        WordsChars(s[k..], p);
        var r := Words(s);
        assert r == [s[..k]] + Words(s[k..]);
        forall i, j | 0 <= i < |r| && 0 <= j < |r[i]| ensures p(r[i][j]) {
          if i == 0 {
            assert r[0][j] == s[j];
          } else {
            assert r[i] == Words(s[k..])[i - 1];
          }
        }
      }
    }
  }

  // ---------------------------------------------------------------------------
  // decimal numerals
  // ---------------------------------------------------------------------------

  function DigitChar(d: nat): char
    requires d < 10
  {
    ('0' as int + d) as char
  }

  /** Python's `str(n)` / `f"{n}"` for a natural number. */
  function NatToString(n: nat): (r: string)
    ensures |r| > 0 && AllDigits(r)
    decreases n
  {
    if n < 10 then [DigitChar(n)] else NatToString(n / 10) + [DigitChar(n % 10)]
  }

  /** Length of the leading decimal-digit run. */
  function DigitRun(s: string): (k: nat)
    ensures k <= |s| && AllDigits(s[..k])
    ensures k < |s| ==> !IsDigit(s[k])
    decreases |s|
  {
    if |s| > 0 && IsDigit(s[0]) then 1 + DigitRun(s[1..]) else 0
  }

  /** A run of digits followed by a non-digit is the whole run. */
  lemma {:induction false} DigitRunOf(w: string, rest: string)
    requires AllDigits(w)
    requires rest == [] || !IsDigit(rest[0])
    ensures DigitRun(w + rest) == |w|
    decreases |w|
  {
    if |w| > 0 {
      assert (w + rest)[0] == w[0];
      assert (w + rest)[1..] == w[1..] + rest;
      DigitRunOf(w[1..], rest);
    } else {
      assert w + rest == rest;
    }
  }

  /** The value of a string of decimal digits. */
  function DigitsValue(s: string): nat
    requires AllDigits(s)
    decreases |s|
  {
    if |s| == 0 then 0 else 10 * DigitsValue(s[..|s| - 1]) + (s[|s| - 1] as int - '0' as int)
  }

  /** Printing a number in decimal and reading the digits back gives the number. */
  lemma {:induction false} DecimalRoundTrip(n: nat)
    ensures DigitsValue(NatToString(n)) == n
    decreases n
  {
    if n >= 10 {
      var p := NatToString(n / 10);
      var r := p + [DigitChar(n % 10)];
      assert r[..|r| - 1] == p;
      DecimalRoundTrip(n / 10);
    }
  }
}

=== FILE: uploads.dfy ===
/** `upload_resources` (backend/app/routers/resources.py): each uploaded file's name is
    made safe, the file is stored, its text is extracted, and one resource row records
    the outcome. Writing the file and the random part of its path are left to the caller:
    an upload carries the path it was stored at. */
module Uploads {
  import opened Wrappers
  import opened Text
  import opened Entities
  import opened Extract
  import opened Store

  /** The name used when the upload has no usable filename, and when sanitising leaves
      nothing. */
  const UploadDefault: string := "upload"
  const FileDefault: string := "file"

  predicate IsSeparator(c: char) {
    c == '/' || c == '\\'
  }

  /** Both path separators replaced by `_`. */
  function ReplaceSeparators(name: string): (r: string)
    ensures |r| == |name|
    ensures forall k :: 0 <= k < |r| ==> !IsSeparator(r[k])
    ensures forall k :: 0 <= k < |r| ==> r[k] == (if IsSeparator(name[k]) then '_' else name[k])
  {
    ReplaceChar(ReplaceChar(name, '/', '_'), '\\', '_')
  }

  /** `safe_filename`. */
  function SafeFilename(name: string): (r: string)
    ensures r != []
    ensures forall k :: 0 <= k < |r| ==> !IsSeparator(r[k])
  {
    var s := Strip(ReplaceSeparators(name));
    StripSlice(ReplaceSeparators(name));
    if s == [] then FileDefault else s
  }

  /** Replacing separators keeps every whitespace character where it was. */
  lemma ReplaceKeepsSpace(name: string)
    ensures AllSpace(ReplaceSeparators(name)) <==> AllSpace(name)
  {
    var t := ReplaceSeparators(name);
    if AllSpace(t) {
      forall k | 0 <= k < |name| ensures IsSpace(name[k]) {
        assert IsSpace(t[k]);
      }
    }
  }

  /** A name that is blank after stripping becomes `file`; any other name is the name
      with each separator replaced by `_` and the surrounding whitespace removed: a slice
      of the replaced name, so every other character is kept in place. */
  lemma SafeFilenameOf(name: string)
    ensures AllSpace(name) ==> SafeFilename(name) == FileDefault
    ensures !AllSpace(name) ==>
      var t := ReplaceSeparators(name);
      && SafeFilename(name) == Strip(t)
      && Lead(t) + |SafeFilename(name)| <= |name|
      && SafeFilename(name) == t[Lead(t)..Lead(t) + |SafeFilename(name)|]
  {
    ReplaceKeepsSpace(name);
    StripSlice(ReplaceSeparators(name));
  }

  lemma ReplaceSeparatorsNone(s: string)
    requires forall k :: 0 <= k < |s| ==> !IsSeparator(s[k])
    ensures ReplaceSeparators(s) == s
  {
  }

  /** A name with no separator and no surrounding whitespace is already safe. */
  lemma SafeFilenameFixed(name: string)
    requires name != [] && !IsSpace(name[0]) && !IsSpace(name[|name| - 1])
    requires forall k :: 0 <= k < |name| ==> !IsSeparator(name[k])
    ensures SafeFilename(name) == name
  {
    ReplaceSeparatorsNone(name);
    StripUnpadded(name);
  }

  /** Sanitising a safe name changes nothing. */
  lemma SafeFilenameIdempotent(name: string)
    ensures SafeFilename(SafeFilename(name)) == SafeFilename(name)
  {
    var r := SafeFilename(name);
    if Strip(ReplaceSeparators(name)) == [] {
      SafeFilenameFixed(FileDefault);
    } else {
      SafeFilenameFixed(r);
    }
  }

  /** One uploaded file: its client-side name (absent or empty when the client sent
      none), content type, what the document libraries make of its bytes, and the path
      it was stored at. */
  datatype Upload = Upload(filename: Option<string>, contentType: Option<string>, doc: Document, storedAt: string)

  /** `safe_filename(f.filename or "upload")`. */
  function OriginalName(f: Upload): string {
    SafeFilename(if f.filename.Some? && f.filename.value != [] then f.filename.value else UploadDefault)
  }

  /** A file sent without a name is called `upload`; any name used is safe. */
  lemma OriginalNameOf(f: Upload)
    ensures f.filename.None? || f.filename.value == [] ==> OriginalName(f) == UploadDefault
    ensures OriginalName(f) != [] && forall k :: 0 <= k < |OriginalName(f)| ==> !IsSeparator(OriginalName(f)[k])
  {
    SafeFilenameFixed(UploadDefault);
  }

  /** What the loop body knows about a file before it writes the row: the safe name,
      the content type, the stored path and `extract_text`'s outcome on the safe name. */
  datatype Prepared = Prepared(name: string, mime: Option<string>, path: string, x: Extraction)

  function Prepare(f: Upload): Prepared {
    var name := OriginalName(f);
    Prepared(name, f.contentType, f.storedAt, ExtractText(name, f.contentType, f.doc))
  }

  /** The row `create_resource` makes for a prepared file with id `id`: the extracted
      text when extraction succeeded, otherwise the extractor's message as the error. */
  function Row(sid: Id, p: Prepared, now: nat, id: Id): Resource {
    Resource(id, sid, p.name, p.mime, p.path, p.x.status,
      if p.x.status == EXTRACTED then Some(p.x.output) else None,
      if p.x.status == FAILED then Some(p.x.output) else None,
      if p.x.status == EXTRACTED || p.x.status == FAILED then Some(now) else None)
  }

  /** The resource row for one file. */
  function UploadOne(db: Db, sid: Id, p: Prepared, now: nat): (Db, Resource) {
    if p.x.status == EXTRACTED then
      CreateResource(db, sid, p.name, p.mime, p.path, p.x.status, Some(p.x.output), None, now)
    else
      CreateResource(db, sid, p.name, p.mime, p.path, p.x.status, None, Some(p.x.output), now)
  }

  function UploadEach(db: Db, sid: Id, ps: seq<Prepared>, now: nat): (Db, seq<Resource>)
    decreases |ps|
  {
    if |ps| == 0 then (db, [])
    else
      var (db1, r) := UploadOne(db, sid, ps[0], now);
      var (db2, rest) := UploadEach(db1, sid, ps[1..], now);
      (db2, [r] + rest)
  }

  /** `upload_resources`: 404 for an unknown session, else the created resources. Each
      file's name and extraction depend on the file alone, so they are worked out
      first and the rows written in file order. */
  function UploadResources(db: Db, sid: Id, files: seq<Upload>, now: nat): (r: (Db, Result<seq<Resource>, HttpError>))
    ensures !HasSession(db, sid) ==> r == (db, Err(HttpError(404, "Session not found")))
  {
    if HasSession(db, sid) then
      var ps := seq(|files|, k requires 0 <= k < |files| => Prepare(files[k]));
      var (db', created) := UploadEach(db, sid, ps, now);
      (db', Ok(created))
    else (db, Err(HttpError(404, "Session not found")))
  }

  lemma UploadOneRow(db: Db, sid: Id, p: Prepared, now: nat)
    ensures var (db', res) := UploadOne(db, sid, p, now);
      && res == Row(sid, p, now, db.nextId)
      && db' == db.(resources := db.resources + [res], nextId := db.nextId + 1)
  {
  }

  lemma RowsCons(sid: Id, ps: seq<Prepared>, now: nat, id: Id, r: Resource, rest: seq<Resource>)
    requires |ps| > 0 && |rest| == |ps| - 1
    requires r == Row(sid, ps[0], now, id)
    requires forall k :: 0 <= k < |rest| ==> rest[k] == Row(sid, ps[1..][k], now, id + 1 + k)
    ensures forall k :: 0 <= k < |ps| ==> ([r] + rest)[k] == Row(sid, ps[k], now, id + k)
  {
    forall k | 0 <= k < |ps| ensures ([r] + rest)[k] == Row(sid, ps[k], now, id + k) {
      if k > 0 {
        assert ps[k] == ps[1..][k - 1];
      }
    }
  }

  /** One resource per file, in file order, appended to the store with consecutive
      fresh ids; nothing else in the store changes. */
  lemma {:induction false} UploadEachSpec(db: Db, sid: Id, ps: seq<Prepared>, now: nat)
    ensures var (db', created) := UploadEach(db, sid, ps, now);
      && |created| == |ps|
      && db' == db.(resources := db.resources + created, nextId := db.nextId + |ps|)
      && forall k :: 0 <= k < |ps| ==> created[k] == Row(sid, ps[k], now, db.nextId + k)
    decreases |ps|
  {
    if |ps| > 0 {
      var (db1, r) := UploadOne(db, sid, ps[0], now);
      UploadOneRow(db, sid, ps[0], now);
      UploadEachSpec(db1, sid, ps[1..], now);
      var (db2, rest) := UploadEach(db1, sid, ps[1..], now);
      assert db.resources + [r] + rest == db.resources + ([r] + rest);
      RowsCons(sid, ps, now, db.nextId, r, rest);
    }
  }

  /** What the row for a file records: its safe name, content type and path, the
      extraction's status, its output as the text when EXTRACTED and as the error
      otherwise, and the time. */
  lemma RowRecords(sid: Id, f: Upload, now: nat, id: Id)
    ensures var res := Row(sid, Prepare(f), now, id);
      var x := ExtractText(OriginalName(f), f.contentType, f.doc);
      && Normalised(res)
      && res.id == id && res.sessionId == sid && res.filename == OriginalName(f)
      && res.mimeType == f.contentType && res.storagePath == f.storedAt && res.status == x.status
      && res.extractedAt == Some(now)
      && (x.status == EXTRACTED ==> res.extractedText == Some(x.output) && res.error == None)
      && (x.status != EXTRACTED ==> res.extractedText == None && res.error == Some(x.output))
  {
    var x := ExtractText(OriginalName(f), f.contentType, f.doc);
    assert x.status == EXTRACTED || x.status == FAILED;
  }

  /** `upload_resources`: an unknown session changes nothing; otherwise exactly one
      resource per file, in file order, each the row for its file, and the store stays
      valid. */
  lemma UploadResourcesSpec(db: Db, sid: Id, files: seq<Upload>, now: nat)
    requires Valid(db)
    ensures var (db', r) := UploadResources(db, sid, files, now);
      && Valid(db')
      && (r.Err? <==> !HasSession(db, sid))
      && (r.Err? ==> db' == db)
      && (r.Ok? ==>
            && |r.value| == |files|
            && db'.resources == db.resources + r.value
            && forall k :: 0 <= k < |files| ==> r.value[k] == Row(sid, Prepare(files[k]), now, db.nextId + k))
  {
    if HasSession(db, sid) {
      var ps := seq(|files|, k requires 0 <= k < |files| => Prepare(files[k]));
      UploadEachSpec(db, sid, ps, now);
      UploadEachValid(db, sid, ps, now);
    }
  }

  /** Rows for files whose extraction settled keep the store valid. */
  lemma UploadEachValid(db: Db, sid: Id, ps: seq<Prepared>, now: nat)
    requires Valid(db)
    requires forall k :: 0 <= k < |ps| ==> ps[k].x.status == EXTRACTED || ps[k].x.status == FAILED
    ensures Valid(UploadEach(db, sid, ps, now).0)
  {
    UploadEachSpec(db, sid, ps, now);
    var (db', created) := UploadEach(db, sid, ps, now);
    forall k | 0 <= k < |created| ensures Normalised(created[k]) && created[k].id < db.nextId + |ps| {
    }
    AppendValid(db, created, |ps|);
  }

  /** Appending normalised resources with ids below the new counter keeps the store
      valid. */
  lemma AppendValid(db: Db, created: seq<Resource>, n: nat)
    requires Valid(db)
    requires forall k :: 0 <= k < |created| ==> Normalised(created[k]) && created[k].id < db.nextId + n
    ensures Valid(db.(resources := db.resources + created, nextId := db.nextId + n))
  {
    var rs := db.resources + created;
    forall k | 0 <= k < |rs| ensures Normalised(rs[k]) && rs[k].id < db.nextId + n {
      if k >= |db.resources| {
        assert rs[k] == created[k - |db.resources|];
      } else {
        assert rs[k] == db.resources[k];
      }
    }
  }
}

=== FILE: wrappers.dfy ===
/** Failure-compatible wrappers shared by the whole model. */
module Wrappers {

  /** A value that may be absent (Python's `None`, TypeScript's `null`). */
  datatype Option<+T> = None | Some(value: T) {

    /** Returns the value, or `default` when absent. */
    function GetOr(default: T): T {
      match this
      case Some(v) => v
      case None => default
    }
  }

  /** The outcome of an operation that either produces a value or fails with an error. */
  datatype Result<+T, +E> = Ok(value: T) | Err(error: E)

  /** The outcome of a collaborator call seen from the caller: a value, or a raised error message. */
  datatype Outcome<+T> = Success(value: T) | Raised(message: string)

  /** The position of the first element of `s` that satisfies `p`, or `None` when none
      does (a `.first()` query, a `find` over a list). */
  function Find<T>(s: seq<T>, p: T -> bool): (r: Option<nat>)
    ensures r.Some? ==> r.value < |s| && p(s[r.value])
    ensures r.Some? ==> forall j :: 0 <= j < r.value ==> !p(s[j])
    ensures r.None? <==> forall j :: 0 <= j < |s| ==> !p(s[j])
    decreases |s|
  {
    if |s| == 0 then None
    else if p(s[0]) then Some(0)
    else
      assert forall j :: 1 <= j < |s| ==> s[j] == s[1..][j - 1];
      match Find(s[1..], p)
      case None => None
      case Some(i) => Some(i + 1)
  }

  /** An HTTP error response (FastAPI's `HTTPException`): status code and detail. */
  datatype HttpError = HttpError(status: nat, detail: string)
}
